=== FILE: README.md ===
# Relic AI — a Dafny model of the artifact store and its capture, gallery and detail logic

Relic AI is a browser app for archaeologists. It photographs an artifact,
stores the photos on the device in an IndexedDB database through Dexie,
and asks serverless functions for a 3D reconstruction, an AI colorization
or an AI information card. This project models, as pure Dafny functions
over immutable values, the parts of the app that decide what is stored and
what is shown:

- **The local database** (`ArtifactDb`, `StoreLinks`). There are five tables
  (artifacts, images, models, info cards, color variants) keyed by id. The
  model covers every exported operation of the database module: the
  cascading artifact delete, the child writes that update their parent's
  id lists, the index lookups, the newest-first listing, export and clear.
  `StoreLinks` states the invariant these operations keep. A store is
  *linked* when every artifact's image and variant id lists are duplicate
  free and list exactly the records that point back at it.
- **Capture and upload** (`CaptureSession`, `CapturePages`, `FileUpload`).
  This covers the guided camera session, the two capture pages' "write the
  images, then create the artifact" sequence (including what a failure
  halfway through leaves behind), and the file picker's validation and
  slot limit. Both capture pages (`SaveThePastPage`, `PastPalettePage`) run
  the same creation sequence, so one function models both; only the
  capture mode written and the camera mode differ.
- **Galleries** (`Galleries`). The two galleries split the artifact list by
  capture mode.
- **Detail pages** (`SaveDetail`, `ReconstructionCard`, `PaletteDetail`,
  `ColorizationProgress`, `InfoCardGeneration`, `VariantExport`,
  `VariantDetailView`, `Thresholds`). These cover status mapping, the
  progress captions and the tab state machines, plus the variant export
  and viewer dialogs.
- **The camera hook** (`Camera`). This covers error classification and
  messages, facing detection and device labels, and the start, stop and
  switch states.
- **The three serverless functions** (`HttpCommon`, `InfoCardHandler`,
  `ColorizeHandler`, `ReconstructHandler`). This covers their method gate
  and request validation, the prompt the info-card function sends, and
  the disclaimer it stamps on every card. `Header` models the page title
  lookup.

Clocks, fresh ids, the API key, the parsed request body and the upstream
AI service's answer are parameters of the functions that use them.
Dexie's `add` fails on an existing primary key (`Failure(DuplicateKey)`).
Its `update` on a missing key changes nothing. A query on an index returns
records in key order, so "first" means the least key.

The model follows the code as written:

- `saveInfoCard` stores the card as given. It does not check for a
  disclaimer; the disclaimer is added by the info-card function.
- `createArtifact` stores the record as given. It does not initialise the
  id lists; the capture pages build them.
- `addImage`, `saveModel`, `saveInfoCard` and `addColorVariant` still write
  the child record when its artifact is missing. They only skip the parent
  update.
- `captureMode` is not declared in the artifact metadata type, but both
  capture pages write it and both galleries read it. The model gives the
  metadata an optional `captureMode`.

## Model

| member | source | states |
|---|---|---|
| ArtifactTypes.AngleCount | src/types/artifact.ts:15-23 | there are exactly eight image angles, listed once each |
| ArtifactTypes.StatusCount | src/types/artifact.ts:130-136 | there are exactly six artifact statuses, listed once each |
| ArtifactTypes.SchemeCount | src/types/artifact.ts:80-87 | there are exactly seven color schemes, listed once each |
| ArtifactTypes.SchemeName | src/types/artifact.ts:80-87 | a scheme's stored literal is never empty and never the "unknown" fallback label |
| ArtifactTypes.ParseScheme | src/types/artifact.ts:80-87 | a parsed literal is exactly the name of the scheme it yields |
| ArtifactTypes.SchemeNameRoundTrip | src/types/artifact.ts:80-87 | parsing a scheme's literal gives back that scheme |
| ArtifactTypes.FormatName | src/types/artifact.ts:25-37 | a model's format is one of glb, gltf, obj |
| ArtifactTypes.VariantAlwaysSpeculative | src/types/artifact.ts:66-78 | every color variant is flagged speculative |
| ArtifactDb.MergeArtifact | src/lib/db/index.ts:59-64 | an update keeps the id and always stamps updatedAt with the current time, whatever the patch says |
| ArtifactDb.MergeInfoCard | src/lib/db/index.ts:140-145 | an info-card update keeps the id and stamps updatedAt with the current time |
| ArtifactDb.Without | src/lib/db/index.ts:102 | filtering an id out of an id list removes every occurrence of it and keeps all other entries with their multiplicity |
| ArtifactDb.WithoutConcat | src/lib/db/index.ts:102 | the filter distributes over concatenation |
| ArtifactDb.WithoutOwner | src/lib/db/index.ts:69-72 | deleting by artifactId removes exactly the records owned by that artifact and leaves the others unchanged |
| ArtifactDb.CreateArtifact | src/lib/db/index.ts:47-49 | adding an artifact fails with a duplicate-key error exactly when its id is taken; otherwise only the artifact table changes, by that one entry |
| ArtifactDb.UpdateArtifact | src/lib/db/index.ts:59-64 | an update of a missing id changes nothing; otherwise only that artifact changes, to the merged record, and the key set is kept |
| ArtifactDb.DeleteArtifact | src/lib/db/index.ts:66-75 | deleting an artifact removes it and exactly its images, models, info cards and variants, and keeps every other record unchanged |
| ArtifactDb.AddImage | src/lib/db/index.ts:78-89 | adding an image fails exactly on a taken id; otherwise it stores the image and, when the parent exists, appends its id to the parent's imageIds and stamps the parent |
| ArtifactDb.DeleteImage | src/lib/db/index.ts:95-108 | deleting an image removes it and filters its id out of the parent's imageIds (when the parent exists); a missing id changes nothing |
| ArtifactDb.SaveModel | src/lib/db/index.ts:111-119 | saving a model fails exactly on a taken id; otherwise it stores the model and points the existing parent's model3DId at it |
| ArtifactDb.SaveInfoCard | src/lib/db/index.ts:126-134 | saving a card fails exactly on a taken id; otherwise it stores the card and points the existing parent's infoCardId at it |
| ArtifactDb.UpdateInfoCard | src/lib/db/index.ts:140-145 | an info-card update of a missing id changes nothing; otherwise only that card changes, to the merged record |
| ArtifactDb.FirstOwned | src/lib/db/index.ts:121-123 | an index lookup returns the least key owned by the artifact, and nothing exactly when the artifact owns no record |
| ArtifactDb.GetModelForArtifact | src/lib/db/index.ts:121-123 | the model lookup returns the stored model with the least id for the artifact, and nothing exactly when it has none |
| ArtifactDb.GetInfoCardForArtifact | src/lib/db/index.ts:136-138 | the info-card lookup returns the stored card with the least id for the artifact, and nothing exactly when it has none |
| ArtifactDb.AddColorVariant | src/lib/db/index.ts:148-159 | adding a variant fails exactly on a taken id; otherwise it stores it and appends its id to the existing parent's colorVariantIds |
| ArtifactDb.DeleteColorVariant | src/lib/db/index.ts:165-178 | deleting a variant removes it and filters its id out of the parent's colorVariantIds; a missing id changes nothing |
| ArtifactDb.ExportAllData | src/lib/db/index.ts:181-195 | the export holds exactly the records of each of the five tables |
| ArtifactDb.ClearAllData | src/lib/db/index.ts:197-205 | clearing empties all five tables |
| ArtifactDb.ListedBeforeTransitive | src/lib/db/index.ts:55-57 | the listing order (newer createdAt first, ties by larger id) is transitive |
| ArtifactDb.InsertNewestFirst | src/lib/db/index.ts:55-57 | inserting an artifact into a newest-first list keeps it newest first and adds exactly one element |
| ArtifactDb.InsertPermutes | src/lib/db/index.ts:55-57 | the insertion adds the new artifact and keeps every old one: the result is a permutation of the old list plus the new artifact |
| ArtifactDb.GetAllArtifacts | src/lib/db/index.ts:55-57 | the listing is newest first and lists every stored artifact exactly once and nothing else |
| StoreLinks.EmptyStoreLinked | src/lib/db/index.ts:197-205 | the empty database is linked |
| StoreLinks.WithoutKeepsDistinct | src/lib/db/index.ts:102 | filtering an id out of a duplicate-free list keeps it duplicate free and removes exactly that id |
| StoreLinks.AppendKeepsDistinct | src/lib/db/index.ts:84 | appending a fresh id keeps a list duplicate free and adds exactly that id |
| StoreLinks.WithoutAppended | src/lib/db/index.ts:84 | filtering out an id just appended gives back the list before the append |
| StoreLinks.CreateArtifactLinked | src/lib/db/index.ts:47-49 | creating an artifact keeps the database linked exactly when the new artifact's lists already match the records that point at it |
| StoreLinks.AddImageKeepsLinked | src/lib/db/index.ts:78-89 | adding an image keeps the database linked |
| StoreLinks.DeleteImageKeepsLinked | src/lib/db/index.ts:95-108 | deleting an image keeps the database linked |
| StoreLinks.AddColorVariantKeepsLinked | src/lib/db/index.ts:148-159 | adding a color variant keeps the database linked |
| StoreLinks.DeleteColorVariantKeepsLinked | src/lib/db/index.ts:165-178 | deleting a color variant keeps the database linked |
| StoreLinks.DeleteArtifactKeepsLinked | src/lib/db/index.ts:66-75 | the cascading delete keeps the database linked and leaves no image or variant owned by the deleted id |
| StoreLinks.SaveModelKeepsLinked | src/lib/db/index.ts:111-119 | saving a model keeps the database linked |
| StoreLinks.SaveInfoCardKeepsLinked | src/lib/db/index.ts:126-134 | saving an info card keeps the database linked |
| StoreLinks.UpdateArtifactKeepsLinked | src/lib/db/index.ts:59-64 | an update that leaves both id lists alone keeps the database linked |
| StoreLinks.UpdateInfoCardKeepsLinked | src/lib/db/index.ts:140-145 | an info-card update keeps the database linked |
| StoreLinks.OrphanImage | src/lib/db/index.ts:78-89 | an image whose artifact is missing is still stored, and no artifact lists it |
| StoreLinks.AddThenDeleteImage | src/lib/db/index.ts:78-108 | adding a fresh image and deleting it restores every table, up to the parent's updatedAt |
| StoreLinks.AddThenDeleteColorVariant | src/lib/db/index.ts:148-178 | adding a fresh variant and deleting it restores every table, up to the parent's updatedAt |
| StoreLinks.LinkedFreshUnlisted | src/lib/db/index.ts:78-89 | in a linked database an id not in a child table is on no artifact's list, so the add/delete round trip applies |
| StoreLinks.RegeneratedModelLookup | src/lib/db/index.ts:111-123 | after a second model is saved, the artifact points at the newer model while the index lookup still finds the one with the least id |
| StoreLinks.EmptyArtifactPatch | src/lib/db/index.ts:59-64 | an empty patch changes only updatedAt |
| StoreLinks.ArtifactPatchIdempotent | src/lib/db/index.ts:59-64 | applying the same patch twice equals applying it once at the later time |
| StoreLinks.ArtifactPatchFields | src/lib/db/index.ts:59-64 | every artifact field other than id and updatedAt takes the patch's value when patched and keeps its value otherwise |
| StoreLinks.InfoCardPatchIdempotent | src/lib/db/index.ts:140-145 | applying the same info-card patch twice equals applying it once at the later time |
| StoreLinks.InfoCardPatchFields | src/lib/db/index.ts:140-145 | every info-card field other than id and updatedAt takes the patch's value when patched and keeps its value otherwise |
| StoreLinks.IndexById | src/lib/db/index.ts:181-195 | re-keying records with distinct ids yields a map from each id to its record, with no other keys |
| StoreLinks.ExportRoundTrip | src/lib/db/index.ts:181-195 | re-keying the exported artifacts by id gives back the artifact table |
| StoreLinks.ClearThenExport | src/lib/db/index.ts:181-205 | exporting after a clear gives five empty tables |
| CaptureSession.StartSession | src/components/camera/CaptureSession.tsx:32-39 | a session starts capturing at the first angle with nothing captured or pending, and the app-wide store keeps what it held |
| CaptureSession.ScreenOf | src/components/camera/CaptureSession.tsx:135-148 | a pending shot shows its preview; otherwise the viewfinder exactly while capturing, else the review grid |
| CaptureSession.DoneRule | src/components/camera/CaptureSession.tsx:59-61 | Done is enabled with at least one shot in single mode and at least three in multi mode |
| CaptureSession.TakeShot | src/components/camera/CaptureSession.tsx:63-66 | a shot becomes the pending blob and stops the viewfinder, with nothing else changed |
| CaptureSession.Confirm | src/components/camera/CaptureSession.tsx:68-98 | confirming appends the pending shot at the current angle to the session and to the app-wide store; single mode completes with that one capture, multi mode advances the angle (stopping at the last) and resumes capturing |
| CaptureSession.Retake | src/components/camera/CaptureSession.tsx:100-108 | retake and discard drop the pending shot and resume capturing |
| CaptureSession.DeleteShot | src/components/camera/CaptureSession.tsx:110-122 | deleting a shot removes exactly the shots with that id and nothing else changes |
| CaptureSession.WithoutShotConcat | src/components/camera/CaptureSession.tsx:110-122 | the shot filter distributes over concatenation |
| CaptureSession.Complete | src/components/camera/CaptureSession.tsx:124-128 | completion empties the app-wide store, changes nothing else, and hands over every captured blob with its angle, in capture order |
| CaptureSession.Cancel | src/components/camera/CaptureSession.tsx:130-133 | cancel empties the app-wide store, changes nothing else, and reports cancellation |
| CaptureSession.AddPhoto | src/components/camera/CaptureSession.tsx:280-282 | the Add Photo tile returns from the review grid to the viewfinder and changes nothing else |
| CaptureSession.PrevAngle | src/components/camera/CaptureSession.tsx:162 | the previous-angle button moves back one angle and does nothing at the first |
| CaptureSession.NextAngle | src/components/camera/CaptureSession.tsx:173 | the next-angle button moves forward one angle and does nothing at the last |
| CaptureSession.SelectAngle | src/components/camera/CaptureSession.tsx:190 | picking an angle dot jumps to that angle and changes nothing else |
| CaptureSession.PrevUndoesNext | src/components/camera/CaptureSession.tsx:162-173 | next then previous returns to the same session away from the last angle |
| CaptureSession.NextUndoesPrev | src/components/camera/CaptureSession.tsx:162-173 | previous then next returns to the same session away from the first angle |
| CaptureSession.SingleModeCompletesWithOne | src/components/camera/CaptureSession.tsx:68-98 | in single mode, one shot confirmed completes the session with exactly that capture |
| CaptureSession.ScreensFollowTheShot | src/components/camera/CaptureSession.tsx:63-108 | a shot shows its preview; confirming it in multi mode or retaking it returns to the viewfinder |
| CaptureSession.SingleModeLeavesShotInStore | src/components/camera/CaptureSession.tsx:68-91 | the single-mode shot that completes the session is still appended to the app-wide store |
| CaptureSession.DeletedShotLingersInStore | src/components/camera/CaptureSession.tsx:77-133 | a shot deleted from the grid stays in the app-wide store until Done or Cancel empties it |
| CaptureSession.ThreeShotsEnableDone | src/components/camera/CaptureSession.tsx:59-98 | three confirmed shots in multi mode enable Done and are paired with front, back and left |
| CapturePages.CaptureModeName | src/pages/SaveThePastPage.tsx:35 | the capture mode written into an artifact is never empty, so the galleries can read it |
| CapturePages.WriteImages | src/pages/SaveThePastPage.tsx:41-56 | the write loop succeeds exactly when every capture was written |
| CapturePages.WriteImagesStops | src/pages/SaveThePastPage.tsx:41-56 | the loop stops at the first id already taken, and every id written before it was fresh |
| CapturePages.WriteImagesKeys | src/pages/SaveThePastPage.tsx:41-56 | after the loop the image table holds the old records unchanged plus exactly the ids written |
| CapturePages.WriteImagesRecords | src/pages/SaveThePastPage.tsx:45-53 | each written image records its capture's blob and angle under the new artifact's id |
| CapturePages.NewArtifact | src/pages/SaveThePastPage.tsx:27-61 | the new artifact has status images-captured, the page's capture mode, the written image ids, no variants and the first capture as thumbnail |
| CapturePages.CompleteCapture | src/pages/SaveThePastPage.tsx:23-78 | the artifact is created exactly when there is a capture, every image write succeeded and its id is free; on failure the artifact table is unchanged while written images stay |
| CapturePages.EmptyCaptureStoresNothing | src/pages/SaveThePastPage.tsx:60 | an empty capture list fails at the thumbnail and stores nothing |
| CapturePages.PartialFailureLeavesOrphans | src/pages/SaveThePastPage.tsx:41-77 | a write failing at image n creates no artifact but leaves the first n images stored and owned by the unsaved artifact id |
| CapturePages.FreshIdsWriteAll | src/pages/SaveThePastPage.tsx:41-56 | distinct fresh ids make every write succeed |
| CapturePages.CreationKeepsLinked | src/pages/SaveThePastPage.tsx:23-78 | with fresh ids a capture creates the artifact listing exactly its images, stores each image, and keeps the database linked |
| CapturePages.UploadCaptures | src/pages/SaveThePastPage.tsx:80-86 | uploaded files keep their order; the first is the front view and the rest are details |
| CapturePages.UploadHasOneFront | src/pages/SaveThePastPage.tsx:80-86 | an upload has at most one front image |
| CapturePages.CameraMode | src/pages/PastPalettePage.tsx:92 | the palette page always runs a single-shot camera session, and the save page uses the selected mode |
| CapturePages.UploadLimit | src/pages/SaveThePastPage.tsx:107 | the upload limit is 1 for the palette page or single mode and 10 for multi mode |
| CapturePages.PaletteCameraMakesOneImage | src/pages/PastPalettePage.tsx:20-75 | one confirmed shot on the palette page creates an artifact with exactly one image |
| Galleries.Filter | src/pages/SaveGalleryPage.tsx:23-28 | the filter keeps exactly the matching artifacts and preserves newest-first order |
| Galleries.SaveGallery | src/pages/SaveGalleryPage.tsx:17-28 | the save gallery shows exactly the loaded artifacts in save mode or without a mode, newest first, and nothing while loading |
| Galleries.PaletteGallery | src/pages/PaletteGalleryPage.tsx:17-26 | the palette gallery shows exactly the loaded artifacts in palette mode, newest first, and nothing while loading |
| Galleries.ExactlyOneGallery | src/pages/PaletteGalleryPage.tsx:23-26 | an artifact written by a capture page appears in exactly one gallery |
| Galleries.UnknownModeInNeither | src/pages/SaveGalleryPage.tsx:23-28 | an artifact with any other non-empty mode appears in neither gallery |
| Galleries.GalleriesPartition | src/pages/SaveGalleryPage.tsx:23-28 | with known modes the two galleries together hold as many artifacts as the database |
| FileUpload.ValidateFile | src/components/camera/FileUpload.tsx:35-48 | a file is rejected for its type exactly when the type is not accepted, for its size exactly when it is accepted but over the limit, and otherwise accepted |
| FileUpload.ExactLimitAccepted | src/components/camera/FileUpload.tsx:42-45 | a file of exactly the size limit is accepted |
| FileUpload.CheckFiles | src/components/camera/FileUpload.tsx:66-79 | every examined file is either kept (valid) or reported with its error |
| FileUpload.CheckFilesConcat | src/components/camera/FileUpload.tsx:66-79 | validating two batches keeps the same files as validating them one after the other |
| FileUpload.CheckFilesErrorsConcat | src/components/camera/FileUpload.tsx:66-70 | the errors of rejected files follow batch order over a concatenation |
| FileUpload.ProcessFiles | src/components/camera/FileUpload.tsx:50-81 | only the free slots are examined; the new error list holds the max-files error with the free slots and the limit first when the batch is too large, then one error per rejected examined file and nothing else; the selection never exceeds the limit |
| FileUpload.ErrorsReplaced | src/components/camera/FileUpload.tsx:52-79 | the previous error list does not affect the result: each batch replaces it |
| FileUpload.FittingValidBatch | src/components/camera/FileUpload.tsx:50-81 | a valid batch that fits is appended whole with no errors |
| FileUpload.AllValidKept | src/components/camera/FileUpload.tsx:66-79 | when every file is valid, all are kept in order with no error |
| FileUpload.SelectionBounded | src/components/camera/FileUpload.tsx:50-81 | any sequence of batches keeps the selection within the limit |
| FileUpload.RemoveFile | src/components/camera/FileUpload.tsx:105-120 | removing a file deletes exactly the file at that index and keeps the errors |
| FileUpload.Continue | src/components/camera/FileUpload.tsx:122-126 | continue hands over the selection exactly when it is non-empty |
| Thresholds.StepIndex | src/pages/SaveArtifactDetailPage.tsx:326-345 | the step is the first threshold the progress is below, with every earlier threshold reached |
| Thresholds.StepIndexMonotone | src/pages/SaveArtifactDetailPage.tsx:326-345 | more progress never moves the caption back a step |
| Thresholds.StepIndexBetween | src/pages/SaveArtifactDetailPage.tsx:326-345 | with ascending thresholds, the step is k exactly when the progress lies between thresholds k-1 and k |
| Thresholds.PhaseThresholdsAscending | src/pages/SaveArtifactDetailPage.tsx:326-345 | the upload and processing thresholds are strictly ascending |
| ReconstructionCard.FlagsPartition | src/components/reconstruction/ReconstructionCard.tsx:53-56 | every status sets exactly one of idle, processing, completed and error |
| ReconstructionCard.StartButtonText | src/components/reconstruction/ReconstructionCard.tsx:65-76 | the start caption asks for images, for the missing count up to three, or offers to start with the image count |
| ReconstructionCard.CaptionMatchesGate | src/components/reconstruction/ReconstructionCard.tsx:59-76 | the caption offers a start exactly when the start button is enabled |
| ReconstructionCard.CardControls | src/components/reconstruction/ReconstructionCard.tsx:105-179 | each control shows exactly in its status: selector and start when idle, cancel and note while processing, retry on error with a handler, view on completion with a handler |
| ReconstructionCard.ControlsCoherent | src/components/reconstruction/ReconstructionCard.tsx:105-179 | the selector and the progress panel never show together, start is enabled only where shown, and the cancel button and processing note appear together |
| ReconstructionCard.OneFooterAction | src/components/reconstruction/ReconstructionCard.tsx:142-179 | at most one of start, retry and view-result is shown |
| SaveDetail.StoredStatus | src/pages/SaveArtifactDetailPage.tsx:189-194 | a stored model means completed; otherwise the artifact's status gives processing or error, and never uploading |
| SaveDetail.CardStatus | src/pages/SaveArtifactDetailPage.tsx:213-220 | a stored model wins; an idle hook falls back to the stored status |
| SaveDetail.LiveStateShown | src/pages/SaveArtifactDetailPage.tsx:213-220 | a running or finished hook state is shown as its own status |
| SaveDetail.StatusMessageThresholds | src/pages/SaveArtifactDetailPage.tsx:326-345 | the reconstruction caption follows the threshold step of its phase |
| SaveDetail.StatusMessageMonotone | src/pages/SaveArtifactDetailPage.tsx:326-345 | within a phase, more progress never gives an earlier caption |
| SaveDetail.HandleStart | src/pages/SaveArtifactDetailPage.tsx:222-226 | starting sends every image's blob in order with the selected method, and nothing without images |
| SaveDetail.TabBadge | src/pages/SaveArtifactDetailPage.tsx:160-163 | the tab badge is hidden for no or non-positive counts, shows 1 to 9, and shows 9+ above nine |
| SaveDetail.ModelFileName | src/pages/SaveArtifactDetailPage.tsx:281 | the download name is "artifact-", the id, a dot and the format |
| ColorizationProgress.Clamp | src/components/colorization/ColorizationProgress.tsx:62 | progress is clamped into 0..100 and left alone inside it |
| ColorizationProgress.ClampMonotone | src/components/colorization/ColorizationProgress.tsx:62 | clamping is monotone and idempotent |
| ColorizationProgress.DefaultMessageThresholds | src/components/colorization/ColorizationProgress.tsx:148-173 | the processing caption follows the 30/60/90 steps and never moves back |
| ColorizationProgress.DisplayedMessage | src/components/colorization/ColorizationProgress.tsx:118 | a non-empty status message wins over the default caption of the clamped progress |
| ColorizationProgress.BoxesExclusive | src/components/colorization/ColorizationProgress.tsx:81-136 | the error and success boxes never show together, and cancel is not offered with an error |
| PaletteDetail.ColorizeStatusOf | src/pages/PaletteArtifactDetailPage.tsx:201-213 | uploading and processing map to processing; complete, error and idle map one to one |
| PaletteDetail.HomeMode | src/pages/PaletteArtifactDetailPage.tsx:173 | the tab opens on the gallery exactly when variants exist |
| PaletteDetail.OpenTab | src/pages/PaletteArtifactDetailPage.tsx:173-177 | the tab opens with no variant selected, no error, the original scheme and an empty prompt |
| PaletteDetail.HandleGenerate | src/pages/PaletteArtifactDetailPage.tsx:215-223 | generating clears the error and colorizes the first image with the selected scheme, passing the prompt only for the custom scheme; without images nothing happens |
| PaletteDetail.VariantClick | src/pages/PaletteArtifactDetailPage.tsx:225-228 | clicking a variant opens it in the detail view |
| PaletteDetail.VariantDeleted | src/pages/PaletteArtifactDetailPage.tsx:230-239 | a successful delete returns to the gallery with no selection; a failed one changes nothing |
| PaletteDetail.CloseDetail | src/pages/PaletteArtifactDetailPage.tsx:252-255 | closing the detail view returns to the gallery with no selection |
| PaletteDetail.CancelGenerate | src/pages/PaletteArtifactDetailPage.tsx:263-267 | cancel returns to the tab's home mode and changes nothing else |
| PaletteDetail.ShowGallery | src/pages/PaletteArtifactDetailPage.tsx:269-273 | success, view-result and the back button show the gallery and change nothing else |
| PaletteDetail.ColorizeFailed | src/pages/PaletteArtifactDetailPage.tsx:195-197 | a failure records its message and keeps the mode |
| PaletteDetail.HandleRetry | src/pages/PaletteArtifactDetailPage.tsx:257-261 | retry clears the error and generates again |
| PaletteDetail.TabView | src/pages/PaletteArtifactDetailPage.tsx:275-303 | without images the placeholder shows; the detail view shows exactly in detail mode with a selection; generate mode always shows the generator |
| PaletteDetail.DeleteLeavesDetail | src/pages/PaletteArtifactDetailPage.tsx:225-239 | opening a variant and deleting it lands on the gallery |
| PaletteDetail.VariantFileName | src/pages/PaletteArtifactDetailPage.tsx:247 | the download name is "colorized-", the scheme, a dash, the first eight characters of the id, and ".png" |
| PaletteDetail.ColorizeMessageThresholds | src/pages/PaletteArtifactDetailPage.tsx:361-380 | the colorization caption follows the threshold step of its phase |
| InfoCardGeneration.OpenPanel | src/components/info-card/InfoCardGeneration.tsx:38-39 | the panel opens on the metadata step with the initial metadata or an empty one |
| InfoCardGeneration.HandleGenerate | src/components/info-card/InfoCardGeneration.tsx:79-87 | generating without images only alerts; otherwise it moves to generating and sends the first image with the metadata |
| InfoCardGeneration.OnSuccess | src/components/info-card/InfoCardGeneration.tsx:65-69 | success moves to the complete step and hands the card over |
| InfoCardGeneration.OnError | src/components/info-card/InfoCardGeneration.tsx:70-74 | an error moves to the error step with no other effect |
| InfoCardGeneration.HandleCancel | src/components/info-card/InfoCardGeneration.tsx:92-99 | cancel returns to the metadata step, aborts only a running request, resets the hook and calls the handler when given |
| InfoCardGeneration.HandleRetry | src/components/info-card/InfoCardGeneration.tsx:104-107 | retry returns to the metadata step and resets the hook |
| InfoCardGeneration.RetryRegenerates | src/components/info-card/InfoCardGeneration.tsx:79-107 | after an error, retry then generate sends the same request again |
| InfoCardGeneration.StatusMessageThresholds | src/components/info-card/InfoCardGeneration.tsx:112-131 | the caption follows the threshold step of its phase, and an idle hook shows the first upload caption |
| Camera.EveryCategoryReachable | src/hooks/useCamera.ts:16-41 | every error category, unknown included, is what some error name classifies as |
| Camera.ErrorMessagesDistinct | src/hooks/useCamera.ts:46-65 | different categories get different messages |
| Camera.Lower | src/hooks/useCamera.ts:71 | lower-casing keeps the length and maps each character on its own: ASCII capitals and the Kelvin sign to their lower-case letters, all else unchanged |
| Camera.LowerIdempotent | src/hooks/useCamera.ts:71 | lower-casing a lower-cased label changes nothing |
| Camera.LowerConcat | src/hooks/useCamera.ts:71 | lower-casing distributes over concatenation |
| Camera.DetectFacing | src/hooks/useCamera.ts:70-81 | a label naming the front is the user camera, one naming only the back is the environment camera, and anything else is unknown |
| Camera.DetectFacingIgnoresCase | src/hooks/useCamera.ts:70-81 | a label and its lower-cased form get the same facing |
| Camera.FacingMonotone | src/hooks/useCamera.ts:70-81 | adding text before or after a front label keeps it front, and a label with a back word never becomes unknown |
| Camera.FacingExamples | src/hooks/useCamera.ts:70-81 | "FaceTime HD Camera" is the user camera, front words win over back words, and an empty label is unknown |
| Camera.DeviceLabel | src/hooks/useCamera.ts:123 | a device keeps its label, or is called "Camera " plus the first four characters of its id |
| Camera.VideoInputs | src/hooks/useCamera.ts:119-120 | the device list keeps exactly the video inputs |
| Camera.VideoInputsSingle | src/hooks/useCamera.ts:119-120 | a single device is kept exactly when it is a video input |
| Camera.VideoInputsConcat | src/hooks/useCamera.ts:119-120 | the video-input filter distributes over concatenation, keeping order and multiplicity |
| Camera.VideoDevices | src/hooks/useCamera.ts:119-125 | each video input becomes one camera entry, in order |
| Camera.CapabilitiesOf | src/hooks/useCamera.ts:129-139 | several cameras, a front camera and a back camera are reported exactly when present; torch and zoom never |
| Camera.InitialState | src/hooks/useCamera.ts:87-111 | the hook starts idle, without error, facing the requested side |
| Camera.StopCamera | src/hooks/useCamera.ts:150-164 | stopping goes idle and clears the error |
| Camera.StartCamera | src/hooks/useCamera.ts:169-232 | without support it reports not-supported; a success is active on the requested side; a failure reports the classified error, as denied exactly for a permission error |
| Camera.DeniedExactlyForPermissionNames | src/hooks/useCamera.ts:16-41 | a failed start is denied exactly for the two permission error names, and failed otherwise |
| Camera.SwitchCamera | src/hooks/useCamera.ts:237-240 | a successful switch turns to the other side |
| Camera.SwitchTwiceRestoresFacing | src/hooks/useCamera.ts:237-240 | two successful switches face the original side again |
| Camera.StartSettles | src/hooks/useCamera.ts:169-232 | a start never ends in the loading state it did not start in, and is active exactly when it succeeded |
| VariantExport.SchemeKey | src/components/colorization/ColorVariantExport.tsx:20-39 | a scheme value is labelled by itself when known and as "unknown" otherwise |
| VariantExport.SchemeKeyOfScheme | src/components/colorization/ColorVariantExport.tsx:20-39 | no scheme is labelled "unknown" |
| VariantExport.Ids | src/components/colorization/ColorVariantExport.tsx:93-99 | every listed variant's id is among the list's ids |
| VariantExport.IdsOnlyListed | src/components/colorization/ColorVariantExport.tsx:93-99 | only listed variants contribute ids |
| VariantExport.Toggle | src/components/colorization/ColorVariantExport.tsx:78-88 | a checkbox click flips exactly that variant's membership |
| VariantExport.ToggleTwice | src/components/colorization/ColorVariantExport.tsx:78-88 | two clicks restore the selection |
| VariantExport.ToggleSelectAll | src/components/colorization/ColorVariantExport.tsx:93-99 | select-all clears a full selection and otherwise selects every listed variant |
| VariantExport.IdsCount | src/components/colorization/ColorVariantExport.tsx:72 | distinct variants have as many ids as there are variants |
| VariantExport.AllSelectedMeansEvery | src/components/colorization/ColorVariantExport.tsx:72 | with a selection of listed ids, the count test means exactly that every variant is selected |
| VariantExport.SelectAllTwice | src/components/colorization/ColorVariantExport.tsx:93-99 | from a partial selection select-all selects everything, and a second click clears it |
| VariantExport.Selected | src/components/colorization/ColorVariantExport.tsx:111 | the filter keeps exactly the listed variants whose ids are selected |
| VariantExport.SelectedSingle | src/components/colorization/ColorVariantExport.tsx:111 | a one-variant list keeps its variant exactly when its id is selected |
| VariantExport.SelectedConcat | src/components/colorization/ColorVariantExport.tsx:111 | the filter distributes over concatenation, so exported variants keep list order |
| VariantExport.SelectedCount | src/components/colorization/ColorVariantExport.tsx:111 | with distinct ids the filter keeps one variant per selected listed id |
| VariantExport.HandleExport | src/components/colorization/ColorVariantExport.tsx:104-132 | nothing is exported with an empty selection; a direct download happens only without metadata and is the one selected listed variant; a ZIP holds exactly the selected listed variants in list order, and metadata always means a ZIP |
| VariantExport.EnabledButtonExports | src/components/colorization/ColorVariantExport.tsx:286 | an enabled export button always starts an export |
| VariantExport.ExportCaption | src/components/colorization/ColorVariantExport.tsx:304 | the caption is "exporting" exactly while exporting, "exported" exactly after success, "download" exactly for at most one id without metadata, and "ZIP" otherwise |
| VariantExport.CaptionMatchesAction | src/components/colorization/ColorVariantExport.tsx:104-132 | for a selection of listed ids, the caption says ZIP exactly when a ZIP is built and download exactly when a single file is downloaded |
| VariantDetailView.SchemeKeysDistinct | src/components/colorization/VariantDetailView.tsx:21-40 | two different schemes never share a label |
| VariantDetailView.Escape | src/components/colorization/VariantDetailView.tsx:98-106 | Escape closes an open confirmation, and otherwise closes the viewer |
| VariantDetailView.BackdropClick | src/components/colorization/VariantDetailView.tsx:125 | the backdrop closes the viewer exactly when no confirmation is open |
| VariantDetailView.DeleteClick | src/components/colorization/VariantDetailView.tsx:82-84 | the delete button opens the confirmation |
| VariantDetailView.ConfirmDelete | src/components/colorization/VariantDetailView.tsx:86-90 | confirming marks the viewer as deleting and asks the host to delete exactly when a handler is given |
| VariantDetailView.CancelDelete | src/components/colorization/VariantDetailView.tsx:92-94 | cancel closes the confirmation unless a delete is under way |
| VariantDetailView.EscapeTwiceCloses | src/components/colorization/VariantDetailView.tsx:98-106 | with the confirmation open, a first Escape closes it and a second closes the viewer |
| VariantDetailView.DeletingIsSticky | src/components/colorization/VariantDetailView.tsx:86-106 | once a delete is under way, Escape, the backdrop, the delete button and cancel all leave it under way |
| VariantDetailView.ConfirmedDeleteLocksDialog | src/components/colorization/VariantDetailView.tsx:86-94 | after a confirmed delete the cancel button changes nothing: the dialog stays open and deleting |
| VariantDetailView.DeleteThenCancelRestores | src/components/colorization/VariantDetailView.tsx:82-94 | opening and cancelling the confirmation restores the viewer |
| HttpCommon.Gate | netlify/functions/generate-info-card.ts:71-81 | OPTIONS gets 200 with no body and every other non-POST method gets 405 |
| HttpCommon.Caught | netlify/functions/generate-info-card.ts:186-196 | an exception becomes a 500 carrying its message |
| InfoCardHandler.Line | netlify/functions/generate-info-card.ts:105-119 | a context field adds its labelled line exactly when it is non-empty |
| InfoCardHandler.UserMessage | netlify/functions/generate-info-card.ts:105-119 | the prompt is the fixed request, then location, layer, site and notes lines in that order |
| InfoCardHandler.MessageExtendsIntro | netlify/functions/generate-info-card.ts:105-119 | every prompt starts with the fixed request |
| InfoCardHandler.EmptyContextAddsNothing | netlify/functions/generate-info-card.ts:105-119 | a context with only empty fields adds nothing to the prompt |
| InfoCardHandler.NotesComeLast | netlify/functions/generate-info-card.ts:105-119 | non-empty notes end the prompt |
| InfoCardHandler.StampDisclaimer | netlify/functions/generate-info-card.ts:173-179 | the card gets the fixed disclaimer, overriding any model-supplied one, and keeps its other fields |
| InfoCardHandler.Handle | netlify/functions/generate-info-card.ts:71-196 | the gate first, then 500 without key, 400 exactly for a missing image, the upstream status for a failed upstream, 500 for empty upstream content, a 500 carrying the message when the body, the completion call or the parse of its content throws, and a 200 card exactly when every step succeeds |
| InfoCardHandler.SuccessCarriesDisclaimer | netlify/functions/generate-info-card.ts:173-185 | every card returned carries the disclaimer |
| InfoCardHandler.KeyCheckedBeforeBody | netlify/functions/generate-info-card.ts:84-94 | without an API key the answer does not depend on the request body or upstream |
| ColorizeHandler.PromptCoverage | netlify/functions/colorize.ts:22-29 | every scheme but custom has a preset prompt; the table is read only by the disabled upstream call (colorize.ts:84-87), so no live response depends on it |
| ColorizeHandler.PromptKeysArePresets | netlify/functions/colorize.ts:22-29 | every prompt key is a known scheme other than custom (a fact about the table the disabled upstream call would read) |
| ColorizeHandler.Handle | netlify/functions/colorize.ts:42-117 | the gate first; 400 exactly for a missing image, then exactly for a missing scheme; 501 exactly for a complete request; 500 for a thrown parse |
| ColorizeHandler.ImageCheckedFirst | netlify/functions/colorize.ts:58-72 | a missing image is reported whatever the scheme |
| ReconstructHandler.WithDefault | netlify/functions/reconstruct-3d.ts:50-51 | a default applies only to an absent field, not to a null one |
| ReconstructHandler.OptionsOf | netlify/functions/reconstruct-3d.ts:50-51 | the method defaults to trellis and background removal to true |
| ReconstructHandler.DefaultsIdempotent | netlify/functions/reconstruct-3d.ts:50-51 | applying the defaults twice changes nothing, and no option is left absent |
| ReconstructHandler.Handle | netlify/functions/reconstruct-3d.ts:36-109 | the gate first; 400 exactly for a missing image; 501 exactly with an image; 500 for a thrown parse |
| ReconstructHandler.OptionsIgnored | netlify/functions/reconstruct-3d.ts:50-98 | the answer does not depend on the options |
| Header.GetTitle | src/components/layout/Header.tsx:14-20 | artifact routes get the artifact title first; other paths get their table entry or the app name |
| Header.FixedRoutes | src/components/layout/Header.tsx:3-8 | the four fixed routes get their titles |
| Header.ExactMatchOnly | src/components/layout/Header.tsx:19 | an unlisted path gets the same title as the home page |
| Header.TitleRange | src/components/layout/Header.tsx:3-20 | every title is one of the five known titles |

## Left out

- Dexie's engine, IndexedDB transactions, promises and live queries. Each operation is one atomic step, and concurrent writes or interleavings are not modelled.
- Blob contents, `compressImage`, image sizes and object URLs. Blobs are opaque values, and compression is the identity that never fails.
- Clocks and `generateId`. Timestamps and ids are parameters; one `now` serves a whole capture.
- `exportAllData` returns arrays; the model returns the record sets, so array order is left out.
- The serverless functions' CORS headers, `fetch`, the upstream AI service and `JSON.parse`. Their outcomes are parameters. A `null` body, which throws when destructured, is folded into the thrown case.
- Request fields of non-string JSON types. Fields are strings, absent or (for the reconstruct options) null.
- The info-card fields are an abstract string map; the card's schema is not validated, as in the source.
- Rendering, CSS classes, icons and i18n. Captions are datatypes standing for translation keys.
- `useGalleryFilters` (search, sort, filter chips) and the gallery rendering. Only the mode split is modelled.
- The camera stream, `getUserMedia`, video elements, torch and zoom probing, permission queries and device-change events.
- Camera.Lower: maps ASCII capitals and the Kelvin sign (U+212A, which JavaScript lower-cases to 'k') and keeps every other character. JavaScript also folds other scripts and can change a label's length; of those, only U+0130 yields an ASCII letter, an 'i' followed by a combining dot that no facing keyword continues with, so the facing verdict is the same.
- `enumerateDevices` failing (the hook then returns an empty list).
- `useReconstruct3D`, `useColorize` and `useGenerateInfoCard`: their internal progress reporting and cancellation. The model takes their state and progress as inputs.
- Floating-point progress. Progress is a real number and the thresholds compare exactly.
- The service worker, routing, the home and settings pages, the bottom navigation and the capture overlays: none of them stores or decides anything.
- CapturePages.WriteImages: its own contract only bounds the written count. The stop, key-set and per-record facts are separate lemmas (WriteImagesStops, WriteImagesKeys, WriteImagesRecords).
- ArtifactDb.InsertNewestFirst: its contract gives order, length and head. Its permutation property is the separate lemma InsertPermutes.
- VariantExport.CaptionMatchesAction: requires that the selection holds only listed ids. A stale id left after a variant is removed can make the ZIP caption show for a single download.
- VariantDetailView.ConfirmDelete: the host's delete is a request and its completion is not modelled. The handler never resets `isDeleting`, so the dialog stays open and locked until the host closes the viewer (DeletingIsSticky, ConfirmedDeleteLocksDialog).
- The app-wide capture store's own module is not part of this model. It is taken to append on `addCapturedImage` and empty on `clearCapturedImages`, and the `timestamp` it records is left out.
- ArtifactTypes.ArtifactMetadata: the optional GPS `coordinates` (latitude, longitude, accuracy as floating-point numbers) are left out; nothing in the modelled code reads or writes them.
- KeyOrder.Less: compares strings by Unicode code point. IndexedDB compares string keys by UTF-16 code unit, which differs only between supplementary-plane characters and U+E000 to U+FFFF.
- ArtifactDb.MergeArtifact: the patch has no `id` field. `Partial<Artifact>` allows one, but no caller passes it, and what Dexie does with a changed primary key is not modelled; "keeps the id" holds for the id-free patches the callers pass.
- ArtifactDb.MergeInfoCard: likewise, the patch has no `id` field although `Partial<InfoCard>` allows one; no caller passes it.
- ArtifactDb.UpdateArtifact: "the key set is kept" rests on the id-free patch above.
- ArtifactDb.UpdateInfoCard: "only that card changes" rests on the id-free patch above.
- The palette page's camera session is always single-shot. The multi-shot mode it could pass is unreachable there.
- `ProcessingStatus` (the progress record of the global store) is not modelled; its progress is documented as 0 to 100 but is a plain number. The UI clamps progress where it shows it (ColorizationProgress.Clamp).

=== FILE: artifact_db.dfy ===
/**
 * The local artifact store: five tables keyed by record id (artifacts,
 * images, models, infoCards, colorVariants) and the helper operations that
 * read and write them. Every helper is a pure transition from one store
 * value to the next; the current time is a parameter.
 *
 * Table semantics follow the embedded database the source uses: `add` of
 * a key already present fails and changes nothing, `update` of a missing
 * key silently changes nothing, `delete` of a missing key is a no-op, and
 * a transaction is one atomic step.
 */
module ArtifactDb {
  import opened Wrappers
  import opened ArtifactTypes
  import KeyOrder

  datatype Store = Store(
    artifacts: map<string, Artifact>,
    images: map<string, ArtifactImage>,
    models: map<string, Model3D>,
    infoCards: map<string, InfoCard>,
    colorVariants: map<string, ColorVariant>)

  const EmptyStore := Store(map[], map[], map[], map[], map[])

  datatype TableName = ArtifactsTable | ImagesTable | ModelsTable | InfoCardsTable | ColorVariantsTable

  /** The constraint error raised by `add` when the key is already stored. */
  datatype DbError = DuplicateKey(table: TableName, key: string)

  /** Each record is stored under its own id: the tables use `id` as inbound primary key. */
  ghost predicate Keyed(s: Store) {
    && (forall k :: k in s.artifacts ==> s.artifacts[k].id == k)
    && (forall k :: k in s.images ==> s.images[k].id == k)
    && (forall k :: k in s.models ==> s.models[k].id == k)
    && (forall k :: k in s.infoCards ==> s.infoCards[k].id == k)
    && (forall k :: k in s.colorVariants ==> s.colorVariants[k].id == k)
  }

  function ImageOwner(i: ArtifactImage): string { i.artifactId }
  function ModelOwner(m: Model3D): string { m.artifactId }
  function InfoCardOwner(c: InfoCard): string { c.artifactId }
  function VariantOwner(v: ColorVariant): string { v.artifactId }

  // ---------------------------------------------------------------------
  // Partial updates

  /**
   * The fields a caller may pass to `updateArtifact`, except the primary key
   * `id`, which no caller passes. `None` leaves a field alone; for an
   * optional field, `Some(None)` removes it.
   */
  datatype ArtifactPatch = ArtifactPatch(
    createdAt: Option<Time>,
    updatedAt: Option<Time>,
    status: Option<ArtifactStatus>,
    imageIds: Option<seq<string>>,
    model3DId: Option<Option<string>>,
    infoCardId: Option<Option<string>>,
    colorVariantIds: Option<seq<string>>,
    metadata: Option<ArtifactMetadata>,
    thumbnailBlob: Option<Option<Blob>>)

  const NoArtifactChange := ArtifactPatch(None, None, None, None, None, None, None, None, None)

  /** `{ ...updates, updatedAt: now }` merged into an artifact: the patch's own updatedAt never wins. */
  function MergeArtifact(a: Artifact, p: ArtifactPatch, now: Time): (r: Artifact)
    ensures r.id == a.id && r.updatedAt == now
  {
    Artifact(
      a.id,
      p.createdAt.GetOr(a.createdAt),
      now,
      p.status.GetOr(a.status),
      p.imageIds.GetOr(a.imageIds),
      p.model3DId.GetOr(a.model3DId),
      p.infoCardId.GetOr(a.infoCardId),
      p.colorVariantIds.GetOr(a.colorVariantIds),
      p.metadata.GetOr(a.metadata),
      p.thumbnailBlob.GetOr(a.thumbnailBlob))
  }

  /** The fields a caller may pass to `updateInfoCard`, except the primary key `id`, which no caller passes. */
  datatype InfoCardPatch = InfoCardPatch(
    artifactId: Option<string>,
    createdAt: Option<Time>,
    updatedAt: Option<Time>,
    material: Option<string>,
    estimatedAge: Option<EstimatedAge>,
    possibleUse: Option<string>,
    culturalContext: Option<string>,
    similarArtifacts: Option<seq<string>>,
    preservationNotes: Option<string>,
    aiModel: Option<string>,
    aiConfidence: Option<real>,
    isHumanEdited: Option<bool>,
    disclaimer: Option<string>)

  function MergeInfoCard(c: InfoCard, p: InfoCardPatch, now: Time): (r: InfoCard)
    ensures r.id == c.id && r.updatedAt == now
  {
    InfoCard(
      c.id,
      p.artifactId.GetOr(c.artifactId),
      p.createdAt.GetOr(c.createdAt),
      now,
      p.material.GetOr(c.material),
      p.estimatedAge.GetOr(c.estimatedAge),
      p.possibleUse.GetOr(c.possibleUse),
      p.culturalContext.GetOr(c.culturalContext),
      p.similarArtifacts.GetOr(c.similarArtifacts),
      p.preservationNotes.GetOr(c.preservationNotes),
      p.aiModel.GetOr(c.aiModel),
      p.aiConfidence.GetOr(c.aiConfidence),
      p.isHumanEdited.GetOr(c.isHumanEdited),
      p.disclaimer.GetOr(c.disclaimer))
  }

  /** `ids.filter(x => x !== id)`. */
  function Without(ids: seq<string>, id: string): (r: seq<string>)
    ensures id !in r
    ensures multiset(r) == multiset(ids)[id := 0]
    ensures id !in ids ==> r == ids
  {
    if |ids| == 0 then []
    else if ids[0] == id then
      assert ids == [ids[0]] + ids[1..];
      Without(ids[1..], id)
    else
      assert ids == [ids[0]] + ids[1..];
      [ids[0]] + Without(ids[1..], id)
  }

  /** Filtering commutes with concatenation: surviving ids keep their relative order. */
  lemma {:induction false} WithoutConcat(a: seq<string>, b: seq<string>, id: string)
    ensures Without(a + b, id) == Without(a, id) + Without(b, id)
    decreases |a|
  {
    if |a| > 0 {
      assert (a + b)[1..] == a[1..] + b;
      WithoutConcat(a[1..], b, id);
    } else {
      assert a + b == b;
    }
  }

  /** The records of `m` whose owner is not `id` (`where('artifactId').equals(id).delete()`). */
  function WithoutOwner<T>(m: map<string, T>, owner: T -> string, id: string): (r: map<string, T>)
    ensures forall k :: k in r <==> k in m && owner(m[k]) != id
    ensures forall k :: k in r ==> r[k] == m[k]
  {
    map k | k in m && owner(m[k]) != id :: m[k]
  }

  // ---------------------------------------------------------------------
  // Artifacts

  /** `createArtifact`: a plain `add`; the lists on the record are stored as given. */
  function CreateArtifact(s: Store, a: Artifact): (r: Result<Store, DbError>)
    ensures r.Failure? <==> a.id in s.artifacts
    ensures r.Failure? ==> r.error == DuplicateKey(ArtifactsTable, a.id)
    ensures r.Success? ==> r.value.artifacts == s.artifacts[a.id := a]
    ensures r.Success? ==> r.value.(artifacts := s.artifacts) == s
  {
    if a.id in s.artifacts then Failure(DuplicateKey(ArtifactsTable, a.id))
    else Success(s.(artifacts := s.artifacts[a.id := a]))
  }

  /** `updateArtifact`: merge the patch and stamp `updatedAt`; a missing id changes nothing. */
  function UpdateArtifact(s: Store, id: string, p: ArtifactPatch, now: Time): (r: Store)
    ensures id !in s.artifacts ==> r == s
    ensures r.artifacts.Keys == s.artifacts.Keys
    ensures id in s.artifacts ==> r.artifacts[id] == MergeArtifact(s.artifacts[id], p, now)
    ensures forall k :: k in s.artifacts && k != id ==> r.artifacts[k] == s.artifacts[k]
    ensures r.(artifacts := s.artifacts) == s
  {
    if id in s.artifacts then s.(artifacts := s.artifacts[id := MergeArtifact(s.artifacts[id], p, now)])
    else s
  }

  /**
   * `deleteArtifact`: one transaction removing the artifact and every image,
   * model, info card and color variant whose `artifactId` is `id`.
   */
  function DeleteArtifact(s: Store, id: string): (r: Store)
    ensures r.artifacts == s.artifacts - {id}
    ensures forall k :: k in r.images <==> k in s.images && s.images[k].artifactId != id
    ensures forall k :: k in r.models <==> k in s.models && s.models[k].artifactId != id
    ensures forall k :: k in r.infoCards <==> k in s.infoCards && s.infoCards[k].artifactId != id
    ensures forall k :: k in r.colorVariants <==> k in s.colorVariants && s.colorVariants[k].artifactId != id
    ensures forall k :: k in r.images ==> r.images[k] == s.images[k]
    ensures forall k :: k in r.models ==> r.models[k] == s.models[k]
    ensures forall k :: k in r.infoCards ==> r.infoCards[k] == s.infoCards[k]
    ensures forall k :: k in r.colorVariants ==> r.colorVariants[k] == s.colorVariants[k]
  {
    Store(
      s.artifacts - {id},
      WithoutOwner(s.images, ImageOwner, id),
      WithoutOwner(s.models, ModelOwner, id),
      WithoutOwner(s.infoCards, InfoCardOwner, id),
      WithoutOwner(s.colorVariants, VariantOwner, id))
  }

  // ---------------------------------------------------------------------
  // Images

  /**
   * `addImage`: add the image, then append its id to the owner's `imageIds`
   * and stamp `updatedAt`. A missing owner is skipped silently, leaving the
   * image orphaned.
   */
  function AddImage(s: Store, img: ArtifactImage, now: Time): (r: Result<Store, DbError>)
    ensures r.Failure? <==> img.id in s.images
    ensures r.Failure? ==> r.error == DuplicateKey(ImagesTable, img.id)
    ensures r.Success? ==> r.value.images == s.images[img.id := img]
    ensures r.Success? ==> r.value.models == s.models && r.value.infoCards == s.infoCards
                           && r.value.colorVariants == s.colorVariants
    ensures r.Success? && img.artifactId !in s.artifacts ==> r.value.artifacts == s.artifacts
    ensures r.Success? && img.artifactId in s.artifacts ==>
              var a := s.artifacts[img.artifactId];
              r.value.artifacts == s.artifacts[img.artifactId := a.(imageIds := a.imageIds + [img.id], updatedAt := now)]
  {
    if img.id in s.images then Failure(DuplicateKey(ImagesTable, img.id))
    else
      var added := s.(images := s.images[img.id := img]);
      if img.artifactId in s.artifacts then
        var a := s.artifacts[img.artifactId];
        Success(UpdateArtifact(added, img.artifactId,
                               NoArtifactChange.(imageIds := Some(a.imageIds + [img.id])), now))
      else Success(added)
  }

  /**
   * `deleteImage`: a missing image is a no-op; otherwise the id is filtered
   * out of the owner's `imageIds` (when the owner exists) and the image removed.
   */
  function DeleteImage(s: Store, id: string, now: Time): (r: Store)
    ensures id !in s.images ==> r == s
    ensures id in s.images ==> r.images == s.images - {id}
    ensures r.models == s.models && r.infoCards == s.infoCards && r.colorVariants == s.colorVariants
    ensures id in s.images && s.images[id].artifactId in s.artifacts ==>
              var aid := s.images[id].artifactId;
              var a := s.artifacts[aid];
              r.artifacts == s.artifacts[aid := a.(imageIds := Without(a.imageIds, id), updatedAt := now)]
    ensures id in s.images && s.images[id].artifactId !in s.artifacts ==> r.artifacts == s.artifacts
  {
    if id !in s.images then s
    else
      var aid := s.images[id].artifactId;
      var unlinked :=
        if aid in s.artifacts then
          UpdateArtifact(s, aid, NoArtifactChange.(imageIds := Some(Without(s.artifacts[aid].imageIds, id))), now)
        else s;
      unlinked.(images := unlinked.images - {id})
  }

  // ---------------------------------------------------------------------
  // 3D models and info cards

  /**
   * `saveModel`: add the model and point the artifact's `model3DId` at it,
   * replacing any earlier reference. The superseded model stays stored.
   */
  function SaveModel(s: Store, m: Model3D, now: Time): (r: Result<Store, DbError>)
    ensures r.Failure? <==> m.id in s.models
    ensures r.Failure? ==> r.error == DuplicateKey(ModelsTable, m.id)
    ensures r.Success? ==> r.value.models == s.models[m.id := m]
    ensures r.Success? ==> r.value.images == s.images && r.value.infoCards == s.infoCards
                           && r.value.colorVariants == s.colorVariants
    ensures r.Success? && m.artifactId !in s.artifacts ==> r.value.artifacts == s.artifacts
    ensures r.Success? && m.artifactId in s.artifacts ==>
              var a := s.artifacts[m.artifactId];
              r.value.artifacts == s.artifacts[m.artifactId := a.(model3DId := Some(m.id), updatedAt := now)]
  {
    if m.id in s.models then Failure(DuplicateKey(ModelsTable, m.id))
    else
      Success(UpdateArtifact(s.(models := s.models[m.id := m]), m.artifactId,
                             NoArtifactChange.(model3DId := Some(Some(m.id))), now))
  }

  /**
   * `saveInfoCard`: add the card and point the artifact's `infoCardId` at it.
   * The disclaimer is stored as given, without any check.
   */
  function SaveInfoCard(s: Store, c: InfoCard, now: Time): (r: Result<Store, DbError>)
    ensures r.Failure? <==> c.id in s.infoCards
    ensures r.Failure? ==> r.error == DuplicateKey(InfoCardsTable, c.id)
    ensures r.Success? ==> r.value.infoCards == s.infoCards[c.id := c]
    ensures r.Success? ==> r.value.images == s.images && r.value.models == s.models
                           && r.value.colorVariants == s.colorVariants
    ensures r.Success? && c.artifactId !in s.artifacts ==> r.value.artifacts == s.artifacts
    ensures r.Success? && c.artifactId in s.artifacts ==>
              var a := s.artifacts[c.artifactId];
              r.value.artifacts == s.artifacts[c.artifactId := a.(infoCardId := Some(c.id), updatedAt := now)]
  {
    if c.id in s.infoCards then Failure(DuplicateKey(InfoCardsTable, c.id))
    else
      Success(UpdateArtifact(s.(infoCards := s.infoCards[c.id := c]), c.artifactId,
                             NoArtifactChange.(infoCardId := Some(Some(c.id))), now))
  }

  /** `updateInfoCard`: merge the patch and stamp `updatedAt`; a missing id changes nothing. */
  function UpdateInfoCard(s: Store, id: string, p: InfoCardPatch, now: Time): (r: Store)
    ensures id !in s.infoCards ==> r == s
    ensures r.infoCards.Keys == s.infoCards.Keys
    ensures id in s.infoCards ==> r.infoCards[id] == MergeInfoCard(s.infoCards[id], p, now)
    ensures forall k :: k in s.infoCards && k != id ==> r.infoCards[k] == s.infoCards[k]
    ensures r.(infoCards := s.infoCards) == s
  {
    if id in s.infoCards then s.(infoCards := s.infoCards[id := MergeInfoCard(s.infoCards[id], p, now)])
    else s
  }

  /** `k` is the key `where('artifactId').equals(aid).first()` finds: the least key owned by `aid`. */
  predicate IsFirstOwned<T>(m: map<string, T>, owner: T -> string, aid: string, k: string) {
    && k in m
    && owner(m[k]) == aid
    && forall k' :: k' in m && owner(m[k']) == aid ==> KeyOrder.LessOrEqual(k, k')
  }

  /** Scans `m` for the first record owned by `aid` in index order. */
  method FirstOwned<T>(m: map<string, T>, owner: T -> string, aid: string) returns (r: Option<string>)
    ensures r.Some? ==> IsFirstOwned(m, owner, aid, r.value)
    ensures r.None? <==> forall k :: k in m ==> owner(m[k]) != aid
  {
    var rest := m.Keys;
    r := None;
    while rest != {}
      invariant rest <= m.Keys
      invariant r.Some? ==> r.value in m && owner(m[r.value]) == aid && r.value !in rest
      invariant r.Some? ==> forall k' :: k' in m && k' !in rest && owner(m[k']) == aid ==> KeyOrder.LessOrEqual(r.value, k')
      invariant r.None? ==> forall k' :: k' in m && k' !in rest ==> owner(m[k']) != aid
      decreases rest
    {
      var k :| k in rest;
      if owner(m[k]) == aid {
        if r.None? {
          r := Some(k);
        } else if KeyOrder.Less(k, r.value) {
          var best := r.value;
          forall k' | k' in m && k' !in rest && owner(m[k']) == aid
            ensures KeyOrder.Less(k, k')
          {
            if k' != best {
              KeyOrder.Transitive(k, best, k');
            }
          }
          r := Some(k);
        } else {
          KeyOrder.Total(k, r.value);
        }
      }
      rest := rest - {k};
    }
  }

  /**
   * `getModelForArtifact`: the first model of the artifact in index order
   * (least id). After a regenerate this need not be the model `model3DId` names.
   */
  method GetModelForArtifact(s: Store, aid: string) returns (r: Option<Model3D>)
    requires Keyed(s)
    ensures r.None? <==> forall k :: k in s.models ==> s.models[k].artifactId != aid
    ensures r.Some? ==> IsFirstOwned(s.models, ModelOwner, aid, r.value.id) && s.models[r.value.id] == r.value
  {
    var k := FirstOwned(s.models, ModelOwner, aid);
    r := if k.Some? then Some(s.models[k.value]) else None;
  }

  /** `getInfoCardForArtifact`: the first info card of the artifact in index order. */
  method GetInfoCardForArtifact(s: Store, aid: string) returns (r: Option<InfoCard>)
    requires Keyed(s)
    ensures r.None? <==> forall k :: k in s.infoCards ==> s.infoCards[k].artifactId != aid
    ensures r.Some? ==> IsFirstOwned(s.infoCards, InfoCardOwner, aid, r.value.id) && s.infoCards[r.value.id] == r.value
  {
    var k := FirstOwned(s.infoCards, InfoCardOwner, aid);
    r := if k.Some? then Some(s.infoCards[k.value]) else None;
  }

  // ---------------------------------------------------------------------
  // Color variants

  /** `addColorVariant`: the image protocol applied to `colorVariantIds`. */
  function AddColorVariant(s: Store, v: ColorVariant, now: Time): (r: Result<Store, DbError>)
    ensures r.Failure? <==> v.id in s.colorVariants
    ensures r.Failure? ==> r.error == DuplicateKey(ColorVariantsTable, v.id)
    ensures r.Success? ==> r.value.colorVariants == s.colorVariants[v.id := v]
    ensures r.Success? ==> r.value.images == s.images && r.value.models == s.models
                           && r.value.infoCards == s.infoCards
    ensures r.Success? && v.artifactId !in s.artifacts ==> r.value.artifacts == s.artifacts
    ensures r.Success? && v.artifactId in s.artifacts ==>
              var a := s.artifacts[v.artifactId];
              r.value.artifacts == s.artifacts[v.artifactId := a.(colorVariantIds := a.colorVariantIds + [v.id], updatedAt := now)]
  {
    if v.id in s.colorVariants then Failure(DuplicateKey(ColorVariantsTable, v.id))
    else
      var added := s.(colorVariants := s.colorVariants[v.id := v]);
      if v.artifactId in s.artifacts then
        var a := s.artifacts[v.artifactId];
        Success(UpdateArtifact(added, v.artifactId,
                               NoArtifactChange.(colorVariantIds := Some(a.colorVariantIds + [v.id])), now))
      else Success(added)
  }

  /** `deleteColorVariant`: the image protocol applied to `colorVariantIds`. */
  function DeleteColorVariant(s: Store, id: string, now: Time): (r: Store)
    ensures id !in s.colorVariants ==> r == s
    ensures id in s.colorVariants ==> r.colorVariants == s.colorVariants - {id}
    ensures r.images == s.images && r.models == s.models && r.infoCards == s.infoCards
    ensures id in s.colorVariants && s.colorVariants[id].artifactId in s.artifacts ==>
              var aid := s.colorVariants[id].artifactId;
              var a := s.artifacts[aid];
              r.artifacts == s.artifacts[aid := a.(colorVariantIds := Without(a.colorVariantIds, id), updatedAt := now)]
    ensures id in s.colorVariants && s.colorVariants[id].artifactId !in s.artifacts ==> r.artifacts == s.artifacts
  {
    if id !in s.colorVariants then s
    else
      var aid := s.colorVariants[id].artifactId;
      var unlinked :=
        if aid in s.artifacts then
          UpdateArtifact(s, aid, NoArtifactChange.(colorVariantIds := Some(Without(s.artifacts[aid].colorVariantIds, id))), now)
        else s;
      unlinked.(colorVariants := unlinked.colorVariants - {id})
  }

  // ---------------------------------------------------------------------
  // Export and reset

  /** The five table contents `exportAllData` returns (their array order is not modelled). */
  datatype Snapshot = Snapshot(
    artifacts: set<Artifact>,
    images: set<ArtifactImage>,
    models: set<Model3D>,
    infoCards: set<InfoCard>,
    colorVariants: set<ColorVariant>)

  function ExportAllData(s: Store): (r: Snapshot)
    ensures r.artifacts == s.artifacts.Values && r.images == s.images.Values
    ensures r.models == s.models.Values && r.infoCards == s.infoCards.Values
    ensures r.colorVariants == s.colorVariants.Values
  {
    Snapshot(s.artifacts.Values, s.images.Values, s.models.Values, s.infoCards.Values, s.colorVariants.Values)
  }

  /** `clearAllData`: one transaction emptying all five tables. */
  function ClearAllData(s: Store): (r: Store)
    ensures r.artifacts == map[] && r.images == map[] && r.models == map[]
    ensures r.infoCards == map[] && r.colorVariants == map[]
  {
    EmptyStore
  }

  // ---------------------------------------------------------------------
  // Gallery order

  /** `a` comes before `b` in `orderBy('createdAt').reverse()`: newer first, ties by descending id. */
  predicate ListedBefore(a: Artifact, b: Artifact) {
    a.createdAt > b.createdAt || (a.createdAt == b.createdAt && KeyOrder.Less(b.id, a.id))
  }

  predicate NewestFirst(r: seq<Artifact>) {
    forall i, j :: 0 <= i < j < |r| ==> ListedBefore(r[i], r[j])
  }

  lemma ListedBeforeTransitive(a: Artifact, b: Artifact, c: Artifact)
    requires ListedBefore(a, b) && ListedBefore(b, c)
    ensures ListedBefore(a, c)
  {
    if a.createdAt == b.createdAt && b.createdAt == c.createdAt {
      KeyOrder.Transitive(c.id, b.id, a.id);
    }
  }

  lemma NewestFirstTail(r: seq<Artifact>)
    requires NewestFirst(r) && |r| > 0
    ensures NewestFirst(r[1..])
  {
    forall i, j | 0 <= i < j < |r| - 1 ensures ListedBefore(r[1..][i], r[1..][j]) {
      assert r[1..][i] == r[i + 1] && r[1..][j] == r[j + 1];
    }
  }

  /** A head listed before the first element of a newest-first list is listed before all of it. */
  lemma NewestFirstCons(x: Artifact, t: seq<Artifact>)
    requires NewestFirst(t)
    requires |t| > 0 ==> ListedBefore(x, t[0])
    ensures NewestFirst([x] + t)
  {
    var xt := [x] + t;
    forall i, j | 0 <= i < j < |xt| ensures ListedBefore(xt[i], xt[j]) {
      assert xt[j] == t[j - 1];
      if i == 0 {
        if j > 1 {
          ListedBeforeTransitive(x, t[0], t[j - 1]);
        }
      } else {
        assert xt[i] == t[i - 1];
      }
    }
  }

  /** Inserts `a` into a newest-first list at its place. */
  function InsertNewestFirst(a: Artifact, r: seq<Artifact>): (r': seq<Artifact>)
    requires NewestFirst(r)
    requires forall i :: 0 <= i < |r| ==> r[i].id != a.id
    ensures NewestFirst(r')
    ensures |r'| == |r| + 1
    ensures r'[0] == a || (|r| > 0 && r'[0] == r[0])
  {
    if |r| == 0 then [a]
    else if ListedBefore(a, r[0]) then
      NewestFirstCons(a, r);
      [a] + r
    else
      NewestFirstTail(r);
      KeyOrder.Total(a.id, r[0].id);
      var tail := InsertNewestFirst(a, r[1..]);
      NewestFirstCons(r[0], tail);
      [r[0]] + tail
  }

  /** Insertion is a permutation: the old elements plus the new one. */
  lemma {:induction false} InsertPermutes(a: Artifact, r: seq<Artifact>)
    requires NewestFirst(r)
    requires forall i :: 0 <= i < |r| ==> r[i].id != a.id
    ensures multiset(InsertNewestFirst(a, r)) == multiset(r) + multiset{a}
  {
    if |r| > 0 && !ListedBefore(a, r[0]) {
      NewestFirstTail(r);
      InsertPermutes(a, r[1..]);
      assert r == [r[0]] + r[1..];
    }
  }

  /** Every artifact is stored under its own id. */
  ghost predicate ArtifactsKeyed(m: map<string, Artifact>) {
    forall k :: k in m ==> m[k].id == k
  }

  /** `r` lists exactly the artifacts of `m` stored under the keys in `done`. */
  ghost predicate ListsExactly(m: map<string, Artifact>, done: set<string>, r: seq<Artifact>) {
    && done <= m.Keys
    && (forall i :: 0 <= i < |r| ==> r[i].id in done && m[r[i].id] == r[i])
    && (forall k :: k in done ==> m[k] in r)
  }

  /** The inserted list holds the old elements and the new one, and nothing else. */
  lemma InsertMembers(a: Artifact, r: seq<Artifact>)
    requires NewestFirst(r)
    requires forall i :: 0 <= i < |r| ==> r[i].id != a.id
    ensures forall x :: x in InsertNewestFirst(a, r) <==> x in r || x == a
  {
    var r' := InsertNewestFirst(a, r);
    InsertPermutes(a, r);
    forall x ensures x in r' <==> x in r || x == a {
      assert x in r' <==> x in multiset(r');
      assert x in r <==> x in multiset(r);
    }
  }

  lemma InsertKeepsExact(m: map<string, Artifact>, done: set<string>, r: seq<Artifact>, k: string)
    requires ArtifactsKeyed(m) && ListsExactly(m, done, r) && NewestFirst(r)
    requires k in m && k !in done
    ensures forall i :: 0 <= i < |r| ==> r[i].id != m[k].id
    ensures ListsExactly(m, done + {k}, InsertNewestFirst(m[k], r))
  {
    assert m[k].id == k;
    InsertMembers(m[k], r);
    var r' := InsertNewestFirst(m[k], r);
    forall i | 0 <= i < |r'| ensures r'[i].id in done + {k} && m[r'[i].id] == r'[i] {
      assert r'[i] in r';
    }
  }

  /** The state of the listing loop: `r` lists the `done` keys newest first, `rest` is still to do. */
  ghost predicate ListingState(m: map<string, Artifact>, rest: set<string>, done: set<string>, r: seq<Artifact>) {
    && rest !! done && rest + done == m.Keys
    && NewestFirst(r) && |r| == |done|
    && ListsExactly(m, done, r)
  }

  /** One loop step keeps the listing state. */
  lemma ListingStep(m: map<string, Artifact>, rest: set<string>, done: set<string>, r: seq<Artifact>, k: string)
    requires ArtifactsKeyed(m) && ListingState(m, rest, done, r) && k in rest
    ensures forall i :: 0 <= i < |r| ==> r[i].id != m[k].id
    ensures ListingState(m, rest - {k}, done + {k}, InsertNewestFirst(m[k], r))
  {
    assert k !in done;
    InsertKeepsExact(m, done, r, k);
  }

  /** `getAllArtifacts`: every stored artifact exactly once, newest first. */
  method GetAllArtifacts(s: Store) returns (r: seq<Artifact>)
    requires ArtifactsKeyed(s.artifacts)
    ensures NewestFirst(r)
    ensures |r| == |s.artifacts|
    ensures forall i :: 0 <= i < |r| ==> r[i].id in s.artifacts && s.artifacts[r[i].id] == r[i]
    ensures forall k :: k in s.artifacts ==> s.artifacts[k] in r
  {
    var m := s.artifacts;
    var rest := m.Keys;
    var done: set<string> := {};
    r := [];
    while rest != {}
      invariant ListingState(m, rest, done, r)
      decreases rest
    {
      var k :| k in rest;
      ListingStep(m, rest, done, r, k);
      r := InsertNewestFirst(m[k], r);
      done := done + {k};
      rest := rest - {k};
    }
    assert done == m.Keys;
  }
}

=== FILE: artifact_types.dfy ===
/**
 * The records and enumerations of the artifact domain: an artifact and the
 * four kinds of child record it owns (images, a 3D model, an info card,
 * color variants). Blobs are opaque tokens and dates are natural-number
 * timestamps.
 */
module ArtifactTypes {
  import opened Wrappers

  /** Milliseconds since the epoch; `new Date()` becomes a parameter of every operation. */
  type Time = nat

  /** Binary payload (image bytes, 3D asset, colorized image), never inspected. */
  datatype Blob = Blob(token: nat)

  datatype ImageAngle = Front | Back | Left | Right | Top | Bottom | Detail | Context

  datatype ColorScheme = Roman | Greek | Egyptian | Mesopotamian | Weathered | Original | Custom

  datatype ArtifactStatus = Draft | ImagesCaptured | Processing3D | ProcessingInfo | Complete | Error

  datatype ModelFormat = Glb | Gltf | Obj

  datatype ModelSource = Single3D | Multi3D

  datatype Confidence = High | Medium | Low

  /** The literal type `true` of `ColorVariant.isSpeculative`. */
  type AlwaysTrue = b: bool | b witness true

  datatype ArtifactImage = ArtifactImage(
    id: string,
    artifactId: string,
    blob: Blob,
    angle: ImageAngle,
    createdAt: Time,
    width: nat,
    height: nat)

  datatype ModelMetadata = ModelMetadata(vertices: Option<nat>, faces: Option<nat>, fileSize: Option<nat>)

  datatype Model3D = Model3D(
    id: string,
    artifactId: string,
    blob: Blob,
    format: ModelFormat,
    createdAt: Time,
    source: ModelSource,
    metadata: Option<ModelMetadata>)

  datatype EstimatedAge = EstimatedAge(range: string, confidence: Confidence, reasoning: Option<string>)

  datatype InfoCard = InfoCard(
    id: string,
    artifactId: string,
    createdAt: Time,
    updatedAt: Time,
    material: string,
    estimatedAge: EstimatedAge,
    possibleUse: string,
    culturalContext: string,
    similarArtifacts: seq<string>,
    preservationNotes: string,
    aiModel: string,
    aiConfidence: real,
    isHumanEdited: bool,
    disclaimer: string)

  datatype ColorVariant = ColorVariant(
    id: string,
    artifactId: string,
    blob: Blob,
    createdAt: Time,
    colorScheme: ColorScheme,
    prompt: string,
    aiModel: string,
    isSpeculative: AlwaysTrue)

  /**
   * User-entered metadata. `captureMode` is written by the two capture pages
   * ("save" or "palette") and read by the two galleries; older artifacts lack it.
   */
  datatype ArtifactMetadata = ArtifactMetadata(
    name: Option<string>,
    discoveryLocation: Option<string>,
    excavationLayer: Option<string>,
    siteName: Option<string>,
    dateFound: Option<Time>,
    notes: Option<string>,
    tags: Option<seq<string>>,
    captureMode: Option<string>)

  const EmptyMetadata := ArtifactMetadata(None, None, None, None, None, None, None, None)

  datatype Artifact = Artifact(
    id: string,
    createdAt: Time,
    updatedAt: Time,
    status: ArtifactStatus,
    imageIds: seq<string>,
    model3DId: Option<string>,
    infoCardId: Option<string>,
    colorVariantIds: seq<string>,
    metadata: ArtifactMetadata,
    thumbnailBlob: Option<Blob>)

  /** Every angle, in declaration order. */
  const AllAngles: seq<ImageAngle> := [Front, Back, Left, Right, Top, Bottom, Detail, Context]

  /** Every color scheme, in declaration order. */
  const AllSchemes: seq<ColorScheme> := [Roman, Greek, Egyptian, Mesopotamian, Weathered, Original, Custom]

  /** Every artifact status, in declaration order. */
  const AllStatuses: seq<ArtifactStatus> := [Draft, ImagesCaptured, Processing3D, ProcessingInfo, Complete, Error]

  /** `s` lists its elements without repetition. */
  predicate Distinct<T(==)>(s: seq<T>) {
    forall i, j :: 0 <= i < j < |s| ==> s[i] != s[j]
  }

  /** ImageAngle has exactly eight values. */
  lemma AngleCount()
    ensures |AllAngles| == 8 && Distinct(AllAngles)
    ensures forall a: ImageAngle :: a in AllAngles
  {
    forall a: ImageAngle ensures a in AllAngles {
      match a
      case Front => assert AllAngles[0] == a;
      case Back => assert AllAngles[1] == a;
      case Left => assert AllAngles[2] == a;
      case Right => assert AllAngles[3] == a;
      case Top => assert AllAngles[4] == a;
      case Bottom => assert AllAngles[5] == a;
      case Detail => assert AllAngles[6] == a;
      case Context => assert AllAngles[7] == a;
    }
  }

  /** ColorScheme has exactly seven values. */
  lemma SchemeCount()
    ensures |AllSchemes| == 7 && Distinct(AllSchemes)
    ensures forall c: ColorScheme :: c in AllSchemes
  {
    forall c: ColorScheme ensures c in AllSchemes {
      match c
      case Roman => assert AllSchemes[0] == c;
      case Greek => assert AllSchemes[1] == c;
      case Egyptian => assert AllSchemes[2] == c;
      case Mesopotamian => assert AllSchemes[3] == c;
      case Weathered => assert AllSchemes[4] == c;
      case Original => assert AllSchemes[5] == c;
      case Custom => assert AllSchemes[6] == c;
    }
  }

  /** ArtifactStatus has exactly six values. */
  lemma StatusCount()
    ensures |AllStatuses| == 6 && Distinct(AllStatuses)
    ensures forall st: ArtifactStatus :: st in AllStatuses
  {
    forall st: ArtifactStatus ensures st in AllStatuses {
      match st
      case Draft => assert AllStatuses[0] == st;
      case ImagesCaptured => assert AllStatuses[1] == st;
      case Processing3D => assert AllStatuses[2] == st;
      case ProcessingInfo => assert AllStatuses[3] == st;
      case Complete => assert AllStatuses[4] == st;
      case Error => assert AllStatuses[5] == st;
    }
  }

  /** The string literal the source uses for a color scheme. */
  function SchemeName(c: ColorScheme): (r: string)
    ensures r != "" && r != "unknown"
  {
    match c
    case Roman => "roman"
    case Greek => "greek"
    case Egyptian => "egyptian"
    case Mesopotamian => "mesopotamian"
    case Weathered => "weathered"
    case Original => "original"
    case Custom => "custom"
  }

  /** Reads a color-scheme literal back; any other string is not a scheme. */
  function ParseScheme(s: string): (r: Option<ColorScheme>)
    ensures r.Some? ==> SchemeName(r.value) == s
  {
    if s == "roman" then Some(Roman)
    else if s == "greek" then Some(Greek)
    else if s == "egyptian" then Some(Egyptian)
    else if s == "mesopotamian" then Some(Mesopotamian)
    else if s == "weathered" then Some(Weathered)
    else if s == "original" then Some(Original)
    else if s == "custom" then Some(Custom)
    else None
  }

  /** Scheme names round-trip, so distinct schemes have distinct names. */
  lemma SchemeNameRoundTrip(c: ColorScheme)
    ensures ParseScheme(SchemeName(c)) == Some(c)
  {
  }

  /** The string literal the source uses for a 3D model format. */
  function FormatName(f: ModelFormat): (r: string)
    ensures r in {"glb", "gltf", "obj"}
  {
    match f
    case Glb => "glb"
    case Gltf => "gltf"
    case Obj => "obj"
  }

  /** Every persisted color variant is flagged as speculative. */
  lemma VariantAlwaysSpeculative(v: ColorVariant)
    ensures v.isSpeculative
  {
  }
}

=== FILE: camera.dfy ===
/**
 * The camera hook's decision logic: error-name classification, the message
 * for each error type, facing detection from a device label, the device
 * list and capability flags derived from an enumeration, and the status a
 * start, stop or switch leaves behind. Media streams are not modelled; the
 * browser's answers (support, the enumeration, the `getUserMedia` outcome)
 * are parameters.
 */
module Camera {
  import opened Wrappers

  datatype Facing = User | Environment
  datatype DetectedFacing = Facing(facing: Facing) | UnknownFacing

  datatype CameraStatus = Idle | Requesting | Active | Failed | Denied | NotSupported

  datatype ErrorType =
    | NotSupportedError | PermissionDenied | NotFound | Overconstrained
    | NotReadable | AbortError | SecurityError | UnknownError

  const AllErrorTypes: seq<ErrorType> :=
    [NotSupportedError, PermissionDenied, NotFound, Overconstrained, NotReadable, AbortError, SecurityError, UnknownError]

  /** `mapErrorType`, a switch on the error's name. */
  function MapErrorType(name: string): (r: ErrorType)
  {
    match name
    case "NotAllowedError" => PermissionDenied
    case "PermissionDeniedError" => PermissionDenied
    case "NotFoundError" => NotFound
    case "DevicesNotFoundError" => NotFound
    case "OverconstrainedError" => Overconstrained
    case "ConstraintNotSatisfiedError" => Overconstrained
    case "NotReadableError" => NotReadable
    case "TrackStartError" => NotReadable
    case "AbortError" => AbortError
    case "SecurityError" => SecurityError
    case "TypeError" => NotSupportedError
    case _ => UnknownError
  }

  /** Every category, `unknown` included, is the classification of some error name. */
  lemma EveryCategoryReachable(t: ErrorType)
    ensures exists name :: MapErrorType(name) == t
  {
    match t
    case NotSupportedError => assert MapErrorType("TypeError") == t;
    case PermissionDenied => assert MapErrorType("NotAllowedError") == t;
    case NotFound => assert MapErrorType("NotFoundError") == t;
    case Overconstrained => assert MapErrorType("OverconstrainedError") == t;
    case NotReadable => assert MapErrorType("NotReadableError") == t;
    case AbortError => assert MapErrorType("AbortError") == t;
    case SecurityError => assert MapErrorType("SecurityError") == t;
    case UnknownError => assert MapErrorType("") == t;
  }

  /** `getErrorMessage`: one fixed message per error type. */
  function ErrorMessage(t: ErrorType): string {
    match t
    case PermissionDenied => "Camera access was denied. Please allow camera access in your browser settings."
    case NotFound => "No camera found on this device."
    case Overconstrained => "Camera does not support the requested settings."
    case NotReadable => "Camera is already in use by another application."
    case AbortError => "Camera access was interrupted."
    case SecurityError => "Camera access is not allowed in this context (requires HTTPS)."
    case NotSupportedError => "Camera is not supported in this browser."
    case UnknownError => "An unknown camera error occurred."
  }

  /** The messages have pairwise different lengths. */
  function MessageLength(t: ErrorType): nat {
    match t
    case PermissionDenied => 78
    case NotFound => 31
    case Overconstrained => 47
    case NotReadable => 48
    case AbortError => 30
    case SecurityError => 62
    case NotSupportedError => 40
    case UnknownError => 33
  }

  lemma MessageLengths(t: ErrorType)
    ensures |ErrorMessage(t)| == MessageLength(t)
  {
  }

  /** No two error types share a message, so the message identifies the type. */
  lemma ErrorMessagesDistinct(a: ErrorType, b: ErrorType)
    requires a != b
    ensures ErrorMessage(a) != ErrorMessage(b)
  {
    MessageLengths(a);
    MessageLengths(b);
  }

  // ---------------------------------------------------------------------
  // Labels

  const KelvinSign: char := '\U{212A}'

  /**
   * `toLowerCase` as far as it can yield an ASCII letter: the ASCII capitals
   * and the Kelvin sign, which lower-cases to 'k'. Other characters are
   * left alone.
   */
  function LowerChar(c: char): (r: char)
    ensures 'A' <= c <= 'Z' ==> 'a' <= r <= 'z' && r as int == c as int + 32
    ensures c == KelvinSign ==> r == 'k'
    ensures !('A' <= c <= 'Z') && c != KelvinSign ==> r == c
  {
    if 'A' <= c <= 'Z' then (c as int + 32) as char
    else if c == KelvinSign then 'k'
    else c
  }

  function Lower(s: string): (r: string)
    ensures |r| == |s|
    ensures forall i :: 0 <= i < |s| ==> r[i] == LowerChar(s[i])
  {
    seq(|s|, i requires 0 <= i < |s| => LowerChar(s[i]))
  }

  /** Lower-casing twice is lower-casing once. */
  lemma LowerIdempotent(s: string)
    ensures Lower(Lower(s)) == Lower(s)
  {
  }

  /** Lower-casing works character by character, so it distributes over concatenation. */
  lemma LowerConcat(x: string, y: string)
    ensures Lower(x + y) == Lower(x) + Lower(y)
  {
  }

  /** `s.includes(sub)`: `sub` starts at some position of `s`. */
  predicate Contains(s: string, sub: string)
    decreases |s|
  {
    StartsWith(s, sub) || (|s| > 0 && Contains(s[1..], sub))
  }

  /** `Contains` holds when `sub` occurs at some index (ContainsWitness is the converse). */
  lemma {:induction false} ContainsAt(s: string, sub: string, i: nat)
    requires i + |sub| <= |s| && s[i..i + |sub|] == sub
    ensures Contains(s, sub)
    decreases i
  {
    if i > 0 {
      assert s[1..][i - 1..i - 1 + |sub|] == s[i..i + |sub|];
      ContainsAt(s[1..], sub, i - 1);
    }
  }

  /** `Contains` holds only when `sub` occurs at some index. */
  lemma {:induction false} ContainsWitness(s: string, sub: string) returns (i: nat)
    requires Contains(s, sub)
    ensures i + |sub| <= |s| && s[i..i + |sub|] == sub
    decreases |s|
  {
    if StartsWith(s, sub) {
      i := 0;
    } else {
      var j := ContainsWitness(s[1..], sub);
      i := j + 1;
      assert s[1..][j..j + |sub|] == s[i..i + |sub|];
    }
  }

  predicate NamesFront(labelText: string) {
    var l := Lower(labelText);
    Contains(l, "front") || Contains(l, "user") || Contains(l, "facetime")
  }

  predicate NamesBack(labelText: string) {
    var l := Lower(labelText);
    Contains(l, "back") || Contains(l, "rear") || Contains(l, "environment")
  }

  /** `detectFacing`: front words win over back words; a labelText with neither is unknown. */
  function DetectFacing(labelText: string): (r: DetectedFacing)
    ensures r == Facing(User) <==> NamesFront(labelText)
    ensures r == Facing(Environment) <==> !NamesFront(labelText) && NamesBack(labelText)
    ensures r == UnknownFacing <==> !NamesFront(labelText) && !NamesBack(labelText)
  {
    if NamesFront(labelText) then Facing(User)
    else if NamesBack(labelText) then Facing(Environment)
    else UnknownFacing
  }

  /** Matching ignores ASCII case, and a labelText naming both sides counts as front. */
  lemma FacingExamples()
    ensures DetectFacing("FaceTime HD Camera") == Facing(User)
    ensures DetectFacing("Back Front") == Facing(User)
    ensures DetectFacing("") == UnknownFacing
  {
    assert Lower("FaceTime HD Camera")[..8] == "facetime";
    assert Lower("Back Front")[5..10] == "front";
    ContainsAt(Lower("Back Front"), "front", 5);
  }

  /** An occurrence survives text appended after it. */
  lemma {:induction false} ContainsAppend(a: string, b: string, sub: string)
    requires Contains(a, sub)
    ensures Contains(a + b, sub)
    decreases |a|
  {
    if StartsWith(a, sub) {
      assert (a + b)[..|sub|] == a[..|sub|];
    } else {
      ContainsAppend(a[1..], b, sub);
      assert (a + b)[1..] == a[1..] + b;
    }
  }

  /** An occurrence survives text prepended before it. */
  lemma {:induction false} ContainsPrepend(a: string, b: string, sub: string)
    requires Contains(b, sub)
    ensures Contains(a + b, sub)
    decreases |a|
  {
    if |a| > 0 {
      ContainsPrepend(a[1..], b, sub);
      assert (a + b)[1..] == a[1..] + b;
    } else {
      assert a + b == b;
    }
  }

  /** Detection ignores case: a lower-cased label faces the same way. */
  lemma DetectFacingIgnoresCase(labelText: string)
    ensures DetectFacing(Lower(labelText)) == DetectFacing(labelText)
  {
    LowerIdempotent(labelText);
  }

  /** A side keyword, once present, stays present with more text on either side. */
  lemma KeywordsSurvive(x: string, y: string, w: string)
    ensures Contains(Lower(x), w) ==> Contains(Lower(x + y), w) && Contains(Lower(y + x), w)
  {
    LowerConcat(x, y);
    LowerConcat(y, x);
    if Contains(Lower(x), w) {
      ContainsAppend(Lower(x), Lower(y), w);
      ContainsPrepend(Lower(y), Lower(x), w);
    }
  }

  /**
   * More text never demotes a label: a front label stays front, and a back
   * label is never unknown, whatever is added before or after it.
   */
  lemma FacingMonotone(x: string, y: string)
    ensures DetectFacing(x) == Facing(User) ==>
              DetectFacing(x + y) == Facing(User) && DetectFacing(y + x) == Facing(User)
    ensures DetectFacing(x) == Facing(Environment) ==>
              DetectFacing(x + y) != UnknownFacing && DetectFacing(y + x) != UnknownFacing
  {
    forall w | w in ["front", "user", "facetime", "back", "rear", "environment"] {
      KeywordsSurvive(x, y, w);
    }
  }

  // ---------------------------------------------------------------------
  // Devices and capabilities

  /** What the browser's enumeration reports per device. */
  datatype MediaDeviceInfo = MediaDeviceInfo(deviceId: string, kind: string, labelText: string)

  datatype CameraDevice = CameraDevice(deviceId: string, labelText: string, facing: DetectedFacing)

  datatype Capabilities = Capabilities(
    hasMultipleCameras: bool, hasFrontCamera: bool, hasBackCamera: bool,
    supportsTorch: bool, supportsZoom: bool)

  /** A missing labelText becomes `Camera ` and the first four characters of the device id. */
  function DeviceLabel(d: MediaDeviceInfo): (r: string)
    ensures d.labelText != "" ==> r == d.labelText
    ensures d.labelText == "" ==> |r| == 7 + (if |d.deviceId| < 4 then |d.deviceId| else 4)
    ensures d.labelText == "" ==> r[..7] == "Camera " && d.deviceId[..|r| - 7] == r[7..]
  {
    if d.labelText != "" then d.labelText
    else "Camera " + SliceTo(d.deviceId, 4)
  }

  function ToDevice(d: MediaDeviceInfo): CameraDevice {
    CameraDevice(d.deviceId, DeviceLabel(d), DetectFacing(d.labelText))
  }

  /** `filter(kind === 'videoinput')`, order kept. */
  function VideoInputs(all: seq<MediaDeviceInfo>): (r: seq<MediaDeviceInfo>)
    ensures |r| <= |all|
    ensures forall d :: d in r <==> d in all && d.kind == "videoinput"
  {
    if |all| == 0 then []
    else if all[0].kind == "videoinput" then [all[0]] + VideoInputs(all[1..])
    else VideoInputs(all[1..])
  }

  /** A single device is kept exactly when it is a video input. */
  lemma VideoInputsSingle(d: MediaDeviceInfo)
    ensures VideoInputs([d]) == if d.kind == "videoinput" then [d] else []
  {
    assert [d][1..] == [];
  }

  /** The filter distributes over concatenation, so video inputs keep their order and multiplicity. */
  lemma {:induction false} VideoInputsConcat(a: seq<MediaDeviceInfo>, b: seq<MediaDeviceInfo>)
    ensures VideoInputs(a + b) == VideoInputs(a) + VideoInputs(b)
    decreases |a|
  {
    if |a| == 0 {
      assert a + b == b;
    } else {
      assert (a + b)[1..] == a[1..] + b;
      VideoInputsConcat(a[1..], b);
    }
  }

  /** The device list an enumeration yields: each video input, in order, with its label and facing. */
  function VideoDevices(all: seq<MediaDeviceInfo>): (r: seq<CameraDevice>)
    ensures |r| == |VideoInputs(all)|
    ensures forall i :: 0 <= i < |r| ==> r[i] == ToDevice(VideoInputs(all)[i])
  {
    var inputs := VideoInputs(all);
    seq(|inputs|, i requires 0 <= i < |inputs| => ToDevice(inputs[i]))
  }

  /** The capability flags set after an enumeration; torch and zoom are never claimed. */
  function CapabilitiesOf(devices: seq<CameraDevice>): (r: Capabilities)
    ensures r.hasMultipleCameras <==> |devices| > 1
    ensures r.hasFrontCamera <==> exists d :: d in devices && d.facing == Facing(User)
    ensures r.hasBackCamera <==> exists d :: d in devices && d.facing == Facing(Environment)
    ensures !r.supportsTorch && !r.supportsZoom
  {
    Capabilities(
      |devices| > 1,
      exists d :: d in devices && d.facing == Facing(User),
      exists d :: d in devices && d.facing == Facing(Environment),
      false, false)
  }

  // ---------------------------------------------------------------------
  // Start, stop, switch

  datatype CameraError = CameraError(errorType: ErrorType, message: string)

  datatype CameraState = CameraState(status: CameraStatus, error: Option<CameraError>, facing: Facing)

  function InitialState(initialFacing: Facing): (r: CameraState)
    ensures r.status == Idle && r.error.None? && r.facing == initialFacing
  {
    CameraState(Idle, None, initialFacing)
  }

  /** `stopCamera`. */
  function StopCamera(st: CameraState): (r: CameraState)
    ensures r.status == Idle && r.error.None? && r.facing == st.facing
  {
    st.(status := Idle, error := None)
  }

  /**
   * The state `startCamera(facing)` settles in. `outcome` is what
   * `getUserMedia` did: `Success` or `Failure` with the thrown error's name.
   * The facing is only recorded on success.
   */
  function StartCamera(st: CameraState, supported: bool, facing: Facing, outcome: Result<(), string>): (r: CameraState)
    ensures !supported ==> r == st.(status := NotSupported, error := Some(CameraError(NotSupportedError, ErrorMessage(NotSupportedError))))
    ensures supported && outcome.Success? ==> r == CameraState(Active, None, facing)
    ensures supported && outcome.Failure? ==>
              && r.facing == st.facing
              && r.error == Some(CameraError(MapErrorType(outcome.error), ErrorMessage(MapErrorType(outcome.error))))
              && (r.status == Denied <==> MapErrorType(outcome.error) == PermissionDenied)
              && (r.status == Failed <==> MapErrorType(outcome.error) != PermissionDenied)
  {
    if !supported then
      st.(status := NotSupported, error := Some(CameraError(NotSupportedError, ErrorMessage(NotSupportedError))))
    else
      var requesting := StopCamera(st).(status := Requesting, error := None);
      match outcome
      case Success(_) => requesting.(status := Active, facing := facing)
      case Failure(name) =>
        var t := MapErrorType(name);
        requesting.(status := if t == PermissionDenied then Denied else Failed, error := Some(CameraError(t, ErrorMessage(t))))
  }

  /**
   * Exactly two DOM error names leave the camera denied; every other failure,
   * an unrecognised name included, leaves it failed.
   */
  lemma DeniedExactlyForPermissionNames(st: CameraState, facing: Facing, name: string)
    ensures StartCamera(st, true, facing, Failure(name)).status == Denied
            <==> name == "NotAllowedError" || name == "PermissionDeniedError"
    ensures StartCamera(st, true, facing, Failure(name)).status in {Denied, Failed}
  {
  }

  function Opposite(f: Facing): (r: Facing)
    ensures r != f
  {
    if f == User then Environment else User
  }

  /** `switchCamera`: start again with the opposite facing. */
  function SwitchCamera(st: CameraState, supported: bool, outcome: Result<(), string>): (r: CameraState)
    ensures supported && outcome.Success? ==> r.facing != st.facing && r.status == Active
    ensures supported && outcome.Failure? ==> r.facing == st.facing
  {
    StartCamera(st, supported, Opposite(st.facing), outcome)
  }

  /** Two successful switches come back to the starting facing. */
  lemma SwitchTwiceRestoresFacing(st: CameraState)
    ensures SwitchCamera(SwitchCamera(st, true, Success(())), true, Success(())).facing == st.facing
  {
  }

  predicate IsActive(st: CameraState) { st.status == Active }
  predicate IsLoading(st: CameraState) { st.status == Requesting }

  /** A start never settles in the loading state, and it is active exactly when it succeeded. */
  lemma StartSettles(st: CameraState, supported: bool, facing: Facing, outcome: Result<(), string>)
    ensures !IsLoading(StartCamera(st, supported, facing, outcome))
            || (IsLoading(st) && !supported)
    ensures supported ==> (IsActive(StartCamera(st, supported, facing, outcome)) <==> outcome.Success?)
  {
  }
}

=== FILE: capture_pages.dfy ===
/**
 * The artifact-creation protocol shared by the Save the Past and Past
 * Palette pages: write one image record per capture, in order, then add
 * the artifact carrying the prebuilt `imageIds`. The image writes bypass
 * the `addImage` helper, and a failure part-way is caught without rolling
 * back the images already written.
 */
module CapturePages {
  import opened Wrappers
  import opened ArtifactTypes
  import opened ArtifactDb
  import opened StoreLinks
  import opened CaptureSession

  /** Which page created the artifact; stored as `metadata.captureMode`. */
  datatype PageMode = SaveMode | PaletteMode

  function CaptureModeName(m: PageMode): (r: string)
    ensures r != ""
  {
    match m
    case SaveMode => "save"
    case PaletteMode => "palette"
  }

  /** What the page does after the attempt: navigate to the new artifact, or log the caught error. */
  datatype Outcome = Created(artifactId: string) | CaughtError

  /** The image record written for capture `c`; dimensions are left at 0. */
  function CapturedImage(id: string, artifactId: string, c: Capture, now: Time): ArtifactImage {
    ArtifactImage(id, artifactId, c.blob, c.angle, now, 0, 0)
  }

  /** The image table after the write loop, and how many writes succeeded before a failure (if any). */
  datatype ImageWrites = ImageWrites(table: map<string, ArtifactImage>, written: nat, ok: bool)

  /** The `for … of images` loop: `db.images.add` per capture, stopping at the first duplicate key. */
  function WriteImages(t: map<string, ArtifactImage>, artifactId: string, caps: seq<Capture>, ids: seq<string>, now: Time)
    : (r: ImageWrites)
    requires |ids| == |caps|
    ensures r.written <= |caps|
    ensures r.ok <==> r.written == |caps|
    decreases |caps|
  {
    if |caps| == 0 then ImageWrites(t, 0, true)
    else if ids[0] in t then ImageWrites(t, 0, false)
    else
      var rest := WriteImages(t[ids[0] := CapturedImage(ids[0], artifactId, caps[0], now)], artifactId, caps[1..], ids[1..], now);
      ImageWrites(rest.table, rest.written + 1, rest.ok)
  }

  /** The loop stops exactly at the first id that is already taken, in the table or earlier in the batch. */
  lemma {:induction false} WriteImagesStops(t: map<string, ArtifactImage>, artifactId: string, caps: seq<Capture>, ids: seq<string>, now: Time)
    requires |ids| == |caps|
    ensures var r := WriteImages(t, artifactId, caps, ids, now);
      && (!r.ok ==> ids[r.written] in t || ids[r.written] in ids[..r.written])
      && (forall i :: 0 <= i < r.written ==> ids[i] !in t && ids[i] !in ids[..i])
    decreases |caps|
  {
    if |caps| > 0 && ids[0] !in t {
      var t' := t[ids[0] := CapturedImage(ids[0], artifactId, caps[0], now)];
      WriteImagesStops(t', artifactId, caps[1..], ids[1..], now);
      var rest := WriteImages(t', artifactId, caps[1..], ids[1..], now);
      var n := rest.written;
      if !rest.ok {
        assert ids[n + 1] == ids[1..][n];
        assert ids[..n + 1] == [ids[0]] + ids[1..][..n];
      }
      forall i | 1 <= i < n + 1
        ensures ids[i] !in t && ids[i] !in ids[..i]
      {
        assert ids[i] == ids[1..][i - 1];
        assert ids[..i] == [ids[0]] + ids[1..][..i - 1];
      }
    }
  }

  /** The loop adds exactly the written ids and leaves every earlier record alone. */
  lemma {:induction false} WriteImagesKeys(t: map<string, ArtifactImage>, artifactId: string, caps: seq<Capture>, ids: seq<string>, now: Time)
    requires |ids| == |caps|
    ensures var r := WriteImages(t, artifactId, caps, ids, now);
      && (forall k :: k in r.table <==> k in t || k in ids[..r.written])
      && (forall k :: k in t ==> k in r.table && r.table[k] == t[k])
    decreases |caps|
  {
    if |caps| > 0 && ids[0] !in t {
      var t' := t[ids[0] := CapturedImage(ids[0], artifactId, caps[0], now)];
      WriteImagesKeys(t', artifactId, caps[1..], ids[1..], now);
      var n := WriteImages(t', artifactId, caps[1..], ids[1..], now).written;
      assert ids[..n + 1] == [ids[0]] + ids[1..][..n];
    }
  }

  /** The loop writes one record per written capture, in capture order. */
  lemma {:induction false} WriteImagesRecords(t: map<string, ArtifactImage>, artifactId: string, caps: seq<Capture>, ids: seq<string>, now: Time)
    requires |ids| == |caps|
    ensures var r := WriteImages(t, artifactId, caps, ids, now);
      forall i :: 0 <= i < r.written ==> ids[i] in r.table && r.table[ids[i]] == CapturedImage(ids[i], artifactId, caps[i], now)
    decreases |caps|
  {
    if |caps| > 0 && ids[0] !in t {
      var t' := t[ids[0] := CapturedImage(ids[0], artifactId, caps[0], now)];
      WriteImagesRecords(t', artifactId, caps[1..], ids[1..], now);
      WriteImagesStops(t', artifactId, caps[1..], ids[1..], now);
      WriteImagesKeys(t', artifactId, caps[1..], ids[1..], now);
      var rest := WriteImages(t', artifactId, caps[1..], ids[1..], now);
      assert ids[0] in rest.table && rest.table[ids[0]] == CapturedImage(ids[0], artifactId, caps[0], now);
      forall i | 1 <= i < rest.written + 1
        ensures ids[i] in rest.table && rest.table[ids[i]] == CapturedImage(ids[i], artifactId, caps[i], now)
      {
        assert ids[i] == ids[1..][i - 1] && caps[i] == caps[1..][i - 1];
      }
    }
  }

  /** The artifact record each page builds before adding it. */
  function NewArtifact(mode: PageMode, artifactId: string, imageIds: seq<string>, thumbnail: Blob, now: Time): (r: Artifact)
    ensures r.id == artifactId && r.status == ImagesCaptured
    ensures r.metadata.captureMode == Some(CaptureModeName(mode))
    ensures r.imageIds == imageIds && r.colorVariantIds == []
    ensures r.model3DId.None? && r.infoCardId.None? && r.thumbnailBlob == Some(thumbnail)
  {
    Artifact(artifactId, now, now, ImagesCaptured, imageIds, None, None, [],
             EmptyMetadata.(captureMode := Some(CaptureModeName(mode))), Some(thumbnail))
  }

  /**
   * `handleCaptureComplete` on either page. `artifactId` and `imageIds`
   * are the generated ids, one image id per capture. An empty capture list
   * fails at the thumbnail step (`images[0]`), after the (empty) write loop.
   */
  function CompleteCapture(s: Store, mode: PageMode, caps: seq<Capture>, artifactId: string, imageIds: seq<string>, now: Time)
    : (r: (Store, Outcome))
    requires |imageIds| == |caps|
    ensures r.1.Created? ==> r.1.artifactId == artifactId
    ensures r.0.models == s.models && r.0.infoCards == s.infoCards && r.0.colorVariants == s.colorVariants
    ensures r.0.images == WriteImages(s.images, artifactId, caps, imageIds, now).table
    ensures r.1.CaughtError? ==> r.0.artifacts == s.artifacts
    ensures r.1.Created? <==>
              |caps| > 0 && WriteImages(s.images, artifactId, caps, imageIds, now).ok && artifactId !in s.artifacts
    ensures r.1.Created? ==>
              r.0.artifacts == s.artifacts[artifactId := NewArtifact(mode, artifactId, imageIds, caps[0].blob, now)]
  {
    var w := WriteImages(s.images, artifactId, caps, imageIds, now);
    var written := s.(images := w.table);
    if !w.ok || |caps| == 0 then (written, CaughtError)
    else
      match CreateArtifact(written, NewArtifact(mode, artifactId, imageIds, caps[0].blob, now))
      case Success(s') => (s', Created(artifactId))
      case Failure(_) => (written, CaughtError)
  }

  /** Nothing is persisted for an empty capture list. */
  lemma EmptyCaptureStoresNothing(s: Store, mode: PageMode, artifactId: string, now: Time)
    ensures CompleteCapture(s, mode, [], artifactId, [], now) == (s, CaughtError)
  {
  }

  /**
   * When the `n`-th image id is already taken, the first `n` images stay
   * written as orphans and no artifact is added.
   */
  lemma PartialFailureLeavesOrphans(s: Store, mode: PageMode, caps: seq<Capture>, artifactId: string, imageIds: seq<string>, now: Time, n: nat)
    requires |imageIds| == |caps| && n < |caps|
    requires imageIds[n] in s.images
    requires forall i :: 0 <= i < n ==> imageIds[i] !in s.images
    requires forall i, j :: 0 <= i < j < |imageIds| ==> imageIds[i] != imageIds[j]
    ensures var r := CompleteCapture(s, mode, caps, artifactId, imageIds, now);
            && r.1 == CaughtError && r.0.artifacts == s.artifacts
            && forall i :: 0 <= i < n ==> imageIds[i] in r.0.images && r.0.images[imageIds[i]].artifactId == artifactId
  {
    var w := WriteImages(s.images, artifactId, caps, imageIds, now);
    WriteImagesStops(s.images, artifactId, caps, imageIds, now);
    WriteImagesKeys(s.images, artifactId, caps, imageIds, now);
    WriteImagesRecords(s.images, artifactId, caps, imageIds, now);
    if w.written < n {
      assert false;
    }
  }

  /** A write loop over ids that are fresh and pairwise distinct succeeds in full. */
  lemma FreshIdsWriteAll(t: map<string, ArtifactImage>, artifactId: string, caps: seq<Capture>, ids: seq<string>, now: Time)
    requires |ids| == |caps| && Distinct(ids)
    requires forall i :: 0 <= i < |ids| ==> ids[i] !in t
    ensures WriteImages(t, artifactId, caps, ids, now).ok
  {
    var w := WriteImages(t, artifactId, caps, ids, now);
    WriteImagesStops(t, artifactId, caps, ids, now);
    if !w.ok {
      assert false;
    }
  }

  /** After writing a batch of fresh images for a new artifact, that artifact owns exactly the batch and every other artifact owns what it owned. */
  lemma BatchOwnership(s: Store, written: Store, artifactId: string, imageIds: seq<string>)
    requires forall k :: k in written.images <==> k in s.images || k in imageIds
    requires forall k :: k in s.images ==> written.images[k] == s.images[k]
    requires forall i :: 0 <= i < |imageIds| ==> imageIds[i] in written.images && written.images[imageIds[i]].artifactId == artifactId
    requires OwnedImages(s, artifactId) == {}
    ensures OwnedImages(written, artifactId) == ElemSet(imageIds)
    ensures forall k :: k != artifactId ==> OwnedImages(written, k) == OwnedImages(s, k)
  {
    forall k | k in written.images && written.images[k].artifactId == artifactId ensures k in imageIds {
      assert k !in OwnedImages(s, artifactId);
    }
  }

  /**
   * With fresh, distinct ids and a non-empty capture list the artifact is
   * created, its `imageIds` lists the written images in capture order, and
   * the back-reference invariant holds right after creation.
   */
  lemma CreationKeepsLinked(s: Store, mode: PageMode, caps: seq<Capture>, artifactId: string, imageIds: seq<string>, now: Time)
    requires Linked(s)
    requires |caps| > 0 && |imageIds| == |caps| && Distinct(imageIds)
    requires forall i :: 0 <= i < |imageIds| ==> imageIds[i] !in s.images
    requires artifactId !in s.artifacts
    requires OwnedImages(s, artifactId) == {} && OwnedVariants(s, artifactId) == {}
    ensures var r := CompleteCapture(s, mode, caps, artifactId, imageIds, now);
            && r.1 == Created(artifactId)
            && r.0.artifacts[artifactId].imageIds == imageIds
            && (forall i :: 0 <= i < |caps| ==>
                  imageIds[i] in r.0.images
                  && r.0.images[imageIds[i]] == CapturedImage(imageIds[i], artifactId, caps[i], now))
            && Linked(r.0)
  {
    FreshIdsWriteAll(s.images, artifactId, caps, imageIds, now);
    WriteImagesKeys(s.images, artifactId, caps, imageIds, now);
    WriteImagesRecords(s.images, artifactId, caps, imageIds, now);
    var w := WriteImages(s.images, artifactId, caps, imageIds, now);
    assert imageIds[..|caps|] == imageIds;
    var written := s.(images := w.table);
    BatchOwnership(s, written, artifactId, imageIds);
    SameVariantsSameOwned(s, written);
    SameOwnershipKeepsLinked(s, written);
    var na := NewArtifact(mode, artifactId, imageIds, caps[0].blob, now);
    assert LinkedArtifact(written, na);
    CreateArtifactLinked(written, na);
    assert CompleteCapture(s, mode, caps, artifactId, imageIds, now) == (CreateArtifact(written, na).value, Created(artifactId));
  }

  /** `handleFileUploadComplete`: the first file is the front view, every later one a detail. */
  function UploadCaptures(files: seq<Blob>): (r: seq<Capture>)
    ensures |r| == |files|
    ensures forall i :: 0 <= i < |files| ==> r[i].blob == files[i]
    ensures |files| > 0 ==> r[0].angle == Front
    ensures forall i :: 0 < i < |files| ==> r[i].angle == Detail
  {
    seq(|files|, i requires 0 <= i < |files| => Capture(files[i], if i == 0 then Front else Detail))
  }

  /** An upload batch carries exactly one front view when non-empty. */
  lemma UploadHasOneFront(files: seq<Blob>)
    ensures forall i, j ::
              (0 <= i < |files| && 0 <= j < |files|
               && UploadCaptures(files)[i].angle == Front && UploadCaptures(files)[j].angle == Front)
              ==> i == j
  {
  }

  /** The camera session mode each page opens: Save the Past follows its selector, Past Palette is always single. */
  function CameraMode(page: PageMode, selected: SessionMode): (r: SessionMode)
    ensures page == PaletteMode ==> r == Single
    ensures page == SaveMode ==> r == selected
  {
    if page == PaletteMode then Single else selected
  }

  /** The `maxFiles` each page gives the upload picker. */
  function UploadLimit(page: PageMode, selected: SessionMode): (r: nat)
    ensures r >= 1
    ensures r == 1 <==> page == PaletteMode || selected == Single
    ensures page == SaveMode && selected == Multi ==> r == 10
  {
    if page == PaletteMode then 1 else if selected == Single then 1 else 10
  }

  /** A palette artifact made with the camera carries exactly one image. */
  lemma PaletteCameraMakesOneImage(s: Store, sess: Session, blob: Blob, freshId: string,
                                   artifactId: string, imageId: string, now: Time)
    requires sess.mode == CameraMode(PaletteMode, Multi) && CaptureSession.Valid(sess)
    requires artifactId !in s.artifacts && imageId !in s.images
    ensures var eff := Confirm(TakeShot(sess, blob), freshId).1;
            && eff.Completed? && |eff.images| == 1
            && var r := CompleteCapture(s, PaletteMode, eff.images, artifactId, [imageId], now);
               r.1 == Created(artifactId) && r.0.artifacts[artifactId].imageIds == [imageId]
  {
  }
}

=== FILE: capture_session.dfy ===
/**
 * The guided camera session: a cursor over six capture angles, the list of
 * confirmed shots, at most one pending shot awaiting confirm/retake, and the
 * app-wide capture store the session appends to and clears. Each handler is
 * a transition returning the next session and what it hands to the page
 * (the completed capture list, or a cancel).
 */
module CaptureSession {
  import opened Wrappers
  import opened ArtifactTypes

  /** The angles the session walks through, in order; Bottom and Context are never offered. */
  const CaptureAngles: seq<ImageAngle> := [Front, Back, Left, Right, Top, Detail]
  const LastAngleIndex: nat := 5

  datatype SessionMode = Single | Multi

  /** A (blob, angle) pair as handed to the page on completion. */
  datatype Capture = Capture(blob: Blob, angle: ImageAngle)

  /** A confirmed shot; its id is the session's own `timestamp-random` key. */
  datatype Shot = Shot(id: string, blob: Blob, angle: ImageAngle)

  datatype Session = Session(
    mode: SessionMode,
    isCapturing: bool,
    angleIndex: nat,
    captured: seq<Shot>,
    pending: Option<Blob>,
    stored: seq<Shot>)   // the app-wide capture store (`addCapturedImage` / `clearCapturedImages`)

  /** Which of the three screens the session renders. */
  datatype Screen = PreviewScreen | ViewfinderScreen | ReviewScreen

  datatype Effect = NoEffect | Completed(images: seq<Capture>) | Cancelled

  /** The cursor stays on one of the six angles and every shot carries an offered angle. */
  predicate Valid(s: Session) {
    && s.angleIndex <= LastAngleIndex
    && forall i :: 0 <= i < |s.captured| ==> s.captured[i].angle in CaptureAngles
  }

  /** A fresh session; the app-wide store keeps whatever an earlier session left in it. */
  function StartSession(mode: SessionMode, stored: seq<Shot>): (r: Session)
    ensures Valid(r) && r.mode == mode && r.stored == stored
    ensures r.isCapturing && r.angleIndex == 0 && r.captured == [] && r.pending == None
  {
    Session(mode, true, 0, [], None, stored)
  }

  /** A pending blob is reviewed first; otherwise the viewfinder while capturing, else the review grid. */
  function ScreenOf(s: Session): (r: Screen)
    ensures r == PreviewScreen <==> s.pending.Some?
    ensures r == ViewfinderScreen <==> s.pending.None? && s.isCapturing
    ensures r == ReviewScreen <==> s.pending.None? && !s.isCapturing
  {
    if s.pending.Some? then PreviewScreen
    else if s.isCapturing then ViewfinderScreen
    else ReviewScreen
  }

  function RequiredImages(mode: SessionMode): nat {
    if mode == Single then 1 else 3
  }

  /** `hasEnoughImages`, which shows and enables the Done button. */
  predicate HasEnoughImages(s: Session) {
    |s.captured| >= RequiredImages(s.mode)
  }

  /** Done is enabled with at least one shot in single mode and at least three in multi mode. */
  lemma DoneRule(s: Session)
    ensures HasEnoughImages(s) <==> (s.mode == Single && |s.captured| >= 1) || (s.mode == Multi && |s.captured| >= 3)
  {
  }

  /** `handleCapture`: hold the new blob for review and leave capturing. */
  function TakeShot(s: Session, blob: Blob): (r: Session)
    requires Valid(s)
    ensures Valid(r) && r.pending == Some(blob) && !r.isCapturing
    ensures r.captured == s.captured && r.angleIndex == s.angleIndex && r.mode == s.mode
  {
    s.(pending := Some(blob), isCapturing := false)
  }

  /**
   * `handleConfirmCapture`: with no pending blob nothing happens. Otherwise
   * the shot is appended under the current angle and the pending blob is
   * cleared; single mode then completes with that one shot, multi mode
   * moves the cursor on (stopping at the last angle) and resumes capturing.
   */
  function Confirm(s: Session, freshId: string): (r: (Session, Effect))
    requires Valid(s)
    ensures Valid(r.0) && r.0.mode == s.mode
    ensures s.pending.None? ==> r == (s, NoEffect)
    ensures s.pending.Some? ==>
              && r.0.captured == s.captured + [Shot(freshId, s.pending.value, CaptureAngles[s.angleIndex])]
              && r.0.stored == s.stored + [Shot(freshId, s.pending.value, CaptureAngles[s.angleIndex])]
              && r.0.pending.None?
    ensures s.pending.Some? && s.mode == Single ==>
              r.1 == Completed([Capture(s.pending.value, CaptureAngles[s.angleIndex])])
              && r.0.angleIndex == s.angleIndex
    ensures s.pending.Some? && s.mode == Multi ==>
              && r.1 == NoEffect && r.0.isCapturing
              && r.0.angleIndex == (if s.angleIndex < LastAngleIndex then s.angleIndex + 1 else LastAngleIndex)
  {
    match s.pending
    case None => (s, NoEffect)
    case Some(blob) =>
      var angle := CaptureAngles[s.angleIndex];
      var shot := Shot(freshId, blob, angle);
      var kept := s.(captured := s.captured + [shot], stored := s.stored + [shot], pending := None);
      if s.mode == Single then
        (kept, Completed([Capture(blob, angle)]))
      else
        var next := if s.angleIndex < |CaptureAngles| - 1 then s.angleIndex + 1 else s.angleIndex;
        (kept.(angleIndex := next, isCapturing := true), NoEffect)
  }

  /** `handleRetake` and `handleDiscard` (identical): drop the pending blob and resume capturing. */
  function Retake(s: Session): (r: Session)
    requires Valid(s)
    ensures Valid(r) && r.pending.None? && r.isCapturing
    ensures r.captured == s.captured && r.angleIndex == s.angleIndex && r.mode == s.mode
  {
    s.(pending := None, isCapturing := true)
  }

  /** `prev.filter(img => img.id !== id)`. */
  function WithoutShot(shots: seq<Shot>, id: string): (r: seq<Shot>)
    ensures forall x :: x in r <==> x in shots && x.id != id
    ensures |r| <= |shots|
    ensures (forall i :: 0 <= i < |shots| ==> shots[i].id != id) ==> r == shots
  {
    if |shots| == 0 then []
    else if shots[0].id == id then WithoutShot(shots[1..], id)
    else [shots[0]] + WithoutShot(shots[1..], id)
  }

  /** Surviving shots keep their relative order. */
  lemma {:induction false} WithoutShotConcat(a: seq<Shot>, b: seq<Shot>, id: string)
    ensures WithoutShot(a + b, id) == WithoutShot(a, id) + WithoutShot(b, id)
    decreases |a|
  {
    if |a| > 0 {
      assert (a + b)[1..] == a[1..] + b;
      WithoutShotConcat(a[1..], b, id);
    } else {
      assert a + b == b;
    }
  }

  /** `handleDeleteImage`: remove the shot with that id; nothing else changes. */
  function DeleteShot(s: Session, id: string): (r: Session)
    requires Valid(s)
    ensures Valid(r)
    ensures forall x :: x in r.captured <==> x in s.captured && x.id != id
    ensures r.(captured := s.captured) == s
  {
    s.(captured := WithoutShot(s.captured, id))
  }

  function Pairs(shots: seq<Shot>): (r: seq<Capture>)
    ensures |r| == |shots|
    ensures forall i :: 0 <= i < |shots| ==> r[i] == Capture(shots[i].blob, shots[i].angle)
  {
    if |shots| == 0 then [] else [Capture(shots[0].blob, shots[0].angle)] + Pairs(shots[1..])
  }

  /** `handleComplete`: empty the app-wide store and hand over the confirmed shots in capture order. */
  function Complete(s: Session): (r: (Session, Effect))
    requires Valid(s)
    ensures r.0.stored == [] && r.0.(stored := s.stored) == s && r.1.Completed?
    ensures |r.1.images| == |s.captured|
    ensures forall i :: 0 <= i < |s.captured| ==>
              r.1.images[i].blob == s.captured[i].blob && r.1.images[i].angle == s.captured[i].angle
  {
    (s.(stored := []), Completed(Pairs(s.captured)))
  }

  /** `handleCancel`: empty the app-wide store and report cancellation. */
  function Cancel(s: Session): (r: (Session, Effect))
    ensures r.0.stored == [] && r.0.(stored := s.stored) == s && r.1 == Cancelled
  {
    (s.(stored := []), Cancelled)
  }

  /** The "Add Photo" tile on the review grid: back to the viewfinder, nothing else changes. */
  function AddPhoto(s: Session): (r: Session)
    requires Valid(s)
    ensures Valid(r) && r.isCapturing && r.(isCapturing := s.isCapturing) == s
    ensures s.pending.None? ==> ScreenOf(r) == ViewfinderScreen
  {
    s.(isCapturing := true)
  }

  /** The previous-angle arrow, `Math.max(0, i - 1)`. */
  function PrevAngle(s: Session): (r: Session)
    requires Valid(s)
    ensures Valid(r) && r.(angleIndex := s.angleIndex) == s
    ensures s.angleIndex > 0 ==> r.angleIndex == s.angleIndex - 1
    ensures s.angleIndex == 0 ==> r == s
  {
    s.(angleIndex := if s.angleIndex == 0 then 0 else s.angleIndex - 1)
  }

  /** The next-angle arrow, `Math.min(5, i + 1)`. */
  function NextAngle(s: Session): (r: Session)
    requires Valid(s)
    ensures Valid(r) && r.(angleIndex := s.angleIndex) == s
    ensures s.angleIndex < LastAngleIndex ==> r.angleIndex == s.angleIndex + 1
    ensures s.angleIndex == LastAngleIndex ==> r == s
  {
    s.(angleIndex := if s.angleIndex + 1 < |CaptureAngles| - 1 then s.angleIndex + 1 else |CaptureAngles| - 1)
  }

  /** A progress dot jumps straight to its angle. */
  function SelectAngle(s: Session, idx: nat): (r: Session)
    requires Valid(s) && idx < |CaptureAngles|
    ensures Valid(r) && CaptureAngles[r.angleIndex] == CaptureAngles[idx]
    ensures r == s.(angleIndex := idx)
  {
    s.(angleIndex := idx)
  }

  /** The arrows undo each other away from the ends. */
  lemma PrevUndoesNext(s: Session)
    requires Valid(s) && s.angleIndex < LastAngleIndex
    ensures PrevAngle(NextAngle(s)) == s
  {
  }

  lemma NextUndoesPrev(s: Session)
    requires Valid(s) && s.angleIndex > 0
    ensures NextAngle(PrevAngle(s)) == s
  {
  }

  /** In single mode a take-and-confirm completes with exactly the one shot just taken. */
  lemma SingleModeCompletesWithOne(s: Session, blob: Blob, freshId: string)
    requires Valid(s) && s.mode == Single
    ensures var r := Confirm(TakeShot(s, blob), freshId);
            r.1 == Completed([Capture(blob, CaptureAngles[s.angleIndex])])
  {
  }

  /**
   * Three take-and-confirm rounds from a fresh multi-mode session enable
   * Done, and leave the cursor on the fourth angle.
   */
  lemma ThreeShotsEnableDone(b1: Blob, b2: Blob, b3: Blob, i1: string, i2: string, i3: string)
    ensures var s1 := Confirm(TakeShot(StartSession(Multi, []), b1), i1).0;
            var s2 := Confirm(TakeShot(s1, b2), i2).0;
            var s3 := Confirm(TakeShot(s2, b3), i3).0;
            HasEnoughImages(s3) && s3.angleIndex == 3
            && Pairs(s3.captured) == [Capture(b1, Front), Capture(b2, Back), Capture(b3, Left)]
  {
    var s1 := Confirm(TakeShot(StartSession(Multi, []), b1), i1).0;
    var s2 := Confirm(TakeShot(s1, b2), i2).0;
    var s3 := Confirm(TakeShot(s2, b3), i3).0;
    assert s3.captured == [Shot(i1, b1, Front), Shot(i2, b2, Back), Shot(i3, b3, Left)];
  }

  /**
   * Taking a shot shows its preview; confirming it in multi mode returns to
   * the viewfinder, and retaking it does too.
   */
  lemma ScreensFollowTheShot(s: Session, blob: Blob, freshId: string)
    requires Valid(s)
    ensures ScreenOf(TakeShot(s, blob)) == PreviewScreen
    ensures s.mode == Multi ==> ScreenOf(Confirm(TakeShot(s, blob), freshId).0) == ViewfinderScreen
    ensures ScreenOf(Retake(TakeShot(s, blob))) == ViewfinderScreen
  {
  }

  /**
   * The app-wide store receives every confirmed shot, in confirmation order,
   * including the single-mode shot that completes the session at once: that
   * path does not clear it.
   */
  lemma SingleModeLeavesShotInStore(s: Session, blob: Blob, freshId: string)
    requires Valid(s) && s.mode == Single
    ensures var r := Confirm(TakeShot(s, blob), freshId);
            r.1.Completed? && r.0.stored == s.stored + [Shot(freshId, blob, CaptureAngles[s.angleIndex])]
  {
  }

  /**
   * Deleting a shot from the grid does not remove it from the app-wide store:
   * the shot lingers there until Done or Cancel empties the store.
   */
  lemma DeletedShotLingersInStore(s: Session, blob: Blob, freshId: string)
    requires Valid(s) && s.mode == Multi
    ensures var c := Confirm(TakeShot(s, blob), freshId).0;
            var d := DeleteShot(c, freshId);
            var shot := Shot(freshId, blob, CaptureAngles[s.angleIndex]);
            shot !in d.captured && shot in d.stored
            && Complete(d).0.stored == [] && Cancel(d).0.stored == []
  {
    var c := Confirm(TakeShot(s, blob), freshId).0;
    assert c.stored[|s.stored|] == Shot(freshId, blob, CaptureAngles[s.angleIndex]);
  }
}

=== FILE: colorization_progress.dfy ===
/**
 * The colorization progress panel: the clamped progress value, the cancel
 * control, the default message chosen by progress, and the error and
 * success boxes.
 */
module ColorizationProgress {
  import opened Wrappers
  import opened Thresholds

  datatype ColorizationStatus = CIdle | CProcessing | CCompleted | CError

  /** `Math.min(100, Math.max(0, progress))`. */
  function Clamp(progress: real): (r: real)
    ensures 0.0 <= r <= 100.0
    ensures 0.0 <= progress <= 100.0 ==> r == progress
    ensures progress < 0.0 ==> r == 0.0
    ensures progress > 100.0 ==> r == 100.0
  {
    var low := if 0.0 > progress then 0.0 else progress;
    if 100.0 < low then 100.0 else low
  }

  /** Clamping keeps order and is idempotent. */
  lemma ClampMonotone(p: real, q: real)
    requires p <= q
    ensures Clamp(p) <= Clamp(q) && Clamp(Clamp(p)) == Clamp(p)
  {
  }

  predicate CanCancel(status: ColorizationStatus) { status == CProcessing }

  /** The cancel button needs both a processing status and a handler. */
  predicate CancelShown(status: ColorizationStatus, hasOnCancel: bool) {
    CanCancel(status) && hasOnCancel
  }

  datatype ProgressMessage =
    | SelectScheme
    | AnalyzingSurfaces | ApplyingScheme | RefiningDetails | FinalizingColorization
    | ColorizationFinished | ErrorOccurred

  const ColorizeThresholds: seq<real> := [30.0, 60.0, 90.0]
  const ProcessingMessages: seq<ProgressMessage> :=
    [AnalyzingSurfaces, ApplyingScheme, RefiningDetails, FinalizingColorization]

  /** `getDefaultMessage`. */
  function DefaultMessage(status: ColorizationStatus, progress: real): (r: ProgressMessage)
  {
    match status
    case CIdle => SelectScheme
    case CProcessing =>
      if progress < 30.0 then AnalyzingSurfaces
      else if progress < 60.0 then ApplyingScheme
      else if progress < 90.0 then RefiningDetails
      else FinalizingColorization
    case CCompleted => ColorizationFinished
    case CError => ErrorOccurred
  }

  /** The processing message changes exactly at 30, 60 and 90, and never moves back. */
  lemma DefaultMessageThresholds(p: real, q: real)
    requires p <= q
    ensures DefaultMessage(CProcessing, p) == ProcessingMessages[StepIndex(p, ColorizeThresholds)]
    ensures StepIndex(p, ColorizeThresholds) <= StepIndex(q, ColorizeThresholds)
  {
    StepIndexMonotone(p, q, ColorizeThresholds);
    assert Ascending(ColorizeThresholds);
    if p < 30.0 {
      StepIndexBetween(p, ColorizeThresholds, 0);
    } else if p < 60.0 {
      StepIndexBetween(p, ColorizeThresholds, 1);
    } else if p < 90.0 {
      StepIndexBetween(p, ColorizeThresholds, 2);
    } else {
      StepIndexBetween(p, ColorizeThresholds, 3);
    }
  }

  datatype ShownMessage = CustomText(text: string) | DefaultText(key: ProgressMessage)

  /** `statusMessage || getDefaultMessage(status, clamped)`: an empty custom message falls through. */
  function DisplayedMessage(status: ColorizationStatus, progress: real, statusMessage: Option<string>): (r: ShownMessage)
    ensures Truthy(statusMessage) ==> r == CustomText(statusMessage.value)
    ensures !Truthy(statusMessage) ==> r == DefaultText(DefaultMessage(status, Clamp(progress)))
  {
    if Truthy(statusMessage) then CustomText(statusMessage.value)
    else DefaultText(DefaultMessage(status, Clamp(progress)))
  }

  /** The error box needs the error status and a non-empty message; the success box only the completed status. */
  predicate ErrorBoxShown(status: ColorizationStatus, errorMessage: Option<string>) {
    status == CError && Truthy(errorMessage)
  }

  predicate SuccessBoxShown(status: ColorizationStatus) {
    status == CCompleted
  }

  lemma BoxesExclusive(status: ColorizationStatus, errorMessage: Option<string>)
    ensures !(ErrorBoxShown(status, errorMessage) && SuccessBoxShown(status))
    ensures ErrorBoxShown(status, errorMessage) ==> !CanCancel(status)
  {
  }
}

=== FILE: colorize_handler.dfy ===
/**
 * The colorize serverless handler: its order of checks and status codes
 * (the colorization itself is still a stub answering 501), and the preset
 * prompt table.
 */
module ColorizeHandler {
  import opened Wrappers
  import opened ArtifactTypes
  import opened HttpCommon

  datatype Request = Request(imageBase64: Option<string>, colorScheme: Option<string>, customPrompt: Option<string>)

  const MissingImage := "Missing imageBase64"
  const MissingScheme := "Missing colorScheme"
  const NotImplemented := "Not yet implemented. Gradio client integration pending."

  /** The preset prompt table, keyed by scheme literal. */
  const SchemePrompts: map<string, string> := map[
    "roman" := "Colorize with rich Roman colors: deep reds, imperial purples, gold accents, marble whites",
    "greek" := "Colorize with classical Greek palette: terracotta, ochre, black, white, Mediterranean blue",
    "egyptian" := "Colorize with ancient Egyptian colors: gold, lapis lazuli blue, turquoise, rich greens",
    "mesopotamian" := "Colorize with Mesopotamian palette: deep blues, gold, brick red, earth tones",
    "weathered" := "Apply subtle, weathered coloring as the artifact may have appeared after centuries",
    "original" := "Reconstruct likely original vibrant colors based on archaeological evidence"
  ]

  /** Every preset scheme has a prompt; `custom` has none, since its prompt comes from the user. */
  lemma PromptCoverage(c: ColorScheme)
    ensures SchemeName(c) in SchemePrompts <==> c != Custom
  {
  }

  /** The table holds nothing but preset schemes. */
  lemma PromptKeysArePresets(k: string)
    requires k in SchemePrompts
    ensures ParseScheme(k).Some? && ParseScheme(k) != Some(Custom)
  {
  }

  /**
   * The handler. `body` is the parsed request (a malformed or `null` body
   * throws). The image is checked before the scheme, and every request that
   * passes both checks is answered 501.
   */
  function Handle(httpMethod: string, body: Outcome<Request>): (r: Response)
    ensures httpMethod != "POST" ==> r == Gate(httpMethod)
    ensures httpMethod == "POST" && body.Threw? ==> r == Caught(body.message)
    ensures r == Response(400, ErrorOnly(MissingImage)) <==>
      httpMethod == "POST" && body.Returned? && !Truthy(body.value.imageBase64)
    ensures r == Response(400, ErrorOnly(MissingScheme)) <==>
      httpMethod == "POST" && body.Returned? && Truthy(body.value.imageBase64) && !Truthy(body.value.colorScheme)
    ensures r.status == 501 <==>
      httpMethod == "POST" && body.Returned? && Truthy(body.value.imageBase64) && Truthy(body.value.colorScheme)
    ensures r.status == 501 ==> r.body == Failed(NotImplemented)
    ensures r.status in {200, 400, 405, 500, 501}
  {
    if httpMethod != "POST" then Gate(httpMethod)
    else match body
      case Threw(m) => Caught(m)
      case Returned(req) =>
        if !Truthy(req.imageBase64) then Response(400, ErrorOnly(MissingImage))
        else if !Truthy(req.colorScheme) then Response(400, ErrorOnly(MissingScheme))
        else Response(501, Failed(NotImplemented))
  }

  /** A request with no image is refused for the image, whatever its scheme. */
  lemma ImageCheckedFirst(req: Request, scheme: Option<string>)
    requires !Truthy(req.imageBase64)
    ensures Handle("POST", Returned(req)) == Handle("POST", Returned(req.(colorScheme := scheme)))
    ensures Handle("POST", Returned(req)).body == ErrorOnly(MissingImage)
  {
  }
}

=== FILE: file_upload.dfy ===
/**
 * The upload picker: per-file validation (type first, then size), a slot
 * limit per batch, the error list of the latest batch, removal by index and
 * the continue gate. Preview object URLs are not modelled.
 */
module FileUpload {
  import opened Wrappers

  const Mebibyte: nat := 1048576

  datatype File = File(name: string, mime: string, size: nat)

  datatype Config = Config(maxFiles: int, maxSizeMB: nat, acceptedTypes: seq<string>)

  /** The defaults for props a page does not pass. */
  const DefaultConfig := Config(10, 20, ["image/jpeg", "image/png", "image/webp", "image/heic", "image/heif"])

  datatype FileError = InvalidType | TooLarge

  /** One entry of the error list; the slot-limit entry is labelled "Multiple files". */
  datatype ValidationError =
    | FileRejected(file: string, reason: FileError)
    | MaxFilesReached(remaining: int, max: int)

  datatype UploadState = UploadState(selected: seq<File>, errors: seq<ValidationError>)

  const InitialState := UploadState([], [])

  /**
   * `validateFile`: the type check comes first; the size check compares the
   * exact size in MiB with `maxSizeMB`, so a file of exactly the limit passes.
   */
  function ValidateFile(cfg: Config, f: File): (r: Option<FileError>)
    ensures r == Some(InvalidType) <==> f.mime !in cfg.acceptedTypes
    ensures r == Some(TooLarge) <==> f.mime in cfg.acceptedTypes && f.size > cfg.maxSizeMB * Mebibyte
    ensures r.None? <==> f.mime in cfg.acceptedTypes && f.size <= cfg.maxSizeMB * Mebibyte
  {
    if f.mime !in cfg.acceptedTypes then Some(InvalidType)
    else if (f.size as real) / (Mebibyte as real) > cfg.maxSizeMB as real then Some(TooLarge)
    else None
  }

  /** A file of an accepted type and exactly `maxSizeMB` MiB is accepted. */
  lemma ExactLimitAccepted(cfg: Config, f: File)
    requires f.mime in cfg.acceptedTypes && f.size == cfg.maxSizeMB * Mebibyte
    ensures ValidateFile(cfg, f).None?
  {
  }

  /** The validation loop: valid files in batch order, and one error per rejected file. */
  function CheckFiles(cfg: Config, files: seq<File>): (r: (seq<File>, seq<ValidationError>))
    ensures |r.0| + |r.1| == |files|
    ensures forall i :: 0 <= i < |r.0| ==> r.0[i] in files && ValidateFile(cfg, r.0[i]).None?
    ensures forall f :: f in files && ValidateFile(cfg, f).None? ==> f in r.0
    ensures forall i :: 0 <= i < |r.1| ==> r.1[i].FileRejected?
    ensures forall f :: f in files && ValidateFile(cfg, f).Some? ==> FileRejected(f.name, ValidateFile(cfg, f).value) in r.1
  {
    if |files| == 0 then ([], [])
    else
      var rest := CheckFiles(cfg, files[1..]);
      assert files == [files[0]] + files[1..];
      match ValidateFile(cfg, files[0])
      case None => ([files[0]] + rest.0, rest.1)
      case Some(e) => (rest.0, [FileRejected(files[0].name, e)] + rest.1)
  }

  /** What checking one file contributes: the file itself when valid, its error otherwise. */
  function Kept(cfg: Config, f: File): seq<File> {
    if ValidateFile(cfg, f).None? then [f] else []
  }

  function Rejected(cfg: Config, f: File): seq<ValidationError> {
    if ValidateFile(cfg, f).None? then [] else [FileRejected(f.name, ValidateFile(cfg, f).value)]
  }

  /** A non-empty list is checked as its first file followed by the rest. */
  lemma CheckFilesStep(cfg: Config, s: seq<File>)
    requires |s| > 0
    ensures CheckFiles(cfg, s).0 == Kept(cfg, s[0]) + CheckFiles(cfg, s[1..]).0
    ensures CheckFiles(cfg, s).1 == Rejected(cfg, s[0]) + CheckFiles(cfg, s[1..]).1
  {
  }

  /** Surviving files keep their batch order. */
  lemma {:induction false} CheckFilesConcat(cfg: Config, a: seq<File>, b: seq<File>)
    ensures CheckFiles(cfg, a + b).0 == CheckFiles(cfg, a).0 + CheckFiles(cfg, b).0
    decreases |a|
  {
    if |a| > 0 {
      assert (a + b)[0] == a[0] && (a + b)[1..] == a[1..] + b;
      CheckFilesStep(cfg, a + b);
      CheckFilesStep(cfg, a);
      CheckFilesConcat(cfg, a[1..], b);
      var kept, rest, restB := Kept(cfg, a[0]), CheckFiles(cfg, a[1..]).0, CheckFiles(cfg, b).0;
      assert kept + (rest + restB) == (kept + rest) + restB;
    } else {
      assert a + b == b;
    }
  }

  /** The errors of rejected files keep their batch order too. */
  lemma {:induction false} CheckFilesErrorsConcat(cfg: Config, a: seq<File>, b: seq<File>)
    ensures CheckFiles(cfg, a + b).1 == CheckFiles(cfg, a).1 + CheckFiles(cfg, b).1
    decreases |a|
  {
    if |a| > 0 {
      assert (a + b)[0] == a[0] && (a + b)[1..] == a[1..] + b;
      CheckFilesStep(cfg, a + b);
      CheckFilesStep(cfg, a);
      CheckFilesErrorsConcat(cfg, a[1..], b);
      var rejected, rest, restB := Rejected(cfg, a[0]), CheckFiles(cfg, a[1..]).1, CheckFiles(cfg, b).1;
      assert rejected + (rest + restB) == (rejected + rest) + restB;
    } else {
      assert a + b == b;
    }
  }

  function RemainingSlots(cfg: Config, st: UploadState): int {
    cfg.maxFiles - |st.selected|
  }

  /**
   * `processFiles`: only the first `maxFiles - selected` files are examined;
   * a larger batch adds one slot-limit error, carrying the free slots and
   * the limit, ahead of the per-file errors. The new error list replaces the
   * old one (see ErrorsReplaced): it holds the slot-limit error and one
   * error per rejected examined file, and nothing else. Valid files are
   * appended.
   */
  function ProcessFiles(cfg: Config, st: UploadState, batch: seq<File>): (r: UploadState)
    ensures var examined := SliceTo(batch, RemainingSlots(cfg, st));
            r.selected == st.selected + CheckFiles(cfg, examined).0
    ensures |batch| > RemainingSlots(cfg, st) <==> |r.errors| > 0 && r.errors[0].MaxFilesReached?
    ensures |batch| > RemainingSlots(cfg, st) ==> r.errors[0] == MaxFilesReached(RemainingSlots(cfg, st), cfg.maxFiles)
    ensures forall i :: 0 < i < |r.errors| ==> r.errors[i].FileRejected?
    ensures var examined := SliceTo(batch, RemainingSlots(cfg, st));
            forall f :: f in examined && ValidateFile(cfg, f).Some? ==>
              FileRejected(f.name, ValidateFile(cfg, f).value) in r.errors
    ensures var examined := SliceTo(batch, RemainingSlots(cfg, st));
            |r.errors| == (if |batch| > RemainingSlots(cfg, st) then 1 else 0) + |examined| - (|r.selected| - |st.selected|)
    ensures 0 <= |st.selected| <= cfg.maxFiles ==> |r.selected| <= cfg.maxFiles
    ensures RemainingSlots(cfg, st) == 0 ==> r.selected == st.selected
  {
    var remaining := RemainingSlots(cfg, st);
    var limitError := if |batch| > remaining then [MaxFilesReached(remaining, cfg.maxFiles)] else [];
    var checked := CheckFiles(cfg, SliceTo(batch, remaining));
    UploadState(st.selected + checked.0, limitError + checked.1)
  }

  /** The previous error list has no bearing on the next: each batch replaces it. */
  lemma ErrorsReplaced(cfg: Config, st: UploadState, previous: seq<ValidationError>, batch: seq<File>)
    ensures ProcessFiles(cfg, st, batch) == ProcessFiles(cfg, st.(errors := previous), batch)
  {
  }

  /** A batch that fits and is all valid is appended whole, with no errors left over. */
  lemma FittingValidBatch(cfg: Config, st: UploadState, batch: seq<File>)
    requires |batch| <= RemainingSlots(cfg, st)
    requires forall i :: 0 <= i < |batch| ==> ValidateFile(cfg, batch[i]).None?
    ensures ProcessFiles(cfg, st, batch) == UploadState(st.selected + batch, [])
  {
    var checked := CheckFiles(cfg, batch);
    AllValidKept(cfg, batch);
  }

  lemma {:induction false} AllValidKept(cfg: Config, files: seq<File>)
    requires forall i :: 0 <= i < |files| ==> ValidateFile(cfg, files[i]).None?
    ensures CheckFiles(cfg, files) == (files, [])
    decreases |files|
  {
    if |files| > 0 {
      AllValidKept(cfg, files[1..]);
      assert files == [files[0]] + files[1..];
    }
  }

  /** `handleRemoveFile`: drop exactly the element at `index`. */
  function RemoveFile(st: UploadState, index: nat): (r: UploadState)
    requires index < |st.selected|
    ensures |r.selected| == |st.selected| - 1
    ensures forall i :: 0 <= i < index ==> r.selected[i] == st.selected[i]
    ensures forall i :: index <= i < |r.selected| ==> r.selected[i] == st.selected[i + 1]
    ensures r.errors == st.errors
  {
    st.(selected := st.selected[..index] + st.selected[index + 1..])
  }

  /** `handleContinue`: hand the selection over only when it is non-empty. */
  function Continue(st: UploadState): (r: Option<seq<File>>)
    ensures r.Some? <==> |st.selected| > 0
    ensures r.Some? ==> r.value == st.selected
  {
    if |st.selected| > 0 then Some(st.selected) else None
  }

  /** Starting empty, every sequence of batches keeps the selection within `maxFiles`. */
  lemma {:induction false} SelectionBounded(cfg: Config, st: UploadState, batches: seq<seq<File>>)
    requires 0 <= |st.selected| <= cfg.maxFiles
    ensures |Replay(cfg, st, batches).selected| <= cfg.maxFiles
    decreases |batches|
  {
    if |batches| > 0 {
      SelectionBounded(cfg, ProcessFiles(cfg, st, batches[0]), batches[1..]);
    }
  }

  function Replay(cfg: Config, st: UploadState, batches: seq<seq<File>>): UploadState
    decreases |batches|
  {
    if |batches| == 0 then st else Replay(cfg, ProcessFiles(cfg, st, batches[0]), batches[1..])
  }
}

=== FILE: galleries.dfy ===
/**
 * The two gallery pages: both load every artifact newest first and keep
 * those of their own capture mode. The Save gallery also keeps legacy
 * artifacts whose `captureMode` is absent or empty.
 */
module Galleries {
  import opened Wrappers
  import opened ArtifactTypes
  import opened ArtifactDb

  predicate InSaveGallery(a: Artifact) {
    a.metadata.captureMode == Some("save") || !Truthy(a.metadata.captureMode)
  }

  predicate InPaletteGallery(a: Artifact) {
    a.metadata.captureMode == Some("palette")
  }

  /** `xs.filter(keep)`. */
  function Filter(xs: seq<Artifact>, keep: Artifact -> bool): (r: seq<Artifact>)
    ensures forall a :: a in r <==> a in xs && keep(a)
    ensures |r| <= |xs|
    ensures NewestFirst(xs) ==> NewestFirst(r)
  {
    if |xs| == 0 then []
    else
      var rest := Filter(xs[1..], keep);
      if keep(xs[0]) then
        assert NewestFirst(xs) ==> forall j :: 0 <= j < |rest| ==> ListedBefore(xs[0], rest[j]) by {
          if NewestFirst(xs) {
            forall j | 0 <= j < |rest| ensures ListedBefore(xs[0], rest[j]) {
              assert rest[j] in rest;
              assert rest[j] in xs[1..];
              var k :| 0 <= k < |xs[1..]| && xs[1..][k] == rest[j];
              assert xs[k + 1] == rest[j];
            }
          }
        }
        [xs[0]] + rest
      else rest
  }

  /** The list a gallery shows: empty while the live query is still loading. */
  function SaveGallery(loaded: Option<seq<Artifact>>): (r: seq<Artifact>)
    ensures loaded.None? ==> r == []
    ensures loaded.Some? ==> forall a :: a in r <==> a in loaded.value && InSaveGallery(a)
    ensures loaded.Some? && NewestFirst(loaded.value) ==> NewestFirst(r)
  {
    match loaded
    case None => []
    case Some(xs) => Filter(xs, InSaveGallery)
  }

  function PaletteGallery(loaded: Option<seq<Artifact>>): (r: seq<Artifact>)
    ensures loaded.None? ==> r == []
    ensures loaded.Some? ==> forall a :: a in r <==> a in loaded.value && InPaletteGallery(a)
    ensures loaded.Some? && NewestFirst(loaded.value) ==> NewestFirst(r)
  {
    match loaded
    case None => []
    case Some(xs) => Filter(xs, InPaletteGallery)
  }

  /** `isLoading` holds exactly while the query result is undefined. */
  predicate IsLoading(loaded: Option<seq<Artifact>>) {
    loaded.None?
  }

  /** A mode the capture pages write, or none at all. */
  predicate KnownMode(a: Artifact) {
    a.metadata.captureMode in {Some("save"), Some("palette"), None}
  }

  /** An artifact with a known mode appears in exactly one gallery. */
  lemma ExactlyOneGallery(a: Artifact)
    requires KnownMode(a)
    ensures InSaveGallery(a) != InPaletteGallery(a)
  {
  }

  /** An unrecognised non-empty mode appears in neither gallery. */
  lemma UnknownModeInNeither(a: Artifact)
    requires a.metadata.captureMode.Some?
    requires a.metadata.captureMode.value !in {"", "save", "palette"}
    ensures !InSaveGallery(a) && !InPaletteGallery(a)
  {
  }

  /** Over artifacts of known modes the two galleries together list every artifact once. */
  lemma {:induction false} GalleriesPartition(xs: seq<Artifact>)
    requires forall i :: 0 <= i < |xs| ==> KnownMode(xs[i])
    ensures |SaveGallery(Some(xs))| + |PaletteGallery(Some(xs))| == |xs|
    decreases |xs|
  {
    if |xs| > 0 {
      GalleriesPartition(xs[1..]);
      ExactlyOneGallery(xs[0]);
    }
  }
}

=== FILE: header.dfy ===
/** The page title shown in the app header, looked up from the current path. */
module Header {
  import opened Wrappers

  const DefaultTitle := "Save The Past"
  const ArtifactPrefix := "/artifact/"
  const ArtifactTitle := "Artifact Details"

  /** The titles of the fixed routes. */
  const PageTitles: map<string, string> := map[
    "/" := "Save The Past",
    "/capture" := "Capture Artifact",
    "/gallery" := "My Artifacts",
    "/settings" := "Settings"
  ]

  /**
   * `getTitle`: any artifact route is "Artifact Details", checked before the
   * table; otherwise the path's exact entry, falling back to the app name
   * (the fallback also covers an empty title, which the table never holds).
   */
  function GetTitle(path: string): (r: string)
    ensures StartsWith(path, ArtifactPrefix) ==> r == ArtifactTitle
    ensures !StartsWith(path, ArtifactPrefix) && path in PageTitles ==> r == PageTitles[path]
    ensures !StartsWith(path, ArtifactPrefix) && path !in PageTitles ==> r == DefaultTitle
  {
    if StartsWith(path, ArtifactPrefix) then ArtifactTitle
    else if path in PageTitles && PageTitles[path] != "" then PageTitles[path]
    else DefaultTitle
  }

  /** The four fixed routes get their own titles. */
  lemma FixedRoutes()
    ensures GetTitle("/capture") == "Capture Artifact"
    ensures GetTitle("/gallery") == "My Artifacts"
    ensures GetTitle("/settings") == "Settings"
    ensures GetTitle("/") == DefaultTitle
  {
    assert !StartsWith("/capture", ArtifactPrefix) by { assert |"/capture"| < |ArtifactPrefix|; }
    assert !StartsWith("/gallery", ArtifactPrefix) by { assert |"/gallery"| < |ArtifactPrefix|; }
    assert !StartsWith("/settings", ArtifactPrefix) by { assert |"/settings"| < |ArtifactPrefix|; }
    assert !StartsWith("/", ArtifactPrefix);
  }

  /** Lookup is exact: a path that merely extends a fixed route, like "/gallery/x", falls back. */
  lemma ExactMatchOnly(path: string)
    requires path !in PageTitles && !StartsWith(path, ArtifactPrefix)
    ensures GetTitle(path) == GetTitle("/")
  {
    FixedRoutes();
  }

  /** The only titles the header can show. */
  lemma TitleRange(path: string)
    ensures GetTitle(path) in {DefaultTitle, ArtifactTitle, "Capture Artifact", "My Artifacts", "Settings"}
  {
  }
}

=== FILE: http_common.dfy ===
/**
 * What the three serverless handlers share: the preflight and method gate,
 * the shape of their JSON responses, and a step that may throw.
 */
module HttpCommon {

  /** The JSON body of a response, by the fields it carries. */
  datatype Body =
    | NoBody                                    // ''
    | ErrorOnly(error: string)                  // { error }
    | Failed(error: string)                     // { success: false, error }
    | CardPayload(card: map<string, string>)    // { success: true, infoCard }

  datatype Response = Response(status: nat, body: Body)

  /** A step that either returns a value or throws an error with a message. */
  datatype Outcome<+T> = Threw(message: string) | Returned(value: T)

  const MethodNotAllowed := "Method not allowed"

  /**
   * The gate every handler runs first: a CORS preflight is answered with an
   * empty 200, any other method but POST with 405, and a POST goes on.
   */
  function Gate(httpMethod: string): (r: Response)
    requires httpMethod != "POST"
    ensures r.status == 200 <==> httpMethod == "OPTIONS"
    ensures r.status == 200 ==> r.body == NoBody
    ensures r.status != 200 ==> r == Response(405, ErrorOnly(MethodNotAllowed))
  {
    if httpMethod == "OPTIONS" then Response(200, NoBody)
    else Response(405, ErrorOnly(MethodNotAllowed))
  }

  /** The `catch` block: a thrown error becomes a 500 carrying its message. */
  function Caught(message: string): (r: Response)
    ensures r.status == 500 && r.body.Failed? && r.body.error == message
  {
    Response(500, Failed(message))
  }
}

=== FILE: info_card_generation.dfy ===
/**
 * The info-card generation panel: a four-step machine (metadata form,
 * generating, complete, error) driven by the user's buttons and the
 * generation hook's callbacks, and the progress message it shows.
 */
module InfoCardGeneration {
  import opened Wrappers
  import opened ArtifactTypes
  import opened Thresholds

  datatype Step = MetadataStep | Generating | CompleteStep | ErrorStep

  datatype Panel = Panel(step: Step, metadata: ArtifactMetadata)

  /** What a handler asks of the outside world, besides the next panel state. */
  datatype Effects = Effects(
    alert: bool,
    generate: Option<(Blob, ArtifactMetadata)>,
    cancelRequest: bool,
    resetHook: bool,
    onCancel: bool,
    onComplete: Option<InfoCard>)

  const NoEffects := Effects(false, None, false, false, false, None)

  /** The panel opens on the metadata form, prefilled from the artifact when it has metadata. */
  function OpenPanel(initial: Option<ArtifactMetadata>): (r: Panel)
    ensures r.step == MetadataStep
    ensures r.metadata == initial.GetOr(EmptyMetadata)
  {
    Panel(MetadataStep, initial.GetOr(EmptyMetadata))
  }

  /** `handleGenerate`: without images only an alert; otherwise generate from the first image. */
  function HandleGenerate(p: Panel, images: seq<ArtifactImage>): (r: (Panel, Effects))
    ensures |images| == 0 ==> r == (p, NoEffects.(alert := true))
    ensures |images| > 0 ==> r.0 == p.(step := Generating)
    ensures |images| > 0 ==> r.1 == NoEffects.(generate := Some((images[0].blob, p.metadata)))
    ensures r.1.generate.Some? <==> |images| > 0
  {
    if |images| == 0 then (p, NoEffects.(alert := true))
    else (p.(step := Generating), NoEffects.(generate := Some((images[0].blob, p.metadata))))
  }

  /** The hook's success callback: complete, and hand the card to the parent. */
  function OnSuccess(p: Panel, card: InfoCard): (r: (Panel, Effects))
    ensures r.0.step == CompleteStep && r.0.metadata == p.metadata
    ensures r.1 == NoEffects.(onComplete := Some(card))
  {
    (p.(step := CompleteStep), NoEffects.(onComplete := Some(card)))
  }

  function OnError(p: Panel): (r: (Panel, Effects))
    ensures r.0.step == ErrorStep && r.0.metadata == p.metadata && r.1 == NoEffects
  {
    (p.(step := ErrorStep), NoEffects)
  }

  /** `handleCancel`: cancel the request only while processing, reset, back to the form, notify the parent if it listens. */
  function HandleCancel(p: Panel, isProcessing: bool, hasOnCancel: bool): (r: (Panel, Effects))
    ensures r.0 == p.(step := MetadataStep)
    ensures r.1.cancelRequest <==> isProcessing
    ensures r.1.resetHook && (r.1.onCancel <==> hasOnCancel)
    ensures r.1.generate.None? && r.1.onComplete.None? && !r.1.alert
  {
    (p.(step := MetadataStep), NoEffects.(cancelRequest := isProcessing, resetHook := true, onCancel := hasOnCancel))
  }

  /** `handleRetry`: reset and return to the form, keeping the metadata entered. */
  function HandleRetry(p: Panel): (r: (Panel, Effects))
    ensures r.0 == p.(step := MetadataStep)
    ensures r.1 == NoEffects.(resetHook := true)
  {
    (p.(step := MetadataStep), NoEffects.(resetHook := true))
  }

  /** After an error, retry then generate sends the same image and metadata again. */
  lemma RetryRegenerates(p: Panel, images: seq<ArtifactImage>)
    requires |images| > 0
    ensures var again := HandleGenerate(HandleRetry(OnError(HandleGenerate(p, images).0).0).0, images);
            again.0.step == Generating && again.1.generate == HandleGenerate(p, images).1.generate
  {
  }

  datatype InfoMessage =
    | Preparing | Encoding | Sending
    | Analyzing | Identifying | GeneratingCard | Saving | Finishing
    | Done | GenericError

  const UploadLabels: seq<InfoMessage> := [Preparing, Encoding, Sending]
  const ProcessingLabels: seq<InfoMessage> := [Analyzing, Identifying, GeneratingCard, Saving, Finishing]

  /** `getStatusMessage`; an idle hook shows the first upload label. */
  function StatusMessage(state: HookState, progress: real): (r: InfoMessage)
  {
    match state
    case HookUploading =>
      if progress < 15.0 then Preparing
      else if progress < 30.0 then Encoding
      else Sending
    case HookProcessing =>
      if progress < 50.0 then Analyzing
      else if progress < 70.0 then Identifying
      else if progress < 85.0 then GeneratingCard
      else if progress < 95.0 then Saving
      else Finishing
    case HookComplete => Done
    case HookError => GenericError
    case HookIdle => Preparing
  }

  /** The same shared thresholds, 15/30 while uploading and 50/70/85/95 while processing. */
  lemma StatusMessageThresholds(state: HookState, progress: real)
    ensures state == HookUploading ==> StatusMessage(state, progress) == UploadLabels[StepIndex(progress, UploadThresholds)]
    ensures state == HookProcessing ==> StatusMessage(state, progress) == ProcessingLabels[StepIndex(progress, ProcessingThresholds)]
    ensures StatusMessage(HookIdle, progress) == StatusMessage(HookUploading, 0.0)
  {
    PhaseThresholdsAscending();
    if progress < 50.0 {
      StepIndexBetween(progress, ProcessingThresholds, 0);
    } else if progress < 70.0 {
      StepIndexBetween(progress, ProcessingThresholds, 1);
    } else if progress < 85.0 {
      StepIndexBetween(progress, ProcessingThresholds, 2);
    } else if progress < 95.0 {
      StepIndexBetween(progress, ProcessingThresholds, 3);
    } else {
      StepIndexBetween(progress, ProcessingThresholds, 4);
    }
  }
}

=== FILE: info_card_handler.dfy ===
/**
 * The info-card serverless handler: its order of checks and status codes,
 * the user message it composes from the request's context fields, and the
 * fixed disclaimer it stamps on every card it returns. The upstream chat
 * completion call is a parameter.
 */
module InfoCardHandler {
  import opened Wrappers
  import opened HttpCommon

  /** The optional context sent along with the image. */
  datatype Context = Context(
    discoveryLocation: Option<string>,
    excavationLayer: Option<string>,
    siteName: Option<string>,
    notes: Option<string>)

  datatype Request = Request(imageBase64: Option<string>, metadata: Option<Context>)

  /** What the upstream completion call produced. */
  datatype Upstream = Upstream(
    status: nat,
    content: Option<string>,                      // choices[0].message.content
    card: Outcome<map<string, string>>)           // JSON.parse(content)

  predicate UpstreamOk(u: Upstream) {
    200 <= u.status <= 299
  }

  const MissingImage := "Missing imageBase64"
  const Disclaimer := "This analysis was generated by AI and should be verified by qualified archaeologists. All estimates are speculative based on visual analysis."
  const Intro := "Analyze this archaeological artifact image and generate an information card."
  const LocationLabel := "\n\nDiscovery Location: "
  const LayerLabel := "\nExcavation Layer: "
  const SiteLabel := "\nSite Name: "
  const NotesLabel := "\nAdditional Notes: "

  /** The line a context field contributes: nothing when it is absent or empty. */
  function Line(title: string, value: Option<string>): (r: string)
    ensures Truthy(value) ==> r == title + value.value
    ensures !Truthy(value) ==> r == ""
  {
    if Truthy(value) then title + value.value else ""
  }

  /** The fixed request followed by the context lines in the order location, layer, site, notes. */
  function WithContext(c: Context): string {
    Intro + Line(LocationLabel, c.discoveryLocation) + Line(LayerLabel, c.excavationLayer)
      + Line(SiteLabel, c.siteName) + Line(NotesLabel, c.notes)
  }

  /**
   * The user message: the fixed request, then one line per present context
   * field, always in the order location, layer, site, notes.
   */
  method UserMessage(metadata: Option<Context>) returns (msg: string)
    ensures metadata.None? ==> msg == Intro
    ensures metadata.Some? ==> msg == WithContext(metadata.value)
  {
    msg := Intro;
    if metadata.Some? {
      var c := metadata.value;
      if Truthy(c.discoveryLocation) {
        msg := msg + (LocationLabel + c.discoveryLocation.value);
      }
      assert msg == Intro + Line(LocationLabel, c.discoveryLocation);
      var afterLocation := msg;
      if Truthy(c.excavationLayer) {
        msg := msg + (LayerLabel + c.excavationLayer.value);
      }
      assert msg == afterLocation + Line(LayerLabel, c.excavationLayer);
      var afterLayer := msg;
      if Truthy(c.siteName) {
        msg := msg + (SiteLabel + c.siteName.value);
      }
      assert msg == afterLayer + Line(SiteLabel, c.siteName);
      var afterSite := msg;
      if Truthy(c.notes) {
        msg := msg + (NotesLabel + c.notes.value);
      }
      assert msg == afterSite + Line(NotesLabel, c.notes);
    }
  }

  /** Appending to a sequence keeps any prefix it already has. */
  lemma PrefixKept(a: string, x: string, y: string)
    requires |a| <= |x| && x[..|a|] == a
    ensures |a| <= |x + y| && (x + y)[..|a|] == a
  {
    assert (x + y)[..|a|] == x[..|a|];
  }

  /** Context only ever extends the fixed request. */
  lemma MessageExtendsIntro(c: Context)
    ensures |WithContext(c)| >= |Intro|
    ensures WithContext(c)[..|Intro|] == Intro
  {
    var m1 := Intro + Line(LocationLabel, c.discoveryLocation);
    var m2 := m1 + Line(LayerLabel, c.excavationLayer);
    var m3 := m2 + Line(SiteLabel, c.siteName);
    PrefixKept(Intro, Intro, Line(LocationLabel, c.discoveryLocation));
    PrefixKept(Intro, m1, Line(LayerLabel, c.excavationLayer));
    PrefixKept(Intro, m2, Line(SiteLabel, c.siteName));
    PrefixKept(Intro, m3, Line(NotesLabel, c.notes));
  }

  /** A context with every field absent or empty adds nothing. */
  lemma EmptyContextAddsNothing(c: Context)
    requires !Truthy(c.discoveryLocation) && !Truthy(c.excavationLayer)
    requires !Truthy(c.siteName) && !Truthy(c.notes)
    ensures WithContext(c) == Intro
  {
  }

  /** Notes, when present, always come last: the message ends with them. */
  lemma NotesComeLast(c: Context)
    requires Truthy(c.notes)
    ensures var m := WithContext(c);
      |m| >= |c.notes.value| && m[|m| - |c.notes.value|..] == c.notes.value
  {
    var front := Intro + Line(LocationLabel, c.discoveryLocation) + Line(LayerLabel, c.excavationLayer)
      + Line(SiteLabel, c.siteName);
    var before := front + NotesLabel;
    assert WithContext(c) == front + (NotesLabel + c.notes.value);
    assert front + (NotesLabel + c.notes.value) == before + c.notes.value;
    assert (before + c.notes.value)[|before|..] == c.notes.value;
  }

  /** The card returned to the client: the model's fields with the disclaimer forced. */
  function StampDisclaimer(card: map<string, string>): (r: map<string, string>)
    ensures "disclaimer" in r && r["disclaimer"] == Disclaimer
    ensures r.Keys == card.Keys + {"disclaimer"}
    ensures forall k :: k in card && k != "disclaimer" ==> r[k] == card[k]
  {
    card["disclaimer" := Disclaimer]
  }

  /**
   * The handler. `apiKey` is the configured key, `body` the parsed request
   * (a malformed or `null` body throws), `upstream` what the completion call
   * returns once it is made.
   */
  function Handle(httpMethod: string, apiKey: Option<string>, body: Outcome<Request>, upstream: Outcome<Upstream>): (r: Response)
    ensures httpMethod != "POST" ==> r == Gate(httpMethod)
    ensures httpMethod == "POST" && !Truthy(apiKey) ==> r.status == 500 && r.body.ErrorOnly?
    ensures r == Response(400, ErrorOnly(MissingImage)) <==>
      httpMethod == "POST" && Truthy(apiKey) && body.Returned? && !Truthy(body.value.imageBase64)
    ensures r.body.CardPayload? <==>
      httpMethod == "POST" && Truthy(apiKey) && body.Returned? && Truthy(body.value.imageBase64)
      && upstream.Returned? && UpstreamOk(upstream.value) && Truthy(upstream.value.content)
      && upstream.value.card.Returned?
    ensures r.body.CardPayload? ==> r.status == 200 && r.body.card == StampDisclaimer(upstream.value.card.value)
    ensures (httpMethod == "POST" && Truthy(apiKey) && body.Returned? && Truthy(body.value.imageBase64)
      && upstream.Returned? && !UpstreamOk(upstream.value)) ==> r.status == upstream.value.status && r.body.Failed?
    ensures (httpMethod == "POST" && Truthy(apiKey) && body.Returned? && Truthy(body.value.imageBase64)
      && upstream.Returned? && UpstreamOk(upstream.value) && !Truthy(upstream.value.content)) ==> r.status == 500 && r.body.Failed?
    ensures httpMethod == "POST" && Truthy(apiKey) && body.Threw? ==> r == Caught(body.message)
    ensures (httpMethod == "POST" && Truthy(apiKey) && body.Returned? && Truthy(body.value.imageBase64)
      && upstream.Threw?) ==> r == Caught(upstream.message)
    ensures (httpMethod == "POST" && Truthy(apiKey) && body.Returned? && Truthy(body.value.imageBase64)
      && upstream.Returned? && UpstreamOk(upstream.value) && Truthy(upstream.value.content)
      && upstream.value.card.Threw?) ==> r == Caught(upstream.value.card.message)
  {
    if httpMethod != "POST" then Gate(httpMethod)
    else if !Truthy(apiKey) then Response(500, ErrorOnly("GROQ_API_KEY not configured"))
    else match body
      case Threw(m) => Caught(m)
      case Returned(req) =>
        if !Truthy(req.imageBase64) then Response(400, ErrorOnly(MissingImage))
        else match upstream
          case Threw(m) => Caught(m)
          case Returned(u) =>
            if !UpstreamOk(u) then Response(u.status, Failed("Groq API error"))
            else if !Truthy(u.content) then Response(500, Failed("Empty response from Groq"))
            else match u.card
              case Threw(m) => Caught(m)
              case Returned(card) => Response(200, CardPayload(StampDisclaimer(card)))
  }

  /** A successful response always carries exactly the fixed disclaimer, whatever the model wrote. */
  lemma SuccessCarriesDisclaimer(httpMethod: string, apiKey: Option<string>, body: Outcome<Request>, upstream: Outcome<Upstream>)
    ensures Handle(httpMethod, apiKey, body, upstream).body.CardPayload? ==>
      var card := Handle(httpMethod, apiKey, body, upstream).body.card;
      "disclaimer" in card && card["disclaimer"] == Disclaimer
  {
  }

  /** A missing key is reported before the body is even looked at. */
  lemma KeyCheckedBeforeBody(apiKey: Option<string>, b1: Outcome<Request>, b2: Outcome<Request>, u1: Outcome<Upstream>, u2: Outcome<Upstream>)
    requires !Truthy(apiKey)
    ensures Handle("POST", apiKey, b1, u1) == Handle("POST", apiKey, b2, u2)
  {
  }
}

=== FILE: key_order.dfy ===
/**
 * The order IndexedDB uses for string keys: lexicographic comparison of
 * the characters. Dexie returns index scans in this order, so it decides
 * which record `first()` yields and how ties in a secondary index are broken.
 */
module KeyOrder {

  /** Strict lexicographic order on strings. */
  predicate Less(a: string, b: string)
    decreases |a|
  {
    if |b| == 0 then false
    else if |a| == 0 then true
    else if a[0] != b[0] then a[0] < b[0]
    else Less(a[1..], b[1..])
  }

  lemma {:induction false} Irreflexive(a: string)
    ensures !Less(a, a)
    decreases |a|
  {
    if |a| > 0 {
      Irreflexive(a[1..]);
    }
  }

  lemma {:induction false} Asymmetric(a: string, b: string)
    ensures !(Less(a, b) && Less(b, a))
    decreases |a|
  {
    if |a| > 0 && |b| > 0 && a[0] == b[0] {
      Asymmetric(a[1..], b[1..]);
    }
  }

  lemma {:induction false} Transitive(a: string, b: string, c: string)
    requires Less(a, b) && Less(b, c)
    ensures Less(a, c)
    decreases |a|
  {
    if |a| > 0 && a[0] == b[0] && b[0] == c[0] {
      Transitive(a[1..], b[1..], c[1..]);
    }
  }

  /** Any two different strings are ordered one way or the other. */
  lemma {:induction false} Total(a: string, b: string)
    requires a != b
    ensures Less(a, b) || Less(b, a)
    decreases |a|
  {
    if |a| > 0 && |b| > 0 && a[0] == b[0] {
      assert a == [a[0]] + a[1..] && b == [b[0]] + b[1..];
      Total(a[1..], b[1..]);
    }
  }

  /** `a` is at most `b`. */
  predicate LessOrEqual(a: string, b: string) {
    a == b || Less(a, b)
  }
}

=== FILE: palette_detail.dfy ===
/**
 * The Past Palette detail page's Colors tab: the colorization status it
 * shows, the gallery/generate/detail mode machine, the generate request,
 * the variant download name and the progress messages.
 */
module PaletteDetail {
  import opened Wrappers
  import opened ArtifactTypes
  import opened Thresholds
  import opened ColorizationProgress
  
  /** `colorizationStatus`: upload and processing both show as processing; anything else unknown is idle. */
  function ColorizeStatusOf(state: HookState): (r: ColorizationStatus)
    ensures r == CProcessing <==> state == HookUploading || state == HookProcessing
    ensures r == CCompleted <==> state == HookComplete
    ensures r == CError <==> state == HookError
    ensures r == CIdle <==> state == HookIdle
  {
    match state
    case HookUploading => CProcessing
    case HookProcessing => CProcessing
    case HookComplete => CCompleted
    case HookError => CError
    case HookIdle => CIdle
  }

  datatype TabMode = GalleryMode | GenerateMode | DetailMode

  datatype ColorsTab = ColorsTab(
    mode: TabMode,
    selected: Option<ColorVariant>,
    scheme: ColorScheme,
    customPrompt: string,
    errorMessage: Option<string>)

  /** The mode the tab opens in, and returns to on cancel. */
  function HomeMode(variantCount: nat): (r: TabMode)
    ensures r == GalleryMode <==> variantCount > 0
    ensures r == GenerateMode <==> variantCount == 0
  {
    if variantCount > 0 then GalleryMode else GenerateMode
  }

  function OpenTab(variantCount: nat): (r: ColorsTab)
    ensures r.mode == HomeMode(variantCount) && r.selected.None? && r.errorMessage.None?
    ensures r.scheme == Original && r.customPrompt == ""
  {
    ColorsTab(HomeMode(variantCount), None, Original, "", None)
  }

  /** What `handleGenerate` sends: the first image, the scheme, and the prompt only for `custom`. */
  datatype ColorizeRequest = ColorizeRequest(source: Blob, scheme: ColorScheme, prompt: Option<string>)

  function HandleGenerate(tab: ColorsTab, images: seq<ArtifactImage>): (r: (ColorsTab, Option<ColorizeRequest>))
    ensures |images| == 0 ==> r == (tab, None)
    ensures |images| > 0 ==> r.0 == tab.(errorMessage := None) && r.1.Some?
    ensures r.1.Some? ==> r.1.value.source == images[0].blob && r.1.value.scheme == tab.scheme
    ensures r.1.Some? ==> (r.1.value.prompt.Some? <==> tab.scheme == Custom)
    ensures r.1.Some? && tab.scheme == Custom ==> r.1.value.prompt == Some(tab.customPrompt)
  {
    if |images| == 0 then (tab, None)
    else (tab.(errorMessage := None),
          Some(ColorizeRequest(images[0].blob, tab.scheme, if tab.scheme == Custom then Some(tab.customPrompt) else None)))
  }

  function VariantClick(tab: ColorsTab, v: ColorVariant): (r: ColorsTab)
    ensures r.mode == DetailMode && r.selected == Some(v)
  {
    tab.(selected := Some(v), mode := DetailMode)
  }

  /** `handleVariantDelete`: on success the selection is cleared and the gallery shown; a failure is only logged. */
  function VariantDeleted(tab: ColorsTab, succeeded: bool): (r: ColorsTab)
    ensures succeeded ==> r.mode == GalleryMode && r.selected.None?
    ensures !succeeded ==> r == tab
  {
    if succeeded then tab.(selected := None, mode := GalleryMode) else tab
  }

  function CloseDetail(tab: ColorsTab): (r: ColorsTab)
    ensures r.mode == GalleryMode && r.selected.None?
  {
    tab.(selected := None, mode := GalleryMode)
  }

  /** `handleCancel`: back to the mode the tab opens in for the current variant count. */
  function CancelGenerate(tab: ColorsTab, variantCount: nat): (r: ColorsTab)
    ensures r.mode == OpenTab(variantCount).mode
    ensures r.(mode := tab.mode) == tab
  {
    tab.(mode := HomeMode(variantCount))
  }

  /** The colorize hook's success callback and the view-result button both return to the gallery. */
  function ShowGallery(tab: ColorsTab): (r: ColorsTab)
    ensures r.mode == GalleryMode && r.(mode := tab.mode) == tab
  {
    tab.(mode := GalleryMode)
  }

  function ColorizeFailed(tab: ColorsTab, message: string): (r: ColorsTab)
    ensures r.errorMessage == Some(message) && r.mode == tab.mode
  {
    tab.(errorMessage := Some(message))
  }

  /** `handleRetry`: clear the error and generate again. */
  function HandleRetry(tab: ColorsTab, images: seq<ArtifactImage>): (r: (ColorsTab, Option<ColorizeRequest>))
    ensures r.0.errorMessage.None?
    ensures r == HandleGenerate(tab.(errorMessage := None), images)
  {
    HandleGenerate(tab.(errorMessage := None), images)
  }

  /** Which view the tab renders. */
  datatype View = NoImagesView | DetailView | GenerateView | GalleryView

  function TabView(tab: ColorsTab, imageCount: nat, isProcessing: bool): (r: View)
    ensures r == NoImagesView <==> imageCount == 0
    ensures r == DetailView <==> imageCount > 0 && tab.mode == DetailMode && tab.selected.Some?
    ensures r == GenerateView ==> tab.mode == GenerateMode || isProcessing
    ensures imageCount > 0 && tab.mode == GenerateMode ==> r == GenerateView
  {
    if imageCount == 0 then NoImagesView
    else if tab.mode == DetailMode && tab.selected.Some? then DetailView
    else if tab.mode == GenerateMode || isProcessing then GenerateView
    else GalleryView
  }

  /** A delete from the detail view lands on the gallery, never back on the detail. */
  lemma DeleteLeavesDetail(tab: ColorsTab, v: ColorVariant, imageCount: nat, isProcessing: bool)
    requires imageCount > 0 && !isProcessing
    ensures TabView(VariantDeleted(VariantClick(tab, v), true), imageCount, isProcessing) == GalleryView
  {
  }

  /** `colorized-<scheme>-<first 8 characters of the artifact id>.png`. */
  function VariantFileName(scheme: ColorScheme, artifactId: string): (r: string)
    ensures var prefix := "colorized-" + SchemeName(scheme) + "-";
            var idPart := SliceTo(artifactId, 8);
            && |idPart| == (if |artifactId| < 8 then |artifactId| else 8)
            && idPart == artifactId[..|idPart|]
            && r == prefix + idPart + ".png"
  {
    "colorized-" + SchemeName(scheme) + "-" + SliceTo(artifactId, 8) + ".png"
  }

  datatype ColorizeMessage =
    | Converting | Encoding | UploadingImage
    | Analyzing | Applying | Refining | Saving | Finalizing
    | Done | ErrorMessage | Ready

  const UploadLabels: seq<ColorizeMessage> := [Converting, Encoding, UploadingImage]
  const ProcessingLabels: seq<ColorizeMessage> := [Analyzing, Applying, Refining, Saving, Finalizing]

  /** `getColorizeStatusMessage`. */
  function ColorizeStatusMessage(state: HookState, progress: real): (r: ColorizeMessage)
  {
    match state
    case HookUploading =>
      if progress < 15.0 then Converting
      else if progress < 30.0 then Encoding
      else UploadingImage
    case HookProcessing =>
      if progress < 50.0 then Analyzing
      else if progress < 70.0 then Applying
      else if progress < 85.0 then Refining
      else if progress < 95.0 then Saving
      else Finalizing
    case HookComplete => Done
    case HookError => ErrorMessage
    case HookIdle => Ready
  }

  /** The colorize messages use the same shared thresholds as the reconstruction messages. */
  lemma ColorizeMessageThresholds(state: HookState, progress: real)
    ensures state == HookUploading ==>
              ColorizeStatusMessage(state, progress) == UploadLabels[StepIndex(progress, UploadThresholds)]
    ensures state == HookProcessing ==>
              ColorizeStatusMessage(state, progress) == ProcessingLabels[StepIndex(progress, ProcessingThresholds)]
  {
    PhaseThresholdsAscending();
    if progress < 50.0 {
      StepIndexBetween(progress, ProcessingThresholds, 0);
    } else if progress < 70.0 {
      StepIndexBetween(progress, ProcessingThresholds, 1);
    } else if progress < 85.0 {
      StepIndexBetween(progress, ProcessingThresholds, 2);
    } else if progress < 95.0 {
      StepIndexBetween(progress, ProcessingThresholds, 3);
    } else {
      StepIndexBetween(progress, ProcessingThresholds, 4);
    }
  }
}

=== FILE: reconstruct_handler.dfy ===
/**
 * The 3D-reconstruction serverless handler: its order of checks and status
 * codes (the reconstruction itself is still a stub answering 501), and the
 * defaults it applies to the request's options.
 */
module ReconstructHandler {
  import opened Wrappers
  import opened HttpCommon

  /**
   * A JSON request field as destructuring sees it: a default applies only
   * to a field that is missing, not to one that is `null`.
   */
  datatype Field<+T> = Missing | Null | Given(value: T)

  datatype Request = Request(imageBase64: Field<string>, reconstruction: Field<string>, removeBackground: Field<bool>)

  /** The options the handler works with once defaults are applied. */
  datatype Options = Options(reconstruction: Field<string>, removeBackground: Field<bool>)

  const MissingImage := "Missing imageBase64"
  const NotImplemented := "Not yet implemented. Gradio client integration pending."

  /** A destructuring default. */
  function WithDefault<T>(f: Field<T>, d: T): (r: Field<T>)
    ensures f.Missing? ==> r == Given(d)
    ensures !f.Missing? ==> r == f
  {
    if f.Missing? then Given(d) else f
  }

  /** The method defaults to `trellis` and background removal to on. */
  function OptionsOf(req: Request): (r: Options)
    ensures req.reconstruction.Missing? ==> r.reconstruction == Given("trellis")
    ensures req.removeBackground.Missing? ==> r.removeBackground == Given(true)
    ensures req.reconstruction.Given? ==> r.reconstruction == req.reconstruction
    ensures req.removeBackground.Given? ==> r.removeBackground == req.removeBackground
  {
    Options(WithDefault(req.reconstruction, "trellis"), WithDefault(req.removeBackground, true))
  }

  /** Applying the defaults twice changes nothing: a defaulted field is never missing. */
  lemma DefaultsIdempotent(req: Request)
    ensures var o := OptionsOf(req);
      OptionsOf(Request(req.imageBase64, o.reconstruction, o.removeBackground)) == o
    ensures !OptionsOf(req).reconstruction.Missing? && !OptionsOf(req).removeBackground.Missing?
  {
  }

  /** JavaScript truthiness of the image field. */
  predicate HasImage(req: Request) {
    req.imageBase64.Given? && req.imageBase64.value != ""
  }

  /**
   * The handler. `body` is the parsed request (a malformed or `null` body
   * throws). Every request with an image is answered 501.
   */
  function Handle(httpMethod: string, body: Outcome<Request>): (r: Response)
    ensures httpMethod != "POST" ==> r == Gate(httpMethod)
    ensures httpMethod == "POST" && body.Threw? ==> r == Caught(body.message)
    ensures r == Response(400, ErrorOnly(MissingImage)) <==>
      httpMethod == "POST" && body.Returned? && !HasImage(body.value)
    ensures r.status == 501 <==> httpMethod == "POST" && body.Returned? && HasImage(body.value)
    ensures r.status == 501 ==> r.body == Failed(NotImplemented)
    ensures r.status in {200, 400, 405, 500, 501}
  {
    if httpMethod != "POST" then Gate(httpMethod)
    else match body
      case Threw(m) => Caught(m)
      case Returned(req) =>
        if !HasImage(req) then Response(400, ErrorOnly(MissingImage))
        else Response(501, Failed(NotImplemented))
  }

  /** The options never change the answer: only the image decides it. */
  lemma OptionsIgnored(req: Request, m: Field<string>, b: Field<bool>)
    ensures Handle("POST", Returned(req)) == Handle("POST", Returned(Request(req.imageBase64, m, b)))
  {
  }
}

=== FILE: reconstruction_card.dfy ===
/**
 * The 3D reconstruction card: status flags, the start gate, the start
 * button's text, and which controls the card shows for each status.
 */
module ReconstructionCard {
  /** The card's status, as the detail page derives it. */
  datatype UiStatus = Idle | Uploading | Processing | Completed | Failed

  /** Single-image or multi-image reconstruction. */
  datatype Method = SingleImage | MultiImage

  predicate IsIdle(s: UiStatus) { s == Idle }
  predicate IsProcessing(s: UiStatus) { s == Uploading || s == Processing }
  predicate IsCompleted(s: UiStatus) { s == Completed }
  predicate IsError(s: UiStatus) { s == Failed }

  /** Exactly one of the four flags holds for every status. */
  lemma FlagsPartition(s: UiStatus)
    ensures (if IsIdle(s) then 1 else 0) + (if IsProcessing(s) then 1 else 0)
          + (if IsCompleted(s) then 1 else 0) + (if IsError(s) then 1 else 0) == 1
  {
  }

  const MinMultiImages: nat := 3

  /** `canStart`: idle, at least one image, and three for the multi-image method. */
  predicate CanStart(s: UiStatus, imageCount: nat, m: Method) {
    IsIdle(s) && imageCount > 0 && (m == SingleImage || imageCount >= MinMultiImages)
  }

  /** The start button's caption key. */
  datatype StartText =
    | SelectImage | StartQuickCapture
    | SelectImages | NeedMore(count: nat) | StartReconstruction(count: nat)

  /** `getStartButtonText`. */
  function StartButtonText(m: Method, imageCount: nat): (r: StartText)
    ensures m == SingleImage ==> (r == StartQuickCapture <==> imageCount > 0)
    ensures m == MultiImage && 0 < imageCount < MinMultiImages ==>
              r.NeedMore? && imageCount + r.count == MinMultiImages
    ensures m == MultiImage && imageCount >= MinMultiImages ==> r == StartReconstruction(imageCount)
    ensures m == MultiImage && imageCount == 0 ==> r == SelectImages
  {
    if m == SingleImage then
      (if imageCount > 0 then StartQuickCapture else SelectImage)
    else if imageCount == 0 then SelectImages
    else if imageCount < 3 then NeedMore(3 - imageCount)
    else StartReconstruction(imageCount)
  }

  /** When idle, the caption invites a start exactly when the button is enabled. */
  lemma CaptionMatchesGate(m: Method, imageCount: nat)
    ensures CanStart(Idle, imageCount, m) <==>
            StartButtonText(m, imageCount) in {StartQuickCapture, StartReconstruction(imageCount)}
  {
  }

  /** What the card renders. */
  datatype Controls = Controls(
    methodSelector: bool,
    progressPanel: bool,
    cancelOffered: bool,
    imageCountShown: bool,
    startButton: bool,
    startEnabled: bool,
    retryButton: bool,
    viewResultButton: bool,
    processingNote: bool)

  function CardControls(s: UiStatus, imageCount: nat, m: Method, hasRetry: bool, hasViewResult: bool): (r: Controls)
    ensures r.methodSelector <==> IsIdle(s)
    ensures r.progressPanel <==> !IsIdle(s)
    ensures r.cancelOffered ==> r.progressPanel
    ensures r.cancelOffered <==> IsProcessing(s)
    ensures r.startButton <==> IsIdle(s)
    ensures r.startEnabled <==> CanStart(s, imageCount, m)
    ensures r.retryButton <==> IsError(s) && hasRetry
    ensures r.viewResultButton <==> IsCompleted(s) && hasViewResult
    ensures r.processingNote <==> IsProcessing(s)
  {
    Controls(
      IsIdle(s),
      !IsIdle(s),
      !IsIdle(s) && IsProcessing(s),
      IsIdle(s),
      IsIdle(s),
      CanStart(s, imageCount, m),
      IsError(s) && hasRetry,
      IsCompleted(s) && hasViewResult,
      IsProcessing(s))
  }

  /** At most one of the footer actions (start, retry, view result) is shown. */
  lemma OneFooterAction(s: UiStatus, imageCount: nat, m: Method, hasRetry: bool, hasViewResult: bool)
    ensures var c := CardControls(s, imageCount, m, hasRetry, hasViewResult);
            !(c.startButton && c.retryButton) && !(c.startButton && c.viewResultButton)
            && !(c.retryButton && c.viewResultButton)
  {
  }

  /**
   * The card shows either the method selector or the progress panel, never
   * both; the start button is only enabled where it is shown, and the
   * processing note and the cancel button come and go together.
   */
  lemma ControlsCoherent(s: UiStatus, imageCount: nat, m: Method, hasRetry: bool, hasViewResult: bool)
    ensures var c := CardControls(s, imageCount, m, hasRetry, hasViewResult);
            && (c.methodSelector != c.progressPanel)
            && (c.startEnabled ==> c.startButton && c.methodSelector)
            && (c.processingNote <==> c.cancelOffered)
            && (c.retryButton || c.viewResultButton ==> c.progressPanel && !c.cancelOffered)
  {
  }
}

=== FILE: save_detail.dfy ===
/**
 * The Save the Past detail page: the reconstruction status shown on the
 * 3D tab, its status message, the start handler, the tab badge and the
 * model download name.
 */
module SaveDetail {
  import opened Wrappers
  import opened ArtifactTypes
  import opened Thresholds
  import opened ReconstructionCard

  /** `getReconstructionStatus`: the status derived from the stored artifact alone. */
  function StoredStatus(hasModel: bool, artifactStatus: ArtifactStatus): (r: UiStatus)
    ensures hasModel ==> r == Completed
    ensures !hasModel ==> (r == Processing <==> artifactStatus == Processing3D)
    ensures !hasModel ==> (r == Failed <==> artifactStatus == Error)
    ensures r != Uploading
  {
    if hasModel then Completed
    else if artifactStatus == Processing3D then Processing
    else if artifactStatus == Error then Failed
    else Idle
  }

  /** `uiStatus`: a stored model wins, then the hook's live state, then the stored status. */
  function CardStatus(hasModel: bool, state: HookState, artifactStatus: ArtifactStatus): (r: UiStatus)
    ensures hasModel ==> r == Completed
    ensures !hasModel && state == HookIdle ==> r == StoredStatus(false, artifactStatus)
  {
    if hasModel then Completed
    else match state
      case HookUploading => Uploading
      case HookProcessing => Processing
      case HookError => Failed
      case HookComplete => Completed
      case HookIdle => StoredStatus(hasModel, artifactStatus)
  }

  /** A live hook state is shown as-is whenever there is no stored model. */
  lemma LiveStateShown(state: HookState, artifactStatus: ArtifactStatus)
    requires state != HookIdle
    ensures CardStatus(false, state, artifactStatus) ==
              match state
              case HookUploading => Uploading
              case HookProcessing => Processing
              case HookError => Failed
              case HookComplete => Completed
              case HookIdle => Idle
  {
  }

  /** The message keys of the reconstruction progress. */
  datatype ReconMessage =
    | Converting | Encoding | UploadingImages
    | Starting | Analyzing | Building | Saving | Finalizing
    | Done | ErrorMessage | Ready

  const UploadLabels: seq<ReconMessage> := [Converting, Encoding, UploadingImages]
  const ProcessingLabels: seq<ReconMessage> := [Starting, Analyzing, Building, Saving, Finalizing]

  /** `getStatusMessage`. */
  function StatusMessage(state: HookState, progress: real): (r: ReconMessage)
  {
    match state
    case HookUploading =>
      if progress < 15.0 then Converting
      else if progress < 30.0 then Encoding
      else UploadingImages
    case HookProcessing =>
      if progress < 50.0 then Starting
      else if progress < 70.0 then Analyzing
      else if progress < 85.0 then Building
      else if progress < 95.0 then Saving
      else Finalizing
    case HookComplete => Done
    case HookError => ErrorMessage
    case HookIdle => Ready
  }

  /** The message chain agrees with the shared thresholds, 15/30 and 50/70/85/95. */
  lemma StatusMessageThresholds(state: HookState, progress: real)
    ensures state == HookUploading ==> StatusMessage(state, progress) == UploadLabels[StepIndex(progress, UploadThresholds)]
    ensures state == HookProcessing ==> StatusMessage(state, progress) == ProcessingLabels[StepIndex(progress, ProcessingThresholds)]
  {
    PhaseThresholdsAscending();
    if progress < 50.0 {
      StepIndexBetween(progress, ProcessingThresholds, 0);
    } else if progress < 70.0 {
      StepIndexBetween(progress, ProcessingThresholds, 1);
    } else if progress < 85.0 {
      StepIndexBetween(progress, ProcessingThresholds, 2);
    } else if progress < 95.0 {
      StepIndexBetween(progress, ProcessingThresholds, 3);
    } else {
      StepIndexBetween(progress, ProcessingThresholds, 4);
    }
  }

  /** Within a phase, more progress never shows an earlier label. */
  lemma StatusMessageMonotone(state: HookState, p: real, q: real)
    requires p <= q
    ensures state == HookUploading ==>
              StepIndex(p, UploadThresholds) <= StepIndex(q, UploadThresholds)
              && StatusMessage(state, p) == UploadLabels[StepIndex(p, UploadThresholds)]
              && StatusMessage(state, q) == UploadLabels[StepIndex(q, UploadThresholds)]
    ensures state == HookProcessing ==>
              StepIndex(p, ProcessingThresholds) <= StepIndex(q, ProcessingThresholds)
              && StatusMessage(state, p) == ProcessingLabels[StepIndex(p, ProcessingThresholds)]
              && StatusMessage(state, q) == ProcessingLabels[StepIndex(q, ProcessingThresholds)]
  {
    StepIndexMonotone(p, q, UploadThresholds);
    StepIndexMonotone(p, q, ProcessingThresholds);
    StatusMessageThresholds(state, p);
    StatusMessageThresholds(state, q);
  }

  /** The request `handleStart` makes: every image blob in order, and the method. */
  datatype StartRequest = StartRequest(blobs: seq<Blob>, mode: Method)

  function HandleStart(images: seq<ArtifactImage>, selected: Method): (r: Option<StartRequest>)
    ensures r.None? <==> |images| == 0
    ensures r.Some? ==> |r.value.blobs| == |images|
    ensures r.Some? ==> forall i :: 0 <= i < |images| ==> r.value.blobs[i] == images[i].blob
    ensures r.Some? ==> (r.value.mode == SingleImage <==> selected == SingleImage)
  {
    if |images| == 0 then None
    else Some(StartRequest(seq(|images|, i requires 0 <= i < |images| => images[i].blob),
                           if selected == SingleImage then SingleImage else MultiImage))
  }

  /** A tab's count badge. */
  datatype Badge = NoBadge | Count(n: nat) | NinePlus

  /** Shown only for a defined positive count; counts above nine read `9+`. */
  function TabBadge(count: Option<int>): (r: Badge)
    ensures r == NoBadge <==> count.None? || count.value <= 0
    ensures r.Count? ==> count == Some(r.n) && 1 <= r.n <= 9
    ensures r == NinePlus <==> count.Some? && count.value > 9
  {
    match count
    case None => NoBadge
    case Some(c) => if c > 0 then (if c > 9 then NinePlus else Count(c)) else NoBadge
  }

  /** The model download name, `artifact-<id>.<format>`. */
  function ModelFileName(artifactId: string, format: ModelFormat): (r: string)
    ensures |r| == 10 + |artifactId| + |FormatName(format)|
    ensures r[..9] == "artifact-"
    ensures r[9..9 + |artifactId|] == artifactId
    ensures r[9 + |artifactId|] == '.' && r[10 + |artifactId|..] == FormatName(format)
  {
    "artifact-" + artifactId + "." + FormatName(format)
  }
}

=== FILE: store_links.dfy ===
/**
 * The back-reference invariant of the store: every artifact's `imageIds`
 * and `colorVariantIds` list, without repetition, exactly the images and
 * variants whose `artifactId` names it. The helpers keep the two sides in
 * step; this module proves which operations preserve the invariant, what
 * the cascade delete leaves behind, and the round trips of the store.
 */
module StoreLinks {
  import opened Wrappers
  import opened ArtifactTypes
  import opened ArtifactDb
  import KeyOrder

  function ElemSet(ids: seq<string>): (r: set<string>)
    ensures forall x :: x in r <==> x in ids
  {
    set x | x in ids
  }

  function OwnedImages(s: Store, aid: string): (r: set<string>)
    ensures forall k :: k in r <==> k in s.images && s.images[k].artifactId == aid
  {
    set k | k in s.images && s.images[k].artifactId == aid
  }

  function OwnedVariants(s: Store, aid: string): (r: set<string>)
    ensures forall k :: k in r <==> k in s.colorVariants && s.colorVariants[k].artifactId == aid
  {
    set k | k in s.colorVariants && s.colorVariants[k].artifactId == aid
  }

  /** The lists on `a` match the child records that point at `a.id`. */
  ghost predicate LinkedArtifact(s: Store, a: Artifact) {
    && Distinct(a.imageIds) && ElemSet(a.imageIds) == OwnedImages(s, a.id)
    && Distinct(a.colorVariantIds) && ElemSet(a.colorVariantIds) == OwnedVariants(s, a.id)
  }

  ghost predicate Linked(s: Store) {
    forall k :: k in s.artifacts ==> s.artifacts[k].id == k && LinkedArtifact(s, s.artifacts[k])
  }

  lemma EmptyStoreLinked()
    ensures Linked(EmptyStore)
  {
  }

  lemma DistinctTail(ids: seq<string>)
    requires |ids| > 0 && Distinct(ids)
    ensures Distinct(ids[1..]) && ids[0] !in ids[1..]
  {
    forall i, j | 0 <= i < j < |ids| - 1 ensures ids[1..][i] != ids[1..][j] {
      assert ids[1..][i] == ids[i + 1] && ids[1..][j] == ids[j + 1];
    }
  }

  lemma DistinctCons(x: string, t: seq<string>)
    requires Distinct(t) && x !in t
    ensures Distinct([x] + t)
  {
    forall i, j | 0 <= i < j < |t| + 1 ensures ([x] + t)[i] != ([x] + t)[j] {
      if i > 0 {
        assert ([x] + t)[i] == t[i - 1];
      }
      assert ([x] + t)[j] == t[j - 1];
    }
  }

  /** Filtering removes exactly the given id. */
  lemma WithoutElems(ids: seq<string>, id: string)
    ensures ElemSet(Without(ids, id)) == ElemSet(ids) - {id}
  {
    var r := Without(ids, id);
    forall x ensures x in r <==> x in ids && x != id {
      assert x in r <==> x in multiset(r);
      assert x in ids <==> x in multiset(ids);
    }
  }

  lemma {:induction false} WithoutKeepsDistinct(ids: seq<string>, id: string)
    requires Distinct(ids)
    ensures Distinct(Without(ids, id))
    ensures ElemSet(Without(ids, id)) == ElemSet(ids) - {id}
    decreases |ids|
  {
    WithoutElems(ids, id);
    if |ids| > 0 {
      DistinctTail(ids);
      WithoutKeepsDistinct(ids[1..], id);
      if ids[0] != id {
        var t := Without(ids[1..], id);
        assert ids[0] !in t;
        DistinctCons(ids[0], t);
      }
    }
  }

  /** Filtering out an id that was just appended gives back the original list. */
  lemma WithoutAppended(ids: seq<string>, x: string)
    requires x !in ids
    ensures Without(ids + [x], x) == ids
  {
    WithoutConcat(ids, [x], x);
    assert Without([x], x) == [];
  }

  lemma AppendKeepsDistinct(ids: seq<string>, x: string)
    requires Distinct(ids) && x !in ids
    ensures Distinct(ids + [x]) && ElemSet(ids + [x]) == ElemSet(ids) + {x}
  {
  }

  /** Changing the child tables without changing what any artifact owns keeps the store linked. */
  lemma SameOwnershipKeepsLinked(s: Store, r: Store)
    requires Linked(s) && r.artifacts == s.artifacts
    requires forall k :: k in s.artifacts ==> OwnedImages(r, k) == OwnedImages(s, k)
    requires forall k :: k in s.artifacts ==> OwnedVariants(r, k) == OwnedVariants(s, k)
    ensures Linked(r)
  {
  }

  /** Adding a fresh image grows only its owner's set of owned images. */
  lemma AddedImageOwned(s: Store, r: Store, img: ArtifactImage)
    requires img.id !in s.images && r.images == s.images[img.id := img]
    ensures forall k :: OwnedImages(r, k) == if k == img.artifactId then OwnedImages(s, k) + {img.id} else OwnedImages(s, k)
  {
  }

  /** Adding a fresh color variant grows only its owner's set of owned variants. */
  lemma AddedVariantOwned(s: Store, r: Store, v: ColorVariant)
    requires v.id !in s.colorVariants && r.colorVariants == s.colorVariants[v.id := v]
    ensures forall k :: OwnedVariants(r, k) == if k == v.artifactId then OwnedVariants(s, k) + {v.id} else OwnedVariants(s, k)
  {
  }

  /** Stores with the same image table own the same images. */
  lemma SameImagesSameOwned(s: Store, r: Store)
    requires r.images == s.images
    ensures forall k :: OwnedImages(r, k) == OwnedImages(s, k)
  {
  }

  /** Stores with the same variant table own the same variants. */
  lemma SameVariantsSameOwned(s: Store, r: Store)
    requires r.colorVariants == s.colorVariants
    ensures forall k :: OwnedVariants(r, k) == OwnedVariants(s, k)
  {
  }

  /** Adding an image with a fresh id keeps every artifact linked, whether or not its owner exists. */
  lemma AddImageKeepsLinked(s: Store, img: ArtifactImage, now: Time)
    requires Linked(s)
    requires AddImage(s, img, now).Success?
    ensures Linked(AddImage(s, img, now).value)
  {
    var r := AddImage(s, img, now).value;
    AddedImageOwned(s, r, img);
    SameVariantsSameOwned(s, r);
    forall k | k in r.artifacts ensures r.artifacts[k].id == k && LinkedArtifact(r, r.artifacts[k]) {
      if k == img.artifactId {
        var a := s.artifacts[k];
        assert img.id !in OwnedImages(s, k);
        AppendKeepsDistinct(a.imageIds, img.id);
      }
    }
  }

  /** Removing an image shrinks only its owner's set of owned images. */
  lemma RemovedImageOwned(s: Store, r: Store, id: string)
    requires id in s.images && r.images == s.images - {id}
    ensures forall k :: OwnedImages(r, k) == if k == s.images[id].artifactId then OwnedImages(s, k) - {id} else OwnedImages(s, k)
  {
  }

  /** Removing a color variant shrinks only its owner's set of owned variants. */
  lemma RemovedVariantOwned(s: Store, r: Store, id: string)
    requires id in s.colorVariants && r.colorVariants == s.colorVariants - {id}
    ensures forall k :: OwnedVariants(r, k) == if k == s.colorVariants[id].artifactId then OwnedVariants(s, k) - {id} else OwnedVariants(s, k)
  {
  }

  lemma DeleteImageKeepsLinked(s: Store, id: string, now: Time)
    requires Linked(s)
    ensures Linked(DeleteImage(s, id, now))
  {
    var r := DeleteImage(s, id, now);
    if id in s.images {
      var owner := s.images[id].artifactId;
      RemovedImageOwned(s, r, id);
      SameVariantsSameOwned(s, r);
      forall k | k in r.artifacts ensures r.artifacts[k].id == k && LinkedArtifact(r, r.artifacts[k]) {
        if k == owner {
          WithoutKeepsDistinct(s.artifacts[k].imageIds, id);
        }
      }
    }
  }

  lemma AddColorVariantKeepsLinked(s: Store, v: ColorVariant, now: Time)
    requires Linked(s)
    requires AddColorVariant(s, v, now).Success?
    ensures Linked(AddColorVariant(s, v, now).value)
  {
    var r := AddColorVariant(s, v, now).value;
    AddedVariantOwned(s, r, v);
    SameImagesSameOwned(s, r);
    forall k | k in r.artifacts ensures r.artifacts[k].id == k && LinkedArtifact(r, r.artifacts[k]) {
      if k == v.artifactId {
        var a := s.artifacts[k];
        assert v.id !in OwnedVariants(s, k);
        AppendKeepsDistinct(a.colorVariantIds, v.id);
      }
    }
  }

  lemma DeleteColorVariantKeepsLinked(s: Store, id: string, now: Time)
    requires Linked(s)
    ensures Linked(DeleteColorVariant(s, id, now))
  {
    var r := DeleteColorVariant(s, id, now);
    if id in s.colorVariants {
      var owner := s.colorVariants[id].artifactId;
      RemovedVariantOwned(s, r, id);
      SameImagesSameOwned(s, r);
      forall k | k in r.artifacts ensures r.artifacts[k].id == k && LinkedArtifact(r, r.artifacts[k]) {
        if k == owner {
          WithoutKeepsDistinct(s.artifacts[k].colorVariantIds, id);
        }
      }
    }
  }

  /** The cascade delete keeps the survivors linked and leaves nothing that points at `id`. */
  lemma DeleteArtifactKeepsLinked(s: Store, id: string)
    requires Linked(s)
    ensures Linked(DeleteArtifact(s, id))
    ensures OwnedImages(DeleteArtifact(s, id), id) == {} && OwnedVariants(DeleteArtifact(s, id), id) == {}
  {
    var r := DeleteArtifact(s, id);
    forall k | k in r.artifacts ensures r.artifacts[k].id == k && LinkedArtifact(r, r.artifacts[k]) {
      assert OwnedImages(r, k) == OwnedImages(s, k);
      assert OwnedVariants(r, k) == OwnedVariants(s, k);
    }
  }

  lemma SaveModelKeepsLinked(s: Store, m: Model3D, now: Time)
    requires Linked(s)
    requires SaveModel(s, m, now).Success?
    ensures Linked(SaveModel(s, m, now).value)
  {
    var r := SaveModel(s, m, now).value;
    forall k | k in r.artifacts ensures r.artifacts[k].id == k && LinkedArtifact(r, r.artifacts[k]) {
      assert OwnedImages(r, k) == OwnedImages(s, k);
      assert OwnedVariants(r, k) == OwnedVariants(s, k);
    }
  }

  lemma SaveInfoCardKeepsLinked(s: Store, c: InfoCard, now: Time)
    requires Linked(s)
    requires SaveInfoCard(s, c, now).Success?
    ensures Linked(SaveInfoCard(s, c, now).value)
  {
    var r := SaveInfoCard(s, c, now).value;
    forall k | k in r.artifacts ensures r.artifacts[k].id == k && LinkedArtifact(r, r.artifacts[k]) {
      assert OwnedImages(r, k) == OwnedImages(s, k);
      assert OwnedVariants(r, k) == OwnedVariants(s, k);
    }
  }

  /**
   * Creating an artifact keeps the store linked exactly when the lists it
   * carries already match the child records stored under its id.
   */
  lemma CreateArtifactLinked(s: Store, a: Artifact)
    requires Linked(s)
    requires CreateArtifact(s, a).Success?
    ensures Linked(CreateArtifact(s, a).value) <==> LinkedArtifact(s, a)
  {
    var r := CreateArtifact(s, a).value;
    forall k | k in r.artifacts
      ensures OwnedImages(r, k) == OwnedImages(s, k) && OwnedVariants(r, k) == OwnedVariants(s, k)
    {
    }
    assert r.artifacts[a.id] == a;
  }

  /** An image added before its artifact exists is stored but listed by no artifact. */
  lemma OrphanImage(s: Store, img: ArtifactImage, now: Time)
    requires Linked(s)
    requires img.artifactId !in s.artifacts
    requires AddImage(s, img, now).Success?
    ensures img.id in AddImage(s, img, now).value.images
    ensures forall k :: k in AddImage(s, img, now).value.artifacts ==>
              img.id !in AddImage(s, img, now).value.artifacts[k].imageIds
  {
    var r := AddImage(s, img, now).value;
    forall k | k in r.artifacts ensures img.id !in r.artifacts[k].imageIds {
      assert img.id !in ElemSet(s.artifacts[k].imageIds);
    }
  }

  /**
   * Adding an image and deleting it again restores the store, except that
   * the owner's `updatedAt` records the second call.
   */
  lemma AddThenDeleteImage(s: Store, img: ArtifactImage, t1: Time, t2: Time)
    requires img.id !in s.images
    requires img.artifactId in s.artifacts ==> img.id !in s.artifacts[img.artifactId].imageIds
    ensures var r := DeleteImage(AddImage(s, img, t1).value, img.id, t2);
            && r.images == s.images && r.models == s.models
            && r.infoCards == s.infoCards && r.colorVariants == s.colorVariants
            && r.artifacts.Keys == s.artifacts.Keys
            && forall k :: k in s.artifacts ==>
                 r.artifacts[k].(updatedAt := s.artifacts[k].updatedAt) == s.artifacts[k]
  {
    var r1 := AddImage(s, img, t1).value;
    var r := DeleteImage(r1, img.id, t2);
    assert r.images == s.images;
    if img.artifactId in s.artifacts {
      var aid := img.artifactId;
      var a := s.artifacts[aid];
      WithoutAppended(a.imageIds, img.id);
      assert r.artifacts == s.artifacts[aid := a.(updatedAt := t2)];
    }
  }

  lemma AddThenDeleteColorVariant(s: Store, v: ColorVariant, t1: Time, t2: Time)
    requires v.id !in s.colorVariants
    requires v.artifactId in s.artifacts ==> v.id !in s.artifacts[v.artifactId].colorVariantIds
    ensures var r := DeleteColorVariant(AddColorVariant(s, v, t1).value, v.id, t2);
            && r.images == s.images && r.models == s.models
            && r.infoCards == s.infoCards && r.colorVariants == s.colorVariants
            && r.artifacts.Keys == s.artifacts.Keys
            && forall k :: k in s.artifacts ==>
                 r.artifacts[k].(updatedAt := s.artifacts[k].updatedAt) == s.artifacts[k]
  {
    var r1 := AddColorVariant(s, v, t1).value;
    var r := DeleteColorVariant(r1, v.id, t2);
    assert r.colorVariants == s.colorVariants;
    if v.artifactId in s.artifacts {
      var aid := v.artifactId;
      var a := s.artifacts[aid];
      WithoutAppended(a.colorVariantIds, v.id);
      assert r.artifacts == s.artifacts[aid := a.(updatedAt := t2)];
    }
  }

  /** In a linked store a fresh child id is listed by no artifact, so both round trips above apply. */
  lemma LinkedFreshUnlisted(s: Store, aid: string, imageId: string, variantId: string)
    requires Linked(s) && aid in s.artifacts
    ensures imageId !in s.images ==> imageId !in s.artifacts[aid].imageIds
    ensures variantId !in s.colorVariants ==> variantId !in s.artifacts[aid].colorVariantIds
  {
    assert ElemSet(s.artifacts[aid].imageIds) == OwnedImages(s, aid);
    assert ElemSet(s.artifacts[aid].colorVariantIds) == OwnedVariants(s, aid);
  }

  /**
   * Regenerating a model: `model3DId` follows the latest save, while the
   * per-artifact lookup keeps returning the model with the least id.
   */
  lemma RegeneratedModelLookup(s: Store, m1: Model3D, m2: Model3D, t1: Time, t2: Time)
    requires m1.artifactId in s.artifacts && m2.artifactId == m1.artifactId
    requires forall k :: k in s.models ==> s.models[k].artifactId != m1.artifactId
    requires KeyOrder.Less(m1.id, m2.id)
    requires m1.id !in s.models && m2.id !in s.models
    ensures SaveModel(s, m1, t1).Success?
    ensures SaveModel(SaveModel(s, m1, t1).value, m2, t2).Success?
    ensures var r := SaveModel(SaveModel(s, m1, t1).value, m2, t2).value;
            && r.artifacts[m1.artifactId].model3DId == Some(m2.id)
            && IsFirstOwned(r.models, ModelOwner, m1.artifactId, m1.id)
  {
    KeyOrder.Irreflexive(m1.id);
    var r1 := SaveModel(s, m1, t1).value;
    var r := SaveModel(r1, m2, t2).value;
    forall k' | k' in r.models && ModelOwner(r.models[k']) == m1.artifactId
      ensures KeyOrder.LessOrEqual(m1.id, k')
    {
    }
  }

  // ---------------------------------------------------------------------
  // Merges

  /** An empty patch only refreshes the timestamp. */
  lemma EmptyArtifactPatch(a: Artifact, now: Time)
    ensures MergeArtifact(a, NoArtifactChange, now) == a.(updatedAt := now)
  {
  }

  /** Applying the same patch twice is applying it once, at the later time. */
  lemma ArtifactPatchIdempotent(a: Artifact, p: ArtifactPatch, t1: Time, t2: Time)
    ensures MergeArtifact(MergeArtifact(a, p, t1), p, t2) == MergeArtifact(a, p, t2)
  {
  }

  /** One field under a patch: a named field takes the patch's value, an unnamed one keeps its own. */
  predicate Takes<T(==)>(patch: Option<T>, before: T, after: T) {
    && (patch.Some? ==> after == patch.value)
    && (patch.None? ==> after == before)
  }

  /** Every field of an artifact follows its patch entry; only the id and updatedAt are exempt. */
  lemma ArtifactPatchFields(a: Artifact, p: ArtifactPatch, now: Time)
    ensures var r := MergeArtifact(a, p, now);
      && Takes(p.createdAt, a.createdAt, r.createdAt)
      && Takes(p.status, a.status, r.status)
      && Takes(p.imageIds, a.imageIds, r.imageIds)
      && Takes(p.model3DId, a.model3DId, r.model3DId)
      && Takes(p.infoCardId, a.infoCardId, r.infoCardId)
      && Takes(p.colorVariantIds, a.colorVariantIds, r.colorVariantIds)
      && Takes(p.metadata, a.metadata, r.metadata)
      && Takes(p.thumbnailBlob, a.thumbnailBlob, r.thumbnailBlob)
  {
  }

  lemma InfoCardPatchIdempotent(c: InfoCard, p: InfoCardPatch, t1: Time, t2: Time)
    ensures MergeInfoCard(MergeInfoCard(c, p, t1), p, t2) == MergeInfoCard(c, p, t2)
  {
  }

  /** Every field of an info card follows its patch entry; only the id and updatedAt are exempt. */
  lemma InfoCardPatchFields(c: InfoCard, p: InfoCardPatch, now: Time)
    ensures var r := MergeInfoCard(c, p, now);
      && Takes(p.artifactId, c.artifactId, r.artifactId)
      && Takes(p.createdAt, c.createdAt, r.createdAt)
      && Takes(p.material, c.material, r.material)
      && Takes(p.estimatedAge, c.estimatedAge, r.estimatedAge)
      && Takes(p.possibleUse, c.possibleUse, r.possibleUse)
      && Takes(p.culturalContext, c.culturalContext, r.culturalContext)
      && Takes(p.similarArtifacts, c.similarArtifacts, r.similarArtifacts)
      && Takes(p.preservationNotes, c.preservationNotes, r.preservationNotes)
      && Takes(p.aiModel, c.aiModel, r.aiModel)
      && Takes(p.aiConfidence, c.aiConfidence, r.aiConfidence)
      && Takes(p.isHumanEdited, c.isHumanEdited, r.isHumanEdited)
      && Takes(p.disclaimer, c.disclaimer, r.disclaimer)
  {
  }

  /** An update that leaves both id lists alone keeps the store linked. */
  lemma UpdateArtifactKeepsLinked(s: Store, id: string, p: ArtifactPatch, now: Time)
    requires Linked(s)
    requires p.imageIds.None? && p.colorVariantIds.None?
    ensures Linked(UpdateArtifact(s, id, p, now))
  {
    var r := UpdateArtifact(s, id, p, now);
    forall k | k in r.artifacts ensures r.artifacts[k].id == k && LinkedArtifact(r, r.artifacts[k]) {
      assert OwnedImages(r, k) == OwnedImages(s, k);
      assert OwnedVariants(r, k) == OwnedVariants(s, k);
    }
  }

  lemma UpdateInfoCardKeepsLinked(s: Store, id: string, p: InfoCardPatch, now: Time)
    requires Linked(s)
    ensures Linked(UpdateInfoCard(s, id, p, now))
  {
    var r := UpdateInfoCard(s, id, p, now);
    forall k | k in r.artifacts ensures r.artifacts[k].id == k && LinkedArtifact(r, r.artifacts[k]) {
      assert OwnedImages(r, k) == OwnedImages(s, k);
      assert OwnedVariants(r, k) == OwnedVariants(s, k);
    }
  }

  // ---------------------------------------------------------------------
  // Export

  /** Rebuilds a table from exported records by keying each on its id. */
  function IndexById<T>(records: set<T>, key: T -> string): (r: map<string, T>)
    requires forall x, y :: x in records && y in records && key(x) == key(y) ==> x == y
    ensures forall x :: x in records ==> key(x) in r && r[key(x)] == x
    ensures forall k :: k in r ==> exists x :: x in records && key(x) == k
  {
    map x | x in records :: key(x) := x
  }

  function ArtifactKey(a: Artifact): string { a.id }

  /** The artifact table re-keyed from an export is the table itself: nothing is lost or duplicated. */
  lemma ExportRoundTrip(s: Store)
    requires Keyed(s)
    ensures forall x, y ::
              (x in ExportAllData(s).artifacts && y in ExportAllData(s).artifacts && ArtifactKey(x) == ArtifactKey(y))
              ==> x == y
    ensures IndexById(ExportAllData(s).artifacts, ArtifactKey) == s.artifacts
  {
    var snap := ExportAllData(s).artifacts;
    forall x, y | x in snap && y in snap && ArtifactKey(x) == ArtifactKey(y) ensures x == y {
      var kx :| kx in s.artifacts && s.artifacts[kx] == x;
      var ky :| ky in s.artifacts && s.artifacts[ky] == y;
    }
    var m := IndexById(snap, ArtifactKey);
    forall k | k in s.artifacts ensures k in m && m[k] == s.artifacts[k] {
      assert s.artifacts[k] in snap;
    }
    forall k | k in m ensures k in s.artifacts {
      var x :| x in snap && ArtifactKey(x) == k;
      var kx :| kx in s.artifacts && s.artifacts[kx] == x;
    }
  }

  lemma ClearThenExport(s: Store)
    ensures var e := ExportAllData(ClearAllData(s));
            e.artifacts == {} && e.images == {} && e.models == {} && e.infoCards == {} && e.colorVariants == {}
  {
  }
}

=== FILE: thresholds.dfy ===
/**
 * Progress labels. Several components pick a status label with a chain of
 * `if (progress < t) return …` tests over an ascending threshold list; the
 * label chosen is the position of the first threshold not yet reached.
 */
module Thresholds {
  predicate Ascending(ts: seq<real>) {
    forall i, j :: 0 <= i < j < |ts| ==> ts[i] < ts[j]
  }

  /** The position of the first threshold in `ts` that `p` is below, or `|ts|` when it reached them all. */
  function StepIndex(p: real, ts: seq<real>): (r: nat)
    ensures r <= |ts|
    ensures r < |ts| ==> p < ts[r]
    ensures forall i :: 0 <= i < r ==> ts[i] <= p
  {
    if |ts| == 0 then 0
    else if p < ts[0] then 0
    else 1 + StepIndex(p, ts[1..])
  }

  /** More progress never moves the label back. */
  lemma {:induction false} StepIndexMonotone(p: real, q: real, ts: seq<real>)
    requires p <= q
    ensures StepIndex(p, ts) <= StepIndex(q, ts)
    decreases |ts|
  {
    if |ts| > 0 && q >= ts[0] && p >= ts[0] {
      StepIndexMonotone(p, q, ts[1..]);
    }
  }

  /** On an ascending list the label index is characterised by the two neighbouring thresholds. */
  lemma StepIndexBetween(p: real, ts: seq<real>, k: nat)
    requires Ascending(ts) && k <= |ts|
    requires k == 0 || ts[k - 1] <= p
    requires k == |ts| || p < ts[k]
    ensures StepIndex(p, ts) == k
  {
  }

  /** The thresholds of the upload phase and of the processing phase. */
  const UploadThresholds: seq<real> := [15.0, 30.0]
  const ProcessingThresholds: seq<real> := [50.0, 70.0, 85.0, 95.0]

  lemma PhaseThresholdsAscending()
    ensures Ascending(UploadThresholds) && Ascending(ProcessingThresholds)
  {
  }

  /** The state of a processing hook (reconstruction, colorization, info-card generation). */
  datatype HookState = HookIdle | HookUploading | HookProcessing | HookComplete | HookError
}

=== FILE: variant_detail_view.dfy ===
/**
 * The full-screen color-variant viewer: its scheme label and the small
 * state machine of the delete confirmation (Escape, backdrop clicks,
 * confirm and cancel).
 */
module VariantDetailView {
  import opened ArtifactTypes
  import opened VariantExport

  /**
   * The viewer labels a variant with the same scheme key as the export
   * dialog; two different schemes never share a label.
   */
  lemma SchemeKeysDistinct(a: ColorScheme, b: ColorScheme)
    requires a != b
    ensures SchemeKey(SchemeName(a)) != SchemeKey(SchemeName(b))
  {
    SchemeKeyOfScheme(a);
    SchemeKeyOfScheme(b);
    SchemeNameRoundTrip(a);
    SchemeNameRoundTrip(b);
  }

  datatype Viewer = Viewer(showConfirm: bool, isDeleting: bool)

  const Opened := Viewer(false, false)

  /** What a user action asks of the page that hosts the viewer. */
  datatype Request = NoRequest | CloseViewer | DeleteVariant

  datatype Step = Step(viewer: Viewer, request: Request)

  /** Escape closes the confirmation when it is open, and the viewer otherwise. */
  function Escape(v: Viewer): (r: Step)
    ensures v.showConfirm ==> !r.viewer.showConfirm && r.request == NoRequest
    ensures !v.showConfirm ==> r.request == CloseViewer && r.viewer == v
  {
    if v.showConfirm then Step(v.(showConfirm := false), NoRequest)
    else Step(v, CloseViewer)
  }

  /** A click on the dark backdrop closes the viewer only while no confirmation is open. */
  function BackdropClick(v: Viewer): (r: Step)
    ensures r.viewer == v
    ensures r.request == CloseViewer <==> !v.showConfirm
  {
    if v.showConfirm then Step(v, NoRequest) else Step(v, CloseViewer)
  }

  /** The delete button opens the confirmation. */
  function DeleteClick(v: Viewer): (r: Step)
    ensures r.viewer.showConfirm && r.viewer.isDeleting == v.isDeleting
    ensures r.request == NoRequest
  {
    Step(v.(showConfirm := true), NoRequest)
  }

  /** Confirming marks the viewer as deleting and calls the host's delete handler, if any. */
  function ConfirmDelete(v: Viewer, hasOnDelete: bool): (r: Step)
    requires v.showConfirm && !v.isDeleting
    ensures r.viewer.isDeleting && r.viewer.showConfirm
    ensures r.request == DeleteVariant <==> hasOnDelete
  {
    Step(v.(isDeleting := true), if hasOnDelete then DeleteVariant else NoRequest)
  }

  /** The cancel button, and the confirmation's own backdrop, close it unless a delete is under way. */
  function CancelDelete(v: Viewer): (r: Step)
    requires v.showConfirm
    ensures !v.isDeleting ==> !r.viewer.showConfirm
    ensures v.isDeleting ==> r.viewer == v
    ensures r.request == NoRequest
  {
    if v.isDeleting then Step(v, NoRequest)
    else Step(v.(showConfirm := false), NoRequest)
  }

  /** Escape with the confirmation open, then Escape again, closes the viewer. */
  lemma EscapeTwiceCloses(v: Viewer)
    requires v.showConfirm
    ensures Escape(v).request == NoRequest
    ensures Escape(Escape(v).viewer).request == CloseViewer
  {
  }

  /**
   * Nothing in the viewer clears `isDeleting`: once a delete is confirmed,
   * every action keeps it set until the host closes the viewer.
   */
  lemma DeletingIsSticky(v: Viewer)
    requires v.isDeleting
    ensures Escape(v).viewer.isDeleting && BackdropClick(v).viewer.isDeleting
    ensures DeleteClick(v).viewer.isDeleting
    ensures v.showConfirm ==> CancelDelete(v).viewer == v
  {
  }

  /** After a confirmed delete, cancel leaves the confirmation open and locked. */
  lemma ConfirmedDeleteLocksDialog(v: Viewer, hasOnDelete: bool)
    requires v.showConfirm && !v.isDeleting
    ensures var locked := ConfirmDelete(v, hasOnDelete).viewer;
            CancelDelete(locked).viewer == locked && locked.showConfirm && locked.isDeleting
  {
  }

  /** Opening the confirmation and cancelling it returns the viewer to its state on opening. */
  lemma DeleteThenCancelRestores()
    ensures CancelDelete(DeleteClick(Opened).viewer).viewer == Opened
  {
  }
}

=== FILE: variant_export.dfy ===
/**
 * The color-variant export dialog: the set of selected variant ids, the
 * select-all toggle, the choice between a direct download and a ZIP
 * archive, and the export button's state and caption.
 */
module VariantExport {
  import opened Wrappers
  import opened ArtifactTypes

  /**
   * The key the dialog and the variant detail view use to label a scheme
   * value: the scheme's own literal, or "unknown" for a value outside the
   * seven schemes (a record written by another version of the app).
   */
  function SchemeKey(scheme: string): (r: string)
    ensures ParseScheme(scheme).Some? ==> r == scheme
    ensures ParseScheme(scheme).None? ==> r == "unknown"
  {
    match ParseScheme(scheme)
    case Some(c) => SchemeName(c)
    case None => "unknown"
  }

  /** Every scheme is labelled by its own literal and never as "unknown". */
  lemma SchemeKeyOfScheme(c: ColorScheme)
    ensures SchemeKey(SchemeName(c)) == SchemeName(c)
    ensures SchemeKey(SchemeName(c)) != "unknown"
  {
    SchemeNameRoundTrip(c);
  }

  /** The ids of the listed variants. */
  function Ids(vs: seq<ColorVariant>): (r: set<string>)
    ensures forall i :: 0 <= i < |vs| ==> vs[i].id in r
  {
    if |vs| == 0 then {}
    else
      var rest := Ids(vs[1..]);
      assert forall i :: 1 <= i < |vs| ==> vs[i] == vs[1..][i - 1];
      {vs[0].id} + rest
  }

  /** Only listed variants contribute ids. */
  lemma {:induction false} IdsOnlyListed(vs: seq<ColorVariant>, x: string)
    requires x in Ids(vs)
    ensures exists i :: 0 <= i < |vs| && vs[i].id == x
  {
    if vs[0].id != x {
      IdsOnlyListed(vs[1..], x);
      var i :| 0 <= i < |vs| - 1 && vs[1..][i].id == x;
      assert vs[i + 1].id == x;
    }
  }

  /** No two listed variants share an id (the table's primary key). */
  predicate DistinctIds(vs: seq<ColorVariant>) {
    forall i, j :: 0 <= i < j < |vs| ==> vs[i].id != vs[j].id
  }

  /** Clicking a variant's checkbox flips that variant and no other. */
  function Toggle(sel: set<string>, id: string): (r: set<string>)
    ensures id in r <==> id !in sel
    ensures forall x :: x != id ==> (x in r <==> x in sel)
  {
    if id in sel then sel - {id} else sel + {id}
  }

  /** Clicking the same checkbox twice restores the selection. */
  lemma ToggleTwice(sel: set<string>, id: string)
    ensures Toggle(Toggle(sel, id), id) == sel
  {
  }

  /** `allSelected`: as many ids selected as there are variants, and at least one variant. */
  predicate AllSelected(sel: set<string>, vs: seq<ColorVariant>) {
    |sel| == |vs| && |vs| > 0
  }

  /** `someSelected`. */
  predicate SomeSelected(sel: set<string>) {
    |sel| > 0
  }

  /** The select-all checkbox: clears a full selection, otherwise selects every variant. */
  function ToggleSelectAll(sel: set<string>, vs: seq<ColorVariant>): (r: set<string>)
    ensures AllSelected(sel, vs) ==> r == {}
    ensures !AllSelected(sel, vs) ==> forall i :: 0 <= i < |vs| ==> vs[i].id in r
    ensures r <= Ids(vs)
  {
    if AllSelected(sel, vs) then {} else Ids(vs)
  }

  /** The tail of a distinct list is distinct, and its ids miss the head's id. */
  lemma DistinctIdsTail(vs: seq<ColorVariant>)
    requires DistinctIds(vs) && |vs| > 0
    ensures DistinctIds(vs[1..])
    ensures Ids(vs) == {vs[0].id} + Ids(vs[1..])
    ensures vs[0].id !in Ids(vs[1..])
  {
    var rest := vs[1..];
    forall i, j | 0 <= i < j < |rest|
      ensures rest[i].id != rest[j].id
    {
      assert rest[i] == vs[i + 1] && rest[j] == vs[j + 1];
    }
    if vs[0].id in Ids(rest) {
      IdsOnlyListed(rest, vs[0].id);
    }
  }

  /** Distinct ids number exactly as many as the variants. */
  lemma {:induction false} IdsCount(vs: seq<ColorVariant>)
    requires DistinctIds(vs)
    ensures |Ids(vs)| == |vs|
  {
    if |vs| > 0 {
      DistinctIdsTail(vs);
      IdsCount(vs[1..]);
    }
  }

  /**
   * When the selection holds only ids of the listed variants, which are
   * distinct, "all selected" means exactly every variant is selected.
   */
  lemma AllSelectedMeansEvery(sel: set<string>, vs: seq<ColorVariant>)
    requires DistinctIds(vs) && sel <= Ids(vs)
    ensures AllSelected(sel, vs) <==> |vs| > 0 && sel == Ids(vs)
  {
    IdsCount(vs);
    if |sel| == |vs| {
      assert |Ids(vs) - sel| == |Ids(vs)| - |sel|;
      assert Ids(vs) - sel == {};
      assert sel == Ids(vs);
    }
  }

  /** From a partial selection, select-all makes every variant selected; a second click clears it. */
  lemma SelectAllTwice(sel: set<string>, vs: seq<ColorVariant>)
    requires DistinctIds(vs) && |vs| > 0 && !AllSelected(sel, vs)
    ensures AllSelected(ToggleSelectAll(sel, vs), vs)
    ensures ToggleSelectAll(ToggleSelectAll(sel, vs), vs) == {}
  {
    IdsCount(vs);
  }

  /** `variants.filter(v => selectedIds.has(v.id))`. */
  function Selected(vs: seq<ColorVariant>, sel: set<string>): (r: seq<ColorVariant>)
    ensures forall v :: v in r <==> v in vs && v.id in sel
    ensures |r| <= |vs|
  {
    if |vs| == 0 then []
    else
      var rest := Selected(vs[1..], sel);
      assert forall v :: v in vs <==> v == vs[0] || v in vs[1..];
      if vs[0].id in sel then [vs[0]] + rest else rest
  }

  /** A single variant is kept exactly when it is selected. */
  lemma SelectedSingle(v: ColorVariant, sel: set<string>)
    ensures Selected([v], sel) == if v.id in sel then [v] else []
  {
    assert [v][1..] == [];
  }

  /**
   * The filter keeps list order: filtering a concatenation is the
   * concatenation of the filtered parts.
   */
  lemma {:induction false} SelectedConcat(vs: seq<ColorVariant>, ws: seq<ColorVariant>, sel: set<string>)
    ensures Selected(vs + ws, sel) == Selected(vs, sel) + Selected(ws, sel)
    decreases |vs|
  {
    if |vs| == 0 {
      assert vs + ws == ws;
    } else {
      assert (vs + ws)[0] == vs[0];
      assert (vs + ws)[1..] == vs[1..] + ws;
      SelectedConcat(vs[1..], ws, sel);
    }
  }

  /** With distinct ids, the filter returns one variant per selected listed id. */
  lemma {:induction false} SelectedCount(vs: seq<ColorVariant>, sel: set<string>)
    requires DistinctIds(vs)
    ensures |Selected(vs, sel)| == |sel * Ids(vs)|
  {
    if |vs| > 0 {
      var rest := vs[1..];
      DistinctIdsTail(vs);
      SelectedCount(rest, sel);
      assert Selected(vs, sel) == (if vs[0].id in sel then [vs[0]] else []) + Selected(rest, sel);
      if vs[0].id in sel {
        assert sel * Ids(vs) == {vs[0].id} + sel * Ids(rest);
      } else {
        assert sel * Ids(vs) == sel * Ids(rest);
      }
    }
  }

  /** What pressing the export button does. */
  datatype ExportAction =
    | NoExport
    | DirectDownload(variant: ColorVariant)
    | ZipExport(variants: seq<ColorVariant>)

  /**
   * `handleExport`: nothing with an empty selection; a direct download for
   * one selected variant without metadata; a ZIP of the selected variants,
   * in list order, otherwise.
   */
  function HandleExport(sel: set<string>, vs: seq<ColorVariant>, includeMetadata: bool): (r: ExportAction)
    ensures r.NoExport? <==> |sel| == 0
    ensures r.DirectDownload? ==> r.variant in vs && r.variant.id in sel && !includeMetadata
    ensures r.ZipExport? ==> forall v :: v in r.variants <==> v in vs && v.id in sel
    ensures r.ZipExport? ==> r.variants == Selected(vs, sel)
    ensures r.DirectDownload? ==> Selected(vs, sel) == [r.variant]
    ensures |sel| > 0 && includeMetadata ==> r.ZipExport?
  {
    if |sel| == 0 then NoExport
    else
      var chosen := Selected(vs, sel);
      if |chosen| == 1 && !includeMetadata then
        assert chosen[0] in chosen;
        DirectDownload(chosen[0])
      else ZipExport(chosen)
  }

  /** The export button is disabled while exporting or with nothing selected. */
  predicate ExportDisabled(isExporting: bool, sel: set<string>) {
    isExporting || !SomeSelected(sel)
  }

  /** An enabled export button always starts an export. */
  lemma EnabledButtonExports(sel: set<string>, vs: seq<ColorVariant>, includeMetadata: bool)
    requires !ExportDisabled(false, sel)
    ensures !HandleExport(sel, vs, includeMetadata).NoExport?
  {
  }

  datatype ButtonCaption = Exporting | Exported | DownloadZip | Download

  /** The caption: progress first, then success, then ZIP for several ids or metadata. */
  function ExportCaption(isExporting: bool, exportSuccess: bool, sel: set<string>, includeMetadata: bool): (r: ButtonCaption)
    ensures r == Exporting <==> isExporting
    ensures r == Exported <==> !isExporting && exportSuccess
    ensures r == Download <==> !isExporting && !exportSuccess && |sel| <= 1 && !includeMetadata
    ensures r == DownloadZip <==> !isExporting && !exportSuccess && (|sel| > 1 || includeMetadata)
  {
    if isExporting then Exporting
    else if exportSuccess then Exported
    else if |sel| > 1 || includeMetadata then DownloadZip
    else Download
  }

  /**
   * When the selection holds only ids of the listed variants, the idle
   * caption announces the action the button performs: "ZIP" exactly when
   * a ZIP is built.
   */
  lemma CaptionMatchesAction(sel: set<string>, vs: seq<ColorVariant>, includeMetadata: bool)
    requires DistinctIds(vs) && sel <= Ids(vs) && |sel| > 0
    ensures ExportCaption(false, false, sel, includeMetadata) == DownloadZip
      <==> HandleExport(sel, vs, includeMetadata).ZipExport?
    ensures ExportCaption(false, false, sel, includeMetadata) == Download
      <==> HandleExport(sel, vs, includeMetadata).DirectDownload?
  {
    SelectedCount(vs, sel);
    assert sel * Ids(vs) == sel;
  }
}

=== FILE: wrappers.dfy ===
/** Option and Result datatypes and small JavaScript semantics shared by every module of the model. */
module Wrappers {

  /** A value that may be absent: TypeScript's `T | undefined`. */
  datatype Option<+T> = None | Some(value: T) {
    function GetOr(default: T): T {
      match this
      case Some(v) => v
      case None => default
    }
  }

  /** The outcome of an operation that can fail (a rejected promise in the source). */
  datatype Result<+R, +E> = Success(value: R) | Failure(error: E)

  /** JavaScript truthiness of an optional string: absent and "" are both falsy. */
  predicate Truthy(s: Option<string>) {
    s.Some? && s.value != ""
  }

  /** `s.startsWith(prefix)`. */
  predicate StartsWith(s: string, prefix: string) {
    |prefix| <= |s| && s[..|prefix|] == prefix
  }

  /** `slice(0, end)` on a JavaScript array or string: a negative end counts back from the length. */
  function SliceTo<T>(xs: seq<T>, end: int): (r: seq<T>)
    ensures end >= 0 ==> |r| == if end < |xs| then end else |xs|
    ensures end < 0 ==> |r| == if |xs| + end > 0 then |xs| + end else 0
    ensures r == xs[..|r|]
  {
    if end >= 0 then (if end < |xs| then xs[..end] else xs)
    else if |xs| + end > 0 then xs[..|xs| + end]
    else []
  }
}
